=== FILE: README.md ===
# Bitcoin-collateral lending: the decision and byte logic, in Dafny

This project models the pure logic of a peer-to-peer lending app in which a
borrower locks bitcoin as collateral and a lender pays out. The model leaves
out the wallets, block explorers and UI that surround that logic. Every
operation is a pure function over immutable datatypes. Wallet answers,
explorer lookups and library parsers come in as parameters.

The modules follow the program's structure:

- `CompactSize`, `RawTx`, `RawTxFormat`, `SpvProof` cover the raw-transaction
  splitter and the Merkle-proof packing used to prove a lending transaction
  on chain (`lib/btc.js`).
  - `RawTx.SplitTransaction` cuts a raw transaction into version, segwit flag,
    inputs, outputs, witnesses and locktime.
  - `RawTxFormat` is an independent definition of a well-framed transaction
    and its serialization. Against it the splitter is proved to return exactly
    the serialized fields, and in all cases to lose no byte.
- `ContractInput` covers the oracle, contract and loan parameter checks of the
  DLC manager (`contract_input.rs`). `AcceptedContract` covers profit and
  loss, the contract id as text, the accept message, and the loan-to-plain
  conversion (`accepted_contract.rs`).
- `Utils`, `Hex`, `LocalStorage` model hex prefixing, `asBigInt`, hex text,
  and the browser key/value store (`utils/index.ts`, `utils/localStorage.ts`).
- `Psbts` is an abstract partially-signed-transaction record: inputs with
  outpoint, sequence, witness UTXO, requested sighash, signature and
  finalization, plus outputs.
- `Forms` holds the JavaScript form-field checks.
- `DustIntent` covers dust-UTXO selection and split planning with the policy
  numbers of each screen. `BorrowRequestScreen` and `SignerScreen` build the
  borrower's one-input, one-output intent PSBT (`BorrowRequest.tsx`,
  `PSBTSigner.tsx`).
- `LenderFill` covers the lender's guards, the choice of covering UTXO, the
  fixed fee, the change rule and the history record (`LenderFill.tsx`).
- `TransactionHistory` covers the pending-to-confirmed refresh
  (`TransactionHistoryModal.tsx`). `TransactionCard` covers txid truncation,
  the prove button and the `lend` call arguments (`TransactionCard.tsx`).

Some behaviours of the code are lenient or partial, and the model keeps
them as written:

- The locktime is read with the clamping take, so a transaction whose last
  field is shorter than four bytes is still accepted. A strict reader would
  require four bytes; the clamping take does not.
  `RawTxFormat.TruncatedLocktimeAccepted` exhibits the lenient behaviour.
- When the explorer's proof has no `merkle` array, the intermediate nodes are
  empty (`SpvProof.IntermediateNodes`). No error is raised for an empty
  proof.
- The borrower screen's network check is commented out in the code, so the
  model ignores the network there (`BorrowRequestScreen.NetworkIgnored`). The
  same holds for the collateral and liquidation ratio checks of a loan
  (`ContractInput.RatiosUnchecked`) and for the block-height condition of the
  history refresh.

## Model

| member | source | states |
|---|---|---|
| CompactSize.NextBytes | frontend/citrea-lending-frontend/lib/btc.js:4-6 | the taken part followed by the rest is the buffer; the taken part has length min(n, buffer length); the take never fails |
| CompactSize.NextVarInt | frontend/citrea-lending-frontend/lib/btc.js:8-28 | succeeds iff the buffer is non-empty and holds the 1, 3, 5 or 9 bytes the first byte announces; raw bytes followed by the rest are the buffer; a first byte below 0xfd is the value, otherwise the value is the little-endian number after it |
| CompactSize.LittleEndianRoundTrip | frontend/citrea-lending-frontend/lib/btc.js:16-24 | reading back n little-endian bytes written for v < 256^n gives v |
| CompactSize.VarIntRoundTrip | frontend/citrea-lending-frontend/lib/btc.js:8-28 | the varint decoder applied to the canonical CompactSize encoding of any v < 2^64 followed by anything returns v, exactly the encoding's bytes, and the untouched rest |
| CompactSize.EncodeWidths | frontend/citrea-lending-frontend/lib/btc.js:13-25 | the encoding widths switch from 1 to 3 to 5 to 9 bytes at 253, 2^16 and 2^32 |
| RawTx.ReadHeader | frontend/citrea-lending-frontend/lib/btc.js:42-52 | the flag is non-empty exactly when the first count read is zero, and is then that count's bytes plus the next byte (not checked to be 0x01); flag, count bytes and rest rebuild the buffer |
| RawTx.ReadInputs | frontend/citrea-lending-frontend/lib/btc.js:55-69 | the bytes taken for the inputs followed by the rest are the buffer |
| RawTx.ReadOutputs | frontend/citrea-lending-frontend/lib/btc.js:75-86 | the bytes taken for the outputs followed by the rest are the buffer |
| RawTx.ReadWitnesses | frontend/citrea-lending-frontend/lib/btc.js:93-106 | the bytes taken for the witness stacks followed by the rest are the buffer |
| RawTx.ReadWitnessSection | frontend/citrea-lending-frontend/lib/btc.js:89-108 | with an empty flag no witness bytes are read; otherwise the taken witness bytes and the rest rebuild the buffer |
| RawTx.SplitTransaction | frontend/citrea-lending-frontend/lib/btc.js:30-126 | on success the locktime is at most four bytes and a legacy transaction has no witness data |
| RawTx.SplitLossless | frontend/citrea-lending-frontend/lib/btc.js:110-125 | whenever the split succeeds, version, flag, inputs, outputs, witness and locktime concatenated give back the input bytes |
| RawTxFormat.ReadInputsOfSerialized | frontend/citrea-lending-frontend/lib/btc.js:55-69 | reading count inputs (32+4 bytes, varint, script, 4 bytes each) from serialized inputs followed by anything takes exactly those inputs' bytes |
| RawTxFormat.ReadOutputsOfSerialized | frontend/citrea-lending-frontend/lib/btc.js:76-86 | reading count outputs (8 bytes, varint, script each) takes exactly the serialized outputs |
| RawTxFormat.ReadWitnessesOfSerialized | frontend/citrea-lending-frontend/lib/btc.js:91-106 | one varint-counted stack per input is read back exactly |
| RawTxFormat.ReadHeaderOfSerialized | frontend/citrea-lending-frontend/lib/btc.js:44-52 | a segwit marker and flag followed by the real input count, or a non-zero input count alone, is read back as that flag and count |
| RawTxFormat.SplitOfSerialized | frontend/citrea-lending-frontend/lib/btc.js:30-126 | the split of any well-framed serialized transaction returns exactly its version, flag, count-prefixed inputs and outputs, witnesses and locktime |
| RawTxFormat.SplitOfExtended | frontend/citrea-lending-frontend/lib/btc.js:30-126 | a framed transaction followed by any bytes is read as its own segments up to the locktime, which takes up to four of the remaining bytes; anything left after that is refused as a non-empty buffer |
| RawTxFormat.TrailingBytesRejected | frontend/citrea-lending-frontend/lib/btc.js:110-116 | a well-formed transaction followed by at least one byte is refused as a non-empty buffer |
| RawTxFormat.TruncatedLocktimeAccepted | frontend/citrea-lending-frontend/lib/btc.js:110-116 | a transaction whose locktime is cut short is still accepted, with the short locktime |
| SpvProof.SplitTransactionHex | frontend/citrea-lending-frontend/lib/btc.js:30-31 | a successful split of the hex text rebuilds the decoded bytes |
| SpvProof.IntermediateNodes | frontend/citrea-lending-frontend/lib/btc.js:138-144 | with no merkle array the nodes are empty |
| SpvProof.IntermediateNodesAppend | frontend/citrea-lending-frontend/lib/btc.js:138-153 | the packing is a concatenation, node by node in order |
| SpvProof.SiblingRecovered | frontend/citrea-lending-frontend/lib/btc.js:138-153 | for 32-byte siblings given as hex, the k-th 32-byte chunk of the packing is the k-th sibling byte-reversed, and reversing it recovers the sibling |
| SpvProof.GetTransactionParams | frontend/citrea-lending-frontend/lib/btc.js:128-157 | succeeds iff the split succeeds and both block height and position convert to BigInt; a split failure and a height failure are reported as such; height and index carry the converted values |
| SpvProof.ParamsCarrySegments | frontend/citrea-lending-frontend/lib/btc.js:146-156 | each hex field is "0x" plus the hex of the matching segment and decodes back to it; the nodes field decodes back to the packed proof |
| SpvProof.ParamsOfSerialized | frontend/citrea-lending-frontend/lib/btc.js:128-157 | for a serialized well-framed transaction the parameters are exactly the hex of its version, count-prefixed inputs and outputs, locktime and packed proof |
| Utils.WithHexPrefix | frontend/citrea-lending-frontend/utils/index.ts:1-2 | the result starts with "0x", ends with the argument, is at most two characters longer, and equals the argument iff it already had the prefix |
| Utils.WithHexPrefixIdempotent | frontend/citrea-lending-frontend/utils/index.ts:1-2 | prefixing twice is prefixing once |
| Utils.PrefixedHexRoundTrip | frontend/citrea-lending-frontend/utils/index.ts:1-2 | prefixing hex text adds exactly "0x", and dropping it decodes back to the bytes |
| Utils.AsBigInt | frontend/citrea-lending-frontend/utils/index.ts:4-12 | succeeds iff the value is a bigint or an integral number, keeping its value; any other type fails |
| Utils.AsBigIntOfInteger | frontend/citrea-lending-frontend/utils/index.ts:4-12 | every integer, as number or as bigint, converts to itself |
| Hex.ByteToHex | stable-borrow-cli/crates/dlc-manager/src/contract/accepted_contract.rs:79 | two lowercase hex digits whose values make up the byte |
| Hex.Encode | frontend/citrea-lending-frontend/lib/btc.js:149-153 | two characters per byte, all lowercase hex digits |
| Hex.Decode | frontend/citrea-lending-frontend/lib/btc.js:31 | at most one byte per two characters |
| Hex.DecodeDigits | frontend/citrea-lending-frontend/lib/btc.js:31 | byte k of the decoding is the value of the k-th pair of hex digits |
| Hex.DecodeStops | frontend/citrea-lending-frontend/lib/btc.js:31 | decoding stops before the last whole pair only at a pair holding a non-digit |
| Hex.DecodeEncode | frontend/citrea-lending-frontend/lib/btc.js:149-153 | decoding the hex text of any bytes gives back the bytes |
| Hex.EncodeInjective | stable-borrow-cli/crates/dlc-manager/src/contract/accepted_contract.rs:78-80 | different bytes never share hex text |
| LocalStorage.Set | frontend/citrea-lending-frontend/utils/localStorage.ts:33-36 | when available, the key is added and every other key keeps its value |
| LocalStorage.Add | frontend/citrea-lending-frontend/utils/localStorage.ts:18-31 | afterwards the item is listed, the earlier list is a prefix, the list grew by at most one, nothing changed iff the item was already there, and other keys keep their values; without storage nothing is written |
| LocalStorage.GetAfterSet | frontend/citrea-lending-frontend/utils/localStorage.ts:33-36 | reading a key just set gives the value |
| LocalStorage.GetOtherAfterSet | frontend/citrea-lending-frontend/utils/localStorage.ts:33-36 | setting one key does not change what another reads |
| LocalStorage.UnavailableIsInert | frontend/citrea-lending-frontend/utils/localStorage.ts:19 | without storage, writes change nothing and reads give the default |
| LocalStorage.AddIdempotent | frontend/citrea-lending-frontend/utils/localStorage.ts:18-31 | adding twice equals adding once |
| LocalStorage.AddKeepsOtherKeys | frontend/citrea-lending-frontend/utils/localStorage.ts:18-31 | an add leaves other keys' lists as they were |
| ContractInput.ValidateOracle | stable-borrow-cli/crates/dlc-manager/src/contract/contract_input.rs:31-51 | fails with no keys, else with a threshold above the key count truncated to 16 bits, else with a zero threshold; passes iff none applies |
| ContractInput.OracleThresholdRange | stable-borrow-cli/crates/dlc-manager/src/contract/contract_input.rs:38-50 | below 2^16 keys, the oracle passes iff 1 <= threshold <= key count |
| ContractInput.OracleKeyCountWraps | stable-borrow-cli/crates/dlc-manager/src/contract/contract_input.rs:38 | with exactly 2^16 keys the truncated count is 0 and a threshold of 1 is rejected |
| ContractInput.ValidateOracles | stable-borrow-cli/crates/dlc-manager/src/contract/contract_input.rs:96-98 | passes iff every oracle passes; a failure is the first failing oracle's error |
| ContractInput.ValidateInfosAndFee | stable-borrow-cli/crates/dlc-manager/src/contract/contract_input.rs:89-102 | no contract info fails first, then the first oracle failure, then the fee-rate check, in that order |
| ContractInput.Validate | stable-borrow-cli/crates/dlc-manager/src/contract/contract_input.rs:89-102 | passes iff there is a contract info, every oracle is valid and the fee rate is accepted |
| ContractInput.ValidateLoan | stable-borrow-cli/crates/dlc-manager/src/contract/contract_input.rs:131-168 | an interest rate outside 1..100 fails first, then a zero duration, then the contract checks |
| ContractInput.LoanAgreesWithContract | stable-borrow-cli/crates/dlc-manager/src/contract/contract_input.rs:156-167 | past the interest and duration checks a loan input is judged exactly like a contract input with its infos and fee rate |
| ContractInput.RatiosUnchecked | stable-borrow-cli/crates/dlc-manager/src/contract/contract_input.rs:132-142 | the collateral and liquidation ratios never change the verdict |
| ContractInput.UnitTestVerdicts | stable-borrow-cli/crates/dlc-manager/src/contract/contract_input.rs:180-268 | for any fee check accepting 1234 and rejecting 251*25, the base input passes and the test variants fail with the expected errors |
| AcceptedContract.FinalPayout | stable-borrow-cli/crates/dlc-manager/src/contract/accepted_contract.rs:113-125 | the value of the first output paying the party's script, or 0 when none does |
| AcceptedContract.PartyPnl | stable-borrow-cli/crates/dlc-manager/src/contract/accepted_contract.rs:126-127 | out of range iff payout or collateral exceeds the signed maximum; otherwise payout minus collateral, possibly negative |
| AcceptedContract.ComputePnl | stable-borrow-cli/crates/dlc-manager/src/contract/accepted_contract.rs:106-128 | the own party's first matching payout minus its collateral, failing iff either amount exceeds the signed range |
| AcceptedContract.PnlOfMissedPayout | stable-borrow-cli/crates/dlc-manager/src/contract/accepted_contract.rs:237-242 | a closing transaction paying nothing to the party with 11000000 collateral gives -11000000 |
| AcceptedContract.PnlUsesFirstMatch | stable-borrow-cli/crates/dlc-manager/src/contract/accepted_contract.rs:115-125 | with two outputs to the party's script, the first one's value is used |
| AcceptedContract.ContractId | stable-borrow-cli/crates/dlc-manager/src/contract/accepted_contract.rs:65-71 | the id derived from fund txid, fund output index and temporary id, for every index that fits 16 bits |
| AcceptedContract.ContractIdWraps | stable-borrow-cli/crates/dlc-manager/src/contract/accepted_contract.rs:65-71 | the `as u16` cast wraps: moving the fund output index by any multiple of 65536 gives the same id |
| AcceptedContract.ContractIdCollision | stable-borrow-cli/crates/dlc-manager/src/contract/accepted_contract.rs:65-71 | fund output indexes 0 and 65536 give the same id, the one derived with index 0 |
| AcceptedContract.GetContractIdWraps | stable-borrow-cli/crates/dlc-manager/src/contract/accepted_contract.rs:65-71 | the contract's id is unchanged when its fund output index moves by a multiple of 65536 |
| AcceptedContract.GetContractId | stable-borrow-cli/crates/dlc-manager/src/contract/accepted_contract.rs:65-71 | for a fund output index that fits 16 bits, the id derived from fund txid, that index and the offer's temporary id |
| AcceptedContract.GetLoanContractId | stable-borrow-cli/crates/dlc-manager/src/contract/accepted_contract.rs:131-216 | the same derivation over the loan's transactions and the loan offer's temporary id |
| AcceptedContract.GetLoanContractIdWraps | stable-borrow-cli/crates/dlc-manager/src/contract/accepted_contract.rs:131-216 | the loan contract's id is unchanged when its fund output index moves by a multiple of 65536 |
| AcceptedContract.ContractIdString | stable-borrow-cli/crates/dlc-manager/src/contract/accepted_contract.rs:74-83 | "0x" then two lowercase hex digits per byte, decoding back to the id |
| AcceptedContract.ContractIdStringShape | stable-borrow-cli/crates/dlc-manager/src/contract/accepted_contract.rs:74-83 | a 32-byte id gives 66 characters, and distinct ids give distinct strings |
| AcceptedContract.AcceptContractMsg | stable-borrow-cli/crates/dlc-manager/src/contract/accepted_contract.rs:85-103 | no negotiation fields; the temporary id is the offered contract's id |
| AcceptedContract.AcceptMsgCarriesParams | stable-borrow-cli/crates/dlc-manager/src/contract/accepted_contract.rs:89-101 | the accept parameters can be rebuilt from the message, and inputs, refund signature, adaptor signatures and version are carried |
| AcceptedContract.ToAcceptedContract | stable-borrow-cli/crates/dlc-manager/src/contract/accepted_contract.rs:206-216 | the shared fields of the loan contract carry over |
| AcceptedContract.ConversionForgetsEscrow | stable-borrow-cli/crates/dlc-manager/src/contract/accepted_contract.rs:206-216 | changing only the escrow fields or the loan terms does not change the conversion |
| AcceptedContract.ConversionKeepsShared | stable-borrow-cli/crates/dlc-manager/src/contract/accepted_contract.rs:206-216 | loan contracts that agree on escrow fields and loan terms and convert alike are equal: nothing else is dropped |
| AcceptedContract.ComputeLoanPnl | stable-borrow-cli/crates/dlc-manager/src/contract/accepted_contract.rs:182-204 | the loan's profit and loss is payout minus collateral, read through the inner offered contract |
| AcceptedContract.AcceptLoanContractMsg | stable-borrow-cli/crates/dlc-manager/src/contract/accepted_contract.rs:152-179 | no negotiation fields; the escrow txid and borrower hash are the contract's |
| AcceptedContract.LoanAgreesWithConversion | stable-borrow-cli/crates/dlc-manager/src/contract/accepted_contract.rs:131-216 | loan profit and loss, loan contract id and the shared part of the loan accept message equal those of the converted contract |
| Psbts.SpendInput | frontend/citrea-lending-frontend/components/BorrowRequest.tsx:261-272 | an input spends the UTXO's outpoint with its value as witness value, unsigned and not finalized |
| Psbts.AddInput | frontend/citrea-lending-frontend/components/LenderFill.tsx:248-259 | fails with "signatures exist" when some signature, partial or finalized, lacks the ANYONECANPAY bit (0x80), and otherwise with a duplicate-input error when some input already spends the same outpoint; it succeeds iff neither holds, and then the input is appended and earlier inputs and all outputs are unchanged |
| Psbts.AddUnsignedInputKeepsChecks | frontend/citrea-lending-frontend/components/LenderFill.tsx:248-268 | appending an unsigned input changes neither whether inputs nor whether outputs may still be added |
| Psbts.AddInputKeepsDistinct | frontend/citrea-lending-frontend/components/LenderFill.tsx:248-259 | adding inputs never puts two inputs on one outpoint, and the added outpoint is then spent |
| Psbts.AddSpentInputFails | frontend/citrea-lending-frontend/components/PSBTSigner.tsx:226-233 | adding an input over an outpoint the PSBT already spends always fails, as a duplicate when the signatures allow adding inputs |
| Psbts.AddOutput | frontend/citrea-lending-frontend/components/LenderFill.tsx:262-268 | succeeds iff every signature's base type (`& 0x1f`) is SINGLE or NONE, failing with "signatures exist" otherwise; on success the output is appended and earlier outputs and all inputs are unchanged |
| Psbts.SingleAnyoneCanPayAllowsBoth | frontend/citrea-lending-frontend/components/PSBTSigner.tsx:213-216 | when every signature has type 0x83 (SINGLE\|ANYONECANPAY), both an input and an output may still be added |
| Psbts.SighashAllFreezes | frontend/citrea-lending-frontend/components/LenderFill.tsx:240-268 | one SIGHASH_ALL signature makes both adding an input and adding an output fail with "signatures exist" |
| Psbts.FinalizeInput | frontend/citrea-lending-frontend/components/LenderFill.tsx:240 | succeeds iff the input exists, is not finalized yet, is signed, and its signature has the input's requested sighash type when one is set; a missing or already finalized input is reported as such; only that input changes, to finalized, keeping its outpoint and signature |
| Psbts.FinalizeKeepsChecks | frontend/citrea-lending-frontend/components/LenderFill.tsx:240-268 | finalizing changes neither whether inputs nor whether outputs may still be added |
| Psbts.FinalizeKeepsSpends | frontend/citrea-lending-frontend/components/LenderFill.tsx:240 | finalizing keeps the set of spent outpoints |
| Psbts.SignInput | frontend/citrea-lending-frontend/components/PSBTSigner.tsx:213-216 | succeeds iff the input exists and the wallet approves; a missing input and a refusal are reported as such; on success that input carries a signature with the requested sighash and keeps its outpoint, and nothing else changes |
| Psbts.SignKeepsSpends | frontend/citrea-lending-frontend/components/PSBTSigner.tsx:213-216 | signing keeps the set of spent outpoints |
| Psbts.SignKeepsAddInputCheck | frontend/citrea-lending-frontend/components/PSBTSigner.tsx:213-233 | signing with an ANYONECANPAY type keeps inputs addable |
| Psbts.SignThenFinalize | frontend/citrea-lending-frontend/components/LenderFill.tsx:240 | an unfinalized input the wallet signed with the requested type, or with none requested, can be finalized exactly once and keeps its outpoint |
| Psbts.FinalizeRejectsOtherSighash | frontend/citrea-lending-frontend/components/BorrowRequest.tsx:261-272 | a signature of another type than the input requests is refused at finalization |
| Forms.IsPositive | frontend/citrea-lending-frontend/components/BorrowRequest.tsx:137-144 | accepted iff not (empty text, or NaN, or at most zero under JavaScript comparison) |
| Forms.IsNonNegative | frontend/citrea-lending-frontend/components/BorrowRequest.tsx:145-152 | accepted iff not (empty text, or NaN, or below zero under JavaScript comparison) |
| Forms.FieldCheckFacts | frontend/citrea-lending-frontend/components/BorrowRequest.tsx:137-152 | a positive field is non-negative; empty text or NaN is neither; zero is non-negative but not positive |
| DustIntent.ChooseDust | frontend/citrea-lending-frontend/components/BorrowRequest.tsx:168-201 | an existing dust UTXO is chosen iff one exists, and it is the first; otherwise the first UTXO above the split threshold is split into a dust output and a change output to the own address, with dust + change + fee equal to the source value; the error iff neither exists |
| DustIntent.SplitChangePositive | frontend/citrea-lending-frontend/components/BorrowRequest.tsx:173-198 | when no dust exists the split source lies above the dust band, so the change output is positive |
| DustIntent.ScreensSplitPositive | frontend/citrea-lending-frontend/components/PSBTSigner.tsx:134-158 | with the borrow screen's 1500/3000 and the signer's 330/1000 policies the change exceeds 1200 and 370 sats |
| DustIntent.RefetchDust | frontend/citrea-lending-frontend/components/BorrowRequest.tsx:244-251 | the new dust is a fresh UTXO with the split txid and exactly the dust value; the error iff none has both |
| DustIntent.ObtainDust | frontend/citrea-lending-frontend/components/BorrowRequest.tsx:168-251 | existing dust is used when there is some; otherwise the result is a fresh UTXO of the split transaction with the dust value |
| DustIntent.IntentPsbt | frontend/citrea-lending-frontend/components/BorrowRequest.tsx:258-278 | one input spending the dust with its value as witness value and the given sighash, and one output of the borrow amount to the own address; the input is unsigned and not finalized |
| BorrowRequestScreen.ValidateInputs | frontend/citrea-lending-frontend/components/BorrowRequest.tsx:128-154 | wallet first, then a positive borrow amount, then a non-negative interest rate; the first failure is reported; passes iff all hold |
| BorrowRequestScreen.NetworkIgnored | frontend/citrea-lending-frontend/components/BorrowRequest.tsx:133-136 | the network never changes the verdict |
| BorrowRequestScreen.SplitTxIdOf | frontend/citrea-lending-frontend/components/BorrowRequest.tsx:221-226 | a split txid exists iff the transfer succeeded with a non-empty txid |
| BorrowRequestScreen.TransferRequest | frontend/citrea-lending-frontend/components/BorrowRequest.tsx:212-219 | only the plan's first output is requested |
| BorrowRequestScreen.TransferIsDust | frontend/citrea-lending-frontend/components/BorrowRequest.tsx:212-219 | the transfer sends exactly 1500 sats to the own address |
| BorrowRequestScreen.Satoshis | frontend/citrea-lending-frontend/components/BorrowRequest.tsx:275-278 | an amount exists iff the number is integral, with that value |
| BorrowRequestScreen.CreateIntent | frontend/citrea-lending-frontend/components/BorrowRequest.tsx:128-301 | form errors come first; a created intent spends 1500-3000 sat dust with sighash 0x83 and pays the borrow amount to the own address; the signing request is the literal {"connectedAddress": [0]}, which names no input for any real address |
| BorrowRequestScreen.BuildIntent | frontend/citrea-lending-frontend/components/BorrowRequest.tsx:128-301 | form errors come first; a created intent has the dust input and the one borrow output, and carries the given signing request |
| BorrowRequestScreen.CreateIntentCorrected | frontend/citrea-lending-frontend/components/BorrowRequest.tsx:296-301 | the same intent with the request asking exactly the borrower's address to sign input 0 |
| BorrowRequestScreen.CorrectedOnlyRekeys | frontend/citrea-lending-frontend/components/BorrowRequest.tsx:296-301 | the correction succeeds and fails together with the code as written, with the same error or the same dust and PSBT; only the request differs |
| BorrowRequestScreen.MissingSplitIdStops | frontend/citrea-lending-frontend/components/BorrowRequest.tsx:221-226 | without a split txid, creation stops with that error |
| SignerScreen.ValidateInputs | frontend/citrea-lending-frontend/components/PSBTSigner.tsx:101-123 | wallet, network "testnet", positive amount, positive collateral, non-negative interest, in that order, each failure giving its own error (the interest rate's only when the four earlier checks pass); passes iff all hold |
| SignerScreen.CreateIntent | frontend/citrea-lending-frontend/components/PSBTSigner.tsx:101-216 | form errors come first; a created intent spends 330-1000 sat dust with no sighash on the input, pays the borrow amount to the own address, and asks to sign input 0 with 0x83 |
| SignerScreen.TestExtension | frontend/citrea-lending-frontend/components/PSBTSigner.tsx:213-238 | a refused first request fails with the refusal; if the PSBT already spends the dust outpoint and its signatures allow adding inputs, the added input fails as a duplicate; a success has one more input, on the dust outpoint, input 0 signed with 0x83 and the outputs unchanged |
| SignerScreen.KeptSignedPsbt | frontend/citrea-lending-frontend/components/PSBTSigner.tsx:218-245 | a signed PSBT is kept iff the whole extension succeeds; the catch clears it otherwise |
| SignerScreen.TestExtensionFails | frontend/citrea-lending-frontend/components/PSBTSigner.tsx:213-245 | on every intent the screen builds and for every wallet answer, the extension fails (refusal, or else duplicate input) and no signed PSBT is kept |
| LenderFill.BorrowRequests | frontend/citrea-lending-frontend/components/LenderFill.tsx:82-99 | exactly one request, built from the tuple with the connected address as borrower, iff the tuple was read and is active |
| LenderFill.PsbtPayload | frontend/citrea-lending-frontend/components/LenderFill.tsx:230-231 | at most one byte per two characters of the stored text |
| LenderFill.PsbtPayloadIgnoresPrefix | frontend/citrea-lending-frontend/components/LenderFill.tsx:230-231 | the first two characters are dropped unread: any two give the same bytes as "0x", the decoding of the rest |
| LenderFill.PsbtPayloadRoundTrip | frontend/citrea-lending-frontend/components/LenderFill.tsx:230-231 | dropping "0x" from prefixed hex decodes back to the PSBT bytes |
| LenderFill.LenderInput | frontend/citrea-lending-frontend/components/LenderFill.tsx:248-259 | the lender input spends the UTXO with sequence 0xfffffffd and the UTXO value as witness value |
| LenderFill.ChangeOutputs | frontend/citrea-lending-frontend/components/LenderFill.tsx:262-268 | one change output iff value - amount - fee exceeds 546, to the lender, making the values balance |
| LenderFill.FillBorrowRequest | frontend/citrea-lending-frontend/components/LenderFill.tsx:202-268 | not connected, then wrong network, then no covering UTXO are refused in order; past the finalization the fill succeeds iff every borrower signature has the ANYONECANPAY bit, the borrower's PSBT does not already spend the chosen UTXO, and, when change is due, every borrower signature's base type is SINGLE or NONE; a fill finalizes the borrower's input 0, appends the input of the first covering UTXO and then any change output |
| LenderFill.SighashAllBorrowerBlocksFill | frontend/citrea-lending-frontend/components/LenderFill.tsx:236-259 | a borrower PSBT with a SIGHASH_ALL signature is refused with "signatures exist" once it is parsed and finalized |
| LenderFill.SingleAnyoneCanPayBorrowerFills | frontend/citrea-lending-frontend/components/LenderFill.tsx:236-268 | a borrower PSBT signed only with 0x83 is filled iff it does not already spend the chosen UTXO |
| LenderFill.FillOnlyAppends | frontend/citrea-lending-frontend/components/LenderFill.tsx:236-268 | the borrower's inputs keep their outpoints and all but input 0 are unchanged, the outputs are a prefix, and the one new input is the lender's covering UTXO with sequence 0xfffffffd |
| LenderFill.FillValueBalance | frontend/citrea-lending-frontend/components/LenderFill.tsx:243-268 | at most one output is added; with change, UTXO value = amount + 30000 + change and change > 546; without, value <= amount + 30546 |
| LenderFill.ChangeThresholdEdge | frontend/citrea-lending-frontend/components/LenderFill.tsx:262-268 | change 546 adds nothing, 547 adds an output, negative change adds nothing |
| LenderFill.LenderInputSignalsRbf | frontend/citrea-lending-frontend/components/LenderFill.tsx:243-259 | the lender input's sequence is below 0xfffffffe, signalling replacement, and the fee is 30000 sats |
| LenderFill.RecordFill | frontend/citrea-lending-frontend/components/LenderFill.tsx:280-290 | fails iff there is no txid; otherwise a pending entry for the borrower is appended to the history |
| LenderFill.RecordedFillIsPending | frontend/citrea-lending-frontend/components/LenderFill.tsx:284-290 | the history grows by one pending entry with the txid, earlier entries unchanged, and it joins the pending list last |
| TransactionHistory.PendingEntries | frontend/citrea-lending-frontend/components/modals/TransactionHistoryModal.tsx:40-42 | every kept entry is pending |
| TransactionHistory.PendingMembership | frontend/citrea-lending-frontend/components/modals/TransactionHistoryModal.tsx:40-42 | an entry is kept iff it is a pending history entry |
| TransactionHistory.PendingDistinct | frontend/citrea-lending-frontend/components/modals/TransactionHistoryModal.tsx:40-42 | filtering keeps txids distinct |
| TransactionHistory.Step | frontend/citrea-lending-frontend/components/modals/TransactionHistoryModal.tsx:61-66 | txids and length are kept; an entry is unchanged or becomes the pending record confirmed; a change happens iff the txid is reported confirmed and present |
| TransactionHistory.ConfirmPending | frontend/citrea-lending-frontend/components/modals/TransactionHistoryModal.tsx:47-71 | txids and length are kept; each entry is unchanged or a reported-confirmed pending record with status confirmed; no change flag means no change |
| TransactionHistory.CheckPending | frontend/citrea-lending-frontend/components/modals/TransactionHistoryModal.tsx:38-76 | writes iff the history is non-empty, the latest block is truthy and some pending entry is reported confirmed; a write keeps length and txids, and each entry is unchanged or a pending history entry reported confirmed |
| TransactionHistory.RefreshHistory | frontend/citrea-lending-frontend/components/modals/TransactionHistoryModal.tsx:73-76 | the store changes only when there was an update, and then holds the updated list |
| TransactionHistory.SweepDistinct | frontend/citrea-lending-frontend/components/modals/TransactionHistoryModal.tsx:50-71 | with distinct txids each entry ends as its lookup target, and the flag is set iff some pending txid present is reported confirmed |
| TransactionHistory.SweepChanged | frontend/citrea-lending-frontend/components/modals/TransactionHistoryModal.tsx:50-71 | whatever the txids, the change flag is set iff some pending txid present in the list is reported confirmed |
| TransactionHistory.PendingSweepChanged | frontend/citrea-lending-frontend/components/modals/TransactionHistoryModal.tsx:40-71 | the sweep over the filtered pending list reports a change iff some pending history entry is reported confirmed |
| TransactionHistory.ConfirmInPlace | frontend/citrea-lending-frontend/components/modals/TransactionHistoryModal.tsx:61-66 | only the status may change; settled entries stay; a pending entry becomes confirmed iff reported confirmed |
| TransactionHistory.CheckPendingInPlace | frontend/citrea-lending-frontend/components/modals/TransactionHistoryModal.tsx:38-76 | writes iff the history is non-empty, the latest block is truthy and some pending entry is reported confirmed, and then writes the in-place confirmation |
| TransactionHistory.AsWrittenAgreesWhenDistinct | frontend/citrea-lending-frontend/components/modals/TransactionHistoryModal.tsx:38-76 | with distinct txids the code as written and the in-place update write the same list under the same conditions |
| TransactionHistory.DuplicateTxidOverwritesFirst | frontend/citrea-lending-frontend/components/modals/TransactionHistoryModal.tsx:62-64 | with a confirmed and a pending entry sharing a txid, the code overwrites the confirmed one and leaves the pending one |
| TransactionCard.DisplayTxid | frontend/citrea-lending-frontend/components/TransactionCard.tsx:61-63 | up to 16 characters are shown as is; longer ones as the first 8, "...", the last 8, 19 characters in all |
| TransactionCard.DisplayTxidIdempotent | frontend/citrea-lending-frontend/components/TransactionCard.tsx:61-63 | truncating a shown txid changes nothing |
| TransactionCard.DisplayTxidForgetsMiddle | frontend/citrea-lending-frontend/components/TransactionCard.tsx:61-63 | two txids differing in the middle are shown alike |
| TransactionCard.ProveButtonFollowsRefresh | frontend/citrea-lending-frontend/components/TransactionCard.tsx:81-85 | a pending entry shows no prove button; after the refresh as written over a history with distinct txids, it shows one iff the latest block was truthy and the entry was reported confirmed |
| TransactionCard.ProveLending | frontend/citrea-lending-frontend/components/TransactionCard.tsx:23-55 | a lend call exists iff the transaction parameters do; it carries those parameters, and the borrower and block header prefixed with "0x" |
| TransactionCard.LendHeaderPrefixed | frontend/citrea-lending-frontend/components/TransactionCard.tsx:49 | the block header gains "0x" only when it lacked it, and the borrower argument is already prefixed |

## Left out

- Network, wallet and contract I/O are left out: `fetch` to the block explorer, `window.unisat`, sats-connect `request`, `writeContract`/`useReadContract` and the `setTimeout` delay. Their results are parameters: UTXO lists, the split txid, the confirmation oracle, the contract read, the block header, and the PSBT parser.
- The PSBT library internals are abstracted away. Base64 and hex conversion, `fromBase64`, `toBase64`, `extractTransaction`, signing and script derivation become an abstract `Psbt` record, a `parse` parameter and an `ownScript` parameter. Library value checks are reduced to "integral". Each input records at most one signature, as its sighash type; `addInput` and `addOutput` check those types for the ANYONECANPAY bit and for a SINGLE or NONE base type.
- Psbts.FinalizeInput: checks that the input exists, is not finalized, carries a signature, and that the signature's type matches the requested one. It does not build the final script or witness, and it does not check that the signature is valid for the key or the script type.
- Psbts.AddInput: does not model bitcoinjs-lib's checks on the fields of the new input (a missing `hash` or `index`, a malformed `witnessUtxo`). The call sites always pass them.
- `CompactSize.NextVarInt` does not model that JavaScript's `Number` loses precision above 2^53 on a 0xff varint, because values are unbounded integers here. The same holds for `Number(request.amount)` in the lender's change computation.
- Text-to-number conversion (`Number(text)`) is a `JsNumber` parameter of each form field, not a model of the parsing itself.
- The interest basis-point conversion `Math.floor(parseFloat(x) * 100)` and the `requestBorrow` contract call are floating point and contract I/O, so they are left out.
- The signing-response handling after `signPsbt` in the borrower screen is left out: it inspects a state string rather than the response.
- The ABI encoding of `getTransactionParamsEncoded` is a foreign library, so it is left out.
- `contract_updater.rs` (signing and transaction building with cryptographic libraries) is not part of this model.
- `compute_id` and `validate_fee_rate` are uninterpreted function parameters.
- `PROTOCOL_VERSION` is a parameter.
- `TransactionHistory.CheckPending` takes the latest block as an optional integer. Only `undefined` and 0 count as falsy, which is what a block number can be; NaN is not modelled.
- `LenderFill.BorrowRequests` takes the connected EVM address as a string; an absent address is not modelled separately.
- The block-height condition of the history refresh is commented out in the code and is not modelled.
- RawTx.ReadInputs: states only that the bytes taken and the bytes left rebuild the buffer, not the record layout; `RawTxFormat.ReadInputsOfSerialized` states the layout for serialized inputs.
- RawTx.ReadOutputs: states only that the bytes taken and the bytes left rebuild the buffer, not the record layout; `RawTxFormat.ReadOutputsOfSerialized` states the layout for serialized outputs.
- RawTx.ReadWitnesses: states only that the bytes taken and the bytes left rebuild the buffer, not the record layout; `RawTxFormat.ReadWitnessesOfSerialized` states the layout for serialized witness stacks.
- Hex.Decode: its contract bounds the length only; `Hex.DecodeDigits` and `Hex.DecodeStops` state the contents.
- LenderFill.PsbtPayload: its contract bounds the length only; `LenderFill.PsbtPayloadIgnoresPrefix` and `LenderFill.PsbtPayloadRoundTrip` state the contents.
- The wallet's answer to each signing request is a parameter (approve or refuse). What a real wallet does with an index the PSBT lacks is not modelled beyond failing.
- TransactionCard.ShowProveButton: only computes "status is confirmed"; `TransactionCard.ProveButtonFollowsRefresh` states what it means across a refresh.
- UI rendering, modal state, alerts, clipboard, the Unisat wallet component, the page, the providers and the header are left out.

## Findings

| source | as written | input that shows it | evidently intended | confidence | as-written member | corrected member |
|---|---|---|---|---|---|---|
| frontend/citrea-lending-frontend/components/BorrowRequest.tsx:296-301 | the `signInputs` object uses the literal key "connectedAddress" | any connected address other than the string "connectedAddress", e.g. "tb1qexample": the request names no input of that address | the key is the connected address's value | high, not executed | BorrowRequestScreen.CreateIntent, BorrowRequestScreen.SignInputsAsWritten, BorrowRequestScreen.SignInputsKeyFinding | BorrowRequestScreen.CreateIntentCorrected, BorrowRequestScreen.SignInputsFor, BorrowRequestScreen.CorrectedOnlyRekeys |
| frontend/citrea-lending-frontend/components/modals/TransactionHistoryModal.tsx:62-64 | a confirmed pending tx is written at the FIRST history index with its txid, using the pending record's fields | history [("t", confirmed, "a", 1), ("t", pending, "b", 2)] with "t" confirmed: the first entry is overwritten with the second's data and the pending entry stays pending | each pending entry itself becomes confirmed in place | medium, not executed | TransactionHistory.CheckPending, TransactionHistory.DuplicateTxidOverwritesFirst | TransactionHistory.CheckPendingInPlace, TransactionHistory.AsWrittenAgreesWhenDistinct |

=== FILE: accepted_contract.dfy ===
/** A DLC in the accepted state: the party's profit and loss on a closing
    transaction (CET), the contract id as text, the accept message, and the
    conversion of an accepted loan contract to a plain accepted contract.
    Transaction ids, signatures, funding inputs and the id derivation come from
    other crates; here they are opaque byte strings or parameters. */
module AcceptedContract {
  import opened Results
  import opened Hex
  import opened Collections
  import opened Utils

  /** `i64::MAX`, the largest `SignedAmount`. */
  const MaxSignedAmount: nat := 0x7fff_ffff_ffff_ffff

  type u16 = x: int | 0 <= x < 0x1_0000

  datatype PartyParams = PartyParams(
    fundPubkey: bytes,
    changeScriptPubkey: bytes,
    changeSerialId: nat,
    payoutScriptPubkey: bytes,
    payoutSerialId: nat,
    inputAmount: nat,
    collateral: nat)

  datatype OfferedContract = OfferedContract(id: bytes, isOfferParty: bool, offerParams: PartyParams)

  /** The loan terms beyond the offered contract are not read here. */
  datatype OfferedLoanContract = OfferedLoanContract(offeredContract: OfferedContract, loanTerms: bytes)

  datatype TxOut = TxOut(value: nat, scriptPubkey: bytes)
  datatype Transaction = Transaction(output: seq<TxOut>)

  /** The fund transaction's id and the index of the funding output in it. */
  datatype DlcTransactions = DlcTransactions(fundTxid: bytes, fundOutputIndex: nat, cets: seq<Transaction>)

  datatype AcceptedContract = AcceptedContract(
    offeredContract: OfferedContract,
    acceptParams: PartyParams,
    fundingInputs: seq<bytes>,
    adaptorInfos: seq<bytes>,
    adaptorSignatures: Option<seq<bytes>>,
    acceptRefundSignature: bytes,
    dlcTransactions: DlcTransactions)

  datatype AcceptedLoanContract = AcceptedLoanContract(
    offeredLoanContract: OfferedLoanContract,
    acceptParams: PartyParams,
    fundingInputs: seq<bytes>,
    adaptorInfos: seq<bytes>,
    adaptorSignatures: Option<seq<bytes>>,
    acceptRefundSignature: bytes,
    dlcTransactions: DlcTransactions,
    escrowTxid: bytes,
    borrowerHash: bytes,
    signedEscrowSpendTx: bytes)

  datatype PnlError = OutOfRange

  /** The parameters of the party this node plays. */
  function OwnParams(offered: OfferedContract, acceptParams: PartyParams): (p: PartyParams)
    ensures offered.isOfferParty ==> p == offered.offerParams
    ensures !offered.isOfferParty ==> p == acceptParams
  {
    if offered.isOfferParty then offered.offerParams else acceptParams
  }

  /** The value of the first CET output paying to `script`, or zero when no
      output does. */
  function FinalPayout(cet: Transaction, script: bytes): (r: nat)
    ensures (forall k :: 0 <= k < |cet.output| ==> cet.output[k].scriptPubkey != script) ==> r == 0
    ensures (exists k :: 0 <= k < |cet.output| && cet.output[k].scriptPubkey == script) ==>
              exists k :: && 0 <= k < |cet.output|
                          && cet.output[k].scriptPubkey == script
                          && r == cet.output[k].value
                          && forall j :: 0 <= j < k ==> cet.output[j].scriptPubkey != script
  {
    match Find(cet.output, (o: TxOut) => o.scriptPubkey == script)
    case Some(o) => o.value
    case None => 0
  }

  /** `Amount::to_signed`: fails above `i64::MAX`. */
  function ToSigned(amount: nat): (r: Result<int, PnlError>)
    ensures r.Ok? <==> amount <= MaxSignedAmount
    ensures r.Ok? ==> r.value == amount
  {
    if amount > MaxSignedAmount then Err(OutOfRange) else Ok(amount)
  }

  /** Payout minus collateral for one party; the difference of two values in
      `0..=i64::MAX` always fits an `i64`. */
  function PartyPnl(party: PartyParams, cet: Transaction): (r: Result<int, PnlError>)
    ensures r.Ok? <==> FinalPayout(cet, party.payoutScriptPubkey) <= MaxSignedAmount
                       && party.collateral <= MaxSignedAmount
    ensures r.Ok? ==> r.value == FinalPayout(cet, party.payoutScriptPubkey) - party.collateral
    ensures r.Ok? ==> -(MaxSignedAmount as int) <= r.value <= MaxSignedAmount
  {
    var payout :- ToSigned(FinalPayout(cet, party.payoutScriptPubkey));
    var collateral :- ToSigned(party.collateral);
    Ok(payout - collateral)
  }

  /** `AcceptedContract::compute_pnl`. */
  function ComputePnl(c: AcceptedContract, cet: Transaction): (r: Result<int, PnlError>)
    ensures var party := OwnParams(c.offeredContract, c.acceptParams);
            && (r.Ok? <==> FinalPayout(cet, party.payoutScriptPubkey) <= MaxSignedAmount
                           && party.collateral <= MaxSignedAmount)
            && (r.Ok? ==> r.value == FinalPayout(cet, party.payoutScriptPubkey) - party.collateral)
  {
    PartyPnl(OwnParams(c.offeredContract, c.acceptParams), cet)
  }

  /** A CET with no output to the party's payout script is a loss of the whole
      collateral: a collateral of 11000000 gives -11000000. */
  lemma PnlOfMissedPayout(c: AcceptedContract, cet: Transaction)
    requires var party := OwnParams(c.offeredContract, c.acceptParams);
             && party.collateral == 11000000
             && forall k :: 0 <= k < |cet.output| ==> cet.output[k].scriptPubkey != party.payoutScriptPubkey
    ensures ComputePnl(c, cet) == Ok(-11000000)
  {
  }

  /** The payout is taken from the first matching output only: a later output
      to the same script is ignored. */
  lemma PnlUsesFirstMatch(c: AcceptedContract, value: nat, later: nat, other: seq<TxOut>)
    requires var party := OwnParams(c.offeredContract, c.acceptParams);
             value <= MaxSignedAmount && party.collateral <= MaxSignedAmount
    ensures var party := OwnParams(c.offeredContract, c.acceptParams);
            var cet := Transaction([TxOut(value, party.payoutScriptPubkey)] + other
                                   + [TxOut(later, party.payoutScriptPubkey)]);
            ComputePnl(c, cet) == Ok(value - party.collateral)
  {
    var party := OwnParams(c.offeredContract, c.acceptParams);
    var cet := Transaction([TxOut(value, party.payoutScriptPubkey)] + other
                           + [TxOut(later, party.payoutScriptPubkey)]);
    assert cet.output[0] == TxOut(value, party.payoutScriptPubkey);
  }

  /** `get_contract_id`: the id derivation `computeId` over the fund txid, the
      funding output index cast to `u16`, and the temporary id. */
  function ContractId(txs: DlcTransactions, temporaryId: bytes, computeId: (bytes, u16, bytes) -> bytes)
    : (r: bytes)
    ensures txs.fundOutputIndex < 0x1_0000 ==> r == computeId(txs.fundTxid, txs.fundOutputIndex, temporaryId)
  {
    computeId(txs.fundTxid, txs.fundOutputIndex % 0x1_0000, temporaryId)
  }

  /** The cast to `u16` wraps: an index `k * 65536` higher names the same
      contract. */
  lemma ContractIdWraps(txs: DlcTransactions, temporaryId: bytes, computeId: (bytes, u16, bytes) -> bytes, k: nat)
    ensures ContractId(txs.(fundOutputIndex := txs.fundOutputIndex + k * 0x1_0000), temporaryId, computeId)
         == ContractId(txs, temporaryId, computeId)
  {
  }

  /** Output indexes 0 and 65536 of the same funding transaction give the
      same contract id. */
  lemma ContractIdCollision(fundTxid: bytes, cets: seq<Transaction>, temporaryId: bytes,
                            computeId: (bytes, u16, bytes) -> bytes)
    ensures ContractId(DlcTransactions(fundTxid, 0x1_0000, cets), temporaryId, computeId)
         == ContractId(DlcTransactions(fundTxid, 0, cets), temporaryId, computeId)
         == computeId(fundTxid, 0, temporaryId)
  {
    ContractIdWraps(DlcTransactions(fundTxid, 0, cets), temporaryId, computeId, 1);
  }

  /** `get_contract_id`: the id the DLC specification derives from the fund
      txid, the fund output index cast to 16 bits, and the offer's temporary id. */
  function GetContractId(c: AcceptedContract, computeId: (bytes, u16, bytes) -> bytes): (r: bytes)
    ensures c.dlcTransactions.fundOutputIndex < 0x1_0000 ==>
              r == computeId(c.dlcTransactions.fundTxid, c.dlcTransactions.fundOutputIndex, c.offeredContract.id)
  {
    ContractId(c.dlcTransactions, c.offeredContract.id, computeId)
  }

  /** The contract's id does not change when its fund output index moves by
      a multiple of 65536. */
  lemma GetContractIdWraps(c: AcceptedContract, computeId: (bytes, u16, bytes) -> bytes, k: nat)
    ensures var moved := c.dlcTransactions.(fundOutputIndex := c.dlcTransactions.fundOutputIndex + k * 0x1_0000);
            GetContractId(c.(dlcTransactions := moved), computeId) == GetContractId(c, computeId)
  {
    ContractIdWraps(c.dlcTransactions, c.offeredContract.id, computeId, k);
  }

  /** `get_contract_id_string`: `0x` and two lowercase hex digits per byte. */
  function ContractIdString(id: bytes): (s: string)
    ensures |s| == 2 + 2 * |id|
    ensures HasHexPrefix(s)
    ensures forall k :: 2 <= k < |s| ==> IsLowerHexDigit(s[k])
    ensures Decode(s[2..]) == id
  {
    DecodeEncode(id);
    assert ("0x" + Encode(id))[2..] == Encode(id);
    "0x" + Encode(id)
  }

  /** A 32-byte id is 66 characters, and distinct ids have distinct texts. */
  lemma ContractIdStringShape(a: bytes, b: bytes)
    requires |a| == 32
    ensures |ContractIdString(a)| == 66
    ensures ContractIdString(a) == ContractIdString(b) ==> a == b
  {
    if ContractIdString(a) == ContractIdString(b) {
      assert ContractIdString(a)[2..] == ContractIdString(b)[2..];
    }
  }

  /** The fields of the `AcceptDlc` message. */
  datatype AcceptDlc = AcceptDlc(
    protocolVersion: nat,
    temporaryContractId: bytes,
    acceptCollateral: nat,
    fundingPubkey: bytes,
    payoutSpk: bytes,
    payoutSerialId: nat,
    fundingInputs: seq<bytes>,
    changeSpk: bytes,
    changeSerialId: nat,
    cetAdaptorSignatures: seq<bytes>,
    refundSignature: bytes,
    negotiationFields: Option<bytes>)

  /** `get_accept_contract_msg` for the given protocol version and adaptor
      signatures. */
  function AcceptContractMsg(c: AcceptedContract, signatures: seq<bytes>, protocolVersion: nat): (m: AcceptDlc)
    ensures m.negotiationFields.None?
    ensures m.temporaryContractId == c.offeredContract.id
  {
    AcceptDlc(
      protocolVersion,
      c.offeredContract.id,
      c.acceptParams.collateral,
      c.acceptParams.fundPubkey,
      c.acceptParams.payoutScriptPubkey,
      c.acceptParams.payoutSerialId,
      c.fundingInputs,
      c.acceptParams.changeScriptPubkey,
      c.acceptParams.changeSerialId,
      signatures,
      c.acceptRefundSignature,
      None)
  }

  /** What the receiving side rebuilds from an accept message; the input
      amount is not carried and comes from the funding inputs. */
  function AcceptParamsOf(m: AcceptDlc, inputAmount: nat): PartyParams {
    PartyParams(m.fundingPubkey, m.changeSpk, m.changeSerialId, m.payoutSpk, m.payoutSerialId,
                inputAmount, m.acceptCollateral)
  }

  /** The message carries every accept parameter except the input amount, and
      the funding inputs, refund signature and given adaptor signatures. */
  lemma AcceptMsgCarriesParams(c: AcceptedContract, signatures: seq<bytes>, protocolVersion: nat)
    ensures var m := AcceptContractMsg(c, signatures, protocolVersion);
            && AcceptParamsOf(m, c.acceptParams.inputAmount) == c.acceptParams
            && m.fundingInputs == c.fundingInputs
            && m.refundSignature == c.acceptRefundSignature
            && m.cetAdaptorSignatures == signatures
            && m.protocolVersion == protocolVersion
  {
  }

  /** `AcceptLoanDlc`: the accept message plus the escrow fields. */
  datatype AcceptLoanDlc = AcceptLoanDlc(
    base: AcceptDlc,
    escrowTxid: bytes,
    borrowerHash: bytes,
    signedEscrowSpendTx: bytes,
    escrowAmount: nat,
    escrowSpk: bytes,
    collateralSpk: bytes)

  /** `to_accepted_contract`: keeps every shared field, drops the escrow fields. */
  function ToAcceptedContract(l: AcceptedLoanContract): (c: AcceptedContract)
    ensures c.offeredContract == l.offeredLoanContract.offeredContract
    ensures c.acceptParams == l.acceptParams && c.dlcTransactions == l.dlcTransactions
    ensures c.fundingInputs == l.fundingInputs && c.acceptRefundSignature == l.acceptRefundSignature
    ensures c.adaptorInfos == l.adaptorInfos && c.adaptorSignatures == l.adaptorSignatures
  {
    AcceptedContract(
      l.offeredLoanContract.offeredContract,
      l.acceptParams,
      l.fundingInputs,
      l.adaptorInfos,
      l.adaptorSignatures,
      l.acceptRefundSignature,
      l.dlcTransactions)
  }

  /** `AcceptedLoanContract::compute_pnl`, reading through the offered loan
      contract's inner offered contract. */
  function ComputeLoanPnl(l: AcceptedLoanContract, cet: Transaction): (r: Result<int, PnlError>)
    ensures var party := OwnParams(l.offeredLoanContract.offeredContract, l.acceptParams);
            r.Ok? ==> r.value == FinalPayout(cet, party.payoutScriptPubkey) - party.collateral
  {
    PartyPnl(OwnParams(l.offeredLoanContract.offeredContract, l.acceptParams), cet)
  }

  /** `AcceptedLoanContract::get_contract_id`: the same derivation over the
      loan contract's transactions and the loan offer's temporary id. */
  function GetLoanContractId(l: AcceptedLoanContract, computeId: (bytes, u16, bytes) -> bytes): (r: bytes)
    ensures l.dlcTransactions.fundOutputIndex < 0x1_0000 ==>
              r == computeId(l.dlcTransactions.fundTxid, l.dlcTransactions.fundOutputIndex,
                             l.offeredLoanContract.offeredContract.id)
  {
    ContractId(l.dlcTransactions, l.offeredLoanContract.offeredContract.id, computeId)
  }

  /** The loan contract's id does not change when its fund output index
      moves by a multiple of 65536. */
  lemma GetLoanContractIdWraps(l: AcceptedLoanContract, computeId: (bytes, u16, bytes) -> bytes, k: nat)
    ensures var moved := l.dlcTransactions.(fundOutputIndex := l.dlcTransactions.fundOutputIndex + k * 0x1_0000);
            GetLoanContractId(l.(dlcTransactions := moved), computeId) == GetLoanContractId(l, computeId)
  {
    ContractIdWraps(l.dlcTransactions, l.offeredLoanContract.offeredContract.id, computeId, k);
  }

  /** `AcceptedLoanContract::get_accept_contract_msg`. */
  function AcceptLoanContractMsg(l: AcceptedLoanContract, signatures: seq<bytes>, protocolVersion: nat,
                                 escrowAmount: nat, escrowSpk: bytes, collateralSpk: bytes): (m: AcceptLoanDlc)
    ensures m.base.negotiationFields.None?
    ensures m.escrowTxid == l.escrowTxid && m.borrowerHash == l.borrowerHash
  {
    AcceptLoanDlc(
      AcceptDlc(
        protocolVersion,
        l.offeredLoanContract.offeredContract.id,
        l.acceptParams.collateral,
        l.acceptParams.fundPubkey,
        l.acceptParams.payoutScriptPubkey,
        l.acceptParams.payoutSerialId,
        l.fundingInputs,
        l.acceptParams.changeScriptPubkey,
        l.acceptParams.changeSerialId,
        signatures,
        l.acceptRefundSignature,
        None),
      l.escrowTxid,
      l.borrowerHash,
      l.signedEscrowSpendTx,
      escrowAmount,
      escrowSpk,
      collateralSpk)
  }

  /** The conversion forgets exactly the escrow fields and the loan terms:
      changing only those does not change the result. */
  lemma ConversionForgetsEscrow(l: AcceptedLoanContract, loanTerms: bytes, escrowTxid: bytes,
                                borrowerHash: bytes, signedEscrowSpendTx: bytes)
    ensures ToAcceptedContract(l.(offeredLoanContract := l.offeredLoanContract.(loanTerms := loanTerms),
                                  escrowTxid := escrowTxid, borrowerHash := borrowerHash,
                                  signedEscrowSpendTx := signedEscrowSpendTx))
         == ToAcceptedContract(l)
  {
  }

  /** ... and nothing else: two loan contracts that agree on those fields and
      convert to the same contract are the same loan contract. */
  lemma ConversionKeepsShared(a: AcceptedLoanContract, b: AcceptedLoanContract)
    requires ToAcceptedContract(a) == ToAcceptedContract(b)
    requires a.offeredLoanContract.loanTerms == b.offeredLoanContract.loanTerms
    requires a.escrowTxid == b.escrowTxid && a.borrowerHash == b.borrowerHash
    requires a.signedEscrowSpendTx == b.signedEscrowSpendTx
    ensures a == b
  {
  }

  /** The loan contract and its conversion agree on profit and loss, on the
      contract id and on the shared part of the accept message: the loan
      variants are the plain ones plus escrow data. */
  lemma LoanAgreesWithConversion(l: AcceptedLoanContract, cet: Transaction, signatures: seq<bytes>,
                                 protocolVersion: nat, escrowAmount: nat, escrowSpk: bytes, collateralSpk: bytes,
                                 computeId: (bytes, u16, bytes) -> bytes)
    ensures ComputeLoanPnl(l, cet) == ComputePnl(ToAcceptedContract(l), cet)
    ensures GetLoanContractId(l, computeId) == GetContractId(ToAcceptedContract(l), computeId)
    ensures AcceptLoanContractMsg(l, signatures, protocolVersion, escrowAmount, escrowSpk, collateralSpk).base
         == AcceptContractMsg(ToAcceptedContract(l), signatures, protocolVersion)
  {
  }
}

=== FILE: borrow_request.dfy ===
/** The borrow-request screen: form validation, the dust UTXO the intent
    spends (band 1500..=3000), the one-input/one-output intent PSBT whose
    input requests SIGHASH_SINGLE | ANYONECANPAY, and the wallet signing
    request. The wallet and the mempool API are parameters. */
module BorrowRequestScreen {
  import opened Results
  import opened Hex
  import opened Utils
  import opened Forms
  import opened Psbts
  import opened DustIntent

  datatype BorrowForm = BorrowForm(
    walletConnected: bool,
    network: string,
    borrowAmount: NumericField,
    interestRate: NumericField)

  /** Wallet first, then the amount, then the interest rate; the network
      check of this screen is disabled. */
  function ValidateInputs(f: BorrowForm): (r: Outcome<FormError>)
    ensures r.Pass? <==> f.walletConnected && IsPositive(f.borrowAmount) && IsNonNegative(f.interestRate)
    ensures !f.walletConnected ==> r == Fail(WalletNotConnected)
    ensures f.walletConnected && !IsPositive(f.borrowAmount) ==> r == Fail(InvalidBorrowAmount)
    ensures f.walletConnected && IsPositive(f.borrowAmount) && !IsNonNegative(f.interestRate) ==>
              r == Fail(InvalidInterestRate)
  {
    if !f.walletConnected then Fail(WalletNotConnected)
    else if !IsPositive(f.borrowAmount) then Fail(InvalidBorrowAmount)
    else if !IsNonNegative(f.interestRate) then Fail(InvalidInterestRate)
    else Pass
  }

  /** The network the wallet reports never changes the verdict. */
  lemma NetworkIgnored(f: BorrowForm, network: string)
    ensures ValidateInputs(f.(network := network)) == ValidateInputs(f)
  {
  }

  /** The split id: the transfer's txid when the wallet reported success,
      rejected when missing or empty. */
  function SplitTxIdOf(transfer: Option<string>): (r: Option<string>)
    ensures r.Some? <==> transfer.Some? && transfer.value != ""
    ensures r.Some? ==> r == transfer
  {
    if transfer.Some? && transfer.value != "" then transfer else None
  }

  /** The wallet transfer only asks for the dust output of the plan; the
      change output is left to the wallet. */
  function TransferRequest(plan: SplitPlan): (r: PsbtOutput)
    requires |plan.outputs| == 2
    ensures r.value == plan.outputs[0].value && r.address == plan.outputs[0].address
  {
    plan.outputs[0]
  }

  /** The transfer request of a planned split pays 1500 sats to the borrower. */
  lemma TransferIsDust(utxos: seq<Utxo>, address: string)
    requires ChooseDust(BorrowRequestPolicy, utxos, address).Ok?
    requires ChooseDust(BorrowRequestPolicy, utxos, address).value.NeedsSplit?
    ensures TransferRequest(ChooseDust(BorrowRequestPolicy, utxos, address).value.plan)
         == PsbtOutput(address, 1500)
  {
  }

  /** The satoshi value `Number(text)` stands for, when it is a whole number. */
  function Satoshis(n: JsNumber): (r: Option<int>)
    ensures r.Some? <==> IsIntegral(n)
    ensures r.Some? ==> r.value as real == n.x
  {
    if IsIntegral(n) then Some(n.x.Floor) else None
  }

  /** Which inputs the wallet is asked to sign, keyed by signing address, as
      the code writes it: the object literal's key is the text
      "connectedAddress", not the borrower's address. */
  function SignInputsAsWritten(address: string): (r: map<string, seq<nat>>)
    ensures r.Keys == {"connectedAddress"} && r["connectedAddress"] == [0]
  {
    map["connectedAddress" := [0]]
  }

  /** The request as intended: input 0, signed by the borrower's address. */
  function SignInputsFor(address: string): (r: map<string, seq<nat>>)
    ensures r.Keys == {address} && r[address] == [0]
  {
    map[address := [0]]
  }

  /** For every real address the request as written names no input for it,
      while the corrected one asks exactly that address to sign input 0. */
  lemma SignInputsKeyFinding(address: string)
    requires address != "connectedAddress"
    ensures address !in SignInputsAsWritten(address)
    ensures SignInputsFor(address)[address] == [0]
    ensures SignInputsAsWritten(address) != SignInputsFor(address)
  {
    assert "connectedAddress" in SignInputsAsWritten(address);
  }

  /** The same discrepancy on a concrete testnet address. */
  lemma SignInputsKeyExample()
    ensures "tb1qexample" !in SignInputsAsWritten("tb1qexample")
    ensures "tb1qexample" in SignInputsFor("tb1qexample")
  {
    SignInputsKeyFinding("tb1qexample");
  }

  datatype Intent = Intent(dust: Utxo, psbt: Psbt, signInputs: map<string, seq<nat>>)

  datatype IntentFailure = Form(form: FormError) | Dust(dust: IntentError) | BadOutputValue

  /** What every intent the screen builds looks like: 1500..=3000 sat dust
      spent by the one input with its own script and sighash 0x83, and one
      output paying the borrow amount to the borrower's address. */
  predicate WellFormedIntent(form: BorrowForm, address: string, ownScript: bytes, i: Intent)
  {
    && IsDust(BorrowRequestPolicy, i.dust)
    && |i.psbt.inputs| == 1 && |i.psbt.outputs| == 1
    && i.psbt.inputs[0].prevout == OutPoint(i.dust.txid, i.dust.vout)
    && i.psbt.inputs[0].witnessUtxo == WitnessUtxo(ownScript, i.dust.value)
    && i.psbt.inputs[0].sighashType == Some(SighashSingleAnyoneCanPay)
    && i.psbt.outputs[0].address == address
    && form.borrowAmount.number == Finite(i.psbt.outputs[0].value as real)
  }

  /** `createAndSignIntent` up to the signing request, with the request's
      `signInputs` as a parameter. `transfer` is the txid the wallet's
      transfer reported (`None` when it did not succeed); `newUtxos` is the
      list fetched after the wait. */
  function BuildIntent(form: BorrowForm, address: string, ownScript: bytes, utxos: seq<Utxo>,
                       transfer: Option<string>, newUtxos: seq<Utxo>, signInputs: map<string, seq<nat>>)
    : (r: Result<Intent, IntentFailure>)
    ensures ValidateInputs(form).Fail? ==> r == Err(Form(ValidateInputs(form).reason))
    ensures r.Ok? ==> && ValidateInputs(form).Pass?
                      && WellFormedIntent(form, address, ownScript, r.value)
                      && r.value.signInputs == signInputs
  {
    match ValidateInputs(form)
    case Fail(e) => Err(Form(e))
    case Pass =>
      match ObtainDust(BorrowRequestPolicy, utxos, address, SplitTxIdOf(transfer), newUtxos)
      case Err(e) => Err(Dust(e))
      case Ok(dust) =>
        match Satoshis(form.borrowAmount.number)
        case None => Err(BadOutputValue)
        case Some(amount) =>
          Ok(Intent(dust, IntentPsbt(dust, ownScript, address, amount, Some(131)), signInputs))
  }

  /** The intent as the code builds it: the signing request carries the
      literal key "connectedAddress", so for any real address it names no
      input of the borrower's. */
  function CreateIntent(form: BorrowForm, address: string, ownScript: bytes, utxos: seq<Utxo>,
                        transfer: Option<string>, newUtxos: seq<Utxo>): (r: Result<Intent, IntentFailure>)
    ensures ValidateInputs(form).Fail? ==> r == Err(Form(ValidateInputs(form).reason))
    ensures r.Ok? ==> && ValidateInputs(form).Pass?
                      && WellFormedIntent(form, address, ownScript, r.value)
                      && r.value.signInputs == map["connectedAddress" := [0]]
    ensures r.Ok? && address != "connectedAddress" ==> address !in r.value.signInputs
  {
    BuildIntent(form, address, ownScript, utxos, transfer, newUtxos, SignInputsAsWritten(address))
  }

  /** The intent as evidently meant: the same PSBT, with the request asking
      the borrower's address to sign input 0. */
  function CreateIntentCorrected(form: BorrowForm, address: string, ownScript: bytes, utxos: seq<Utxo>,
                                 transfer: Option<string>, newUtxos: seq<Utxo>): (r: Result<Intent, IntentFailure>)
    ensures ValidateInputs(form).Fail? ==> r == Err(Form(ValidateInputs(form).reason))
    ensures r.Ok? ==> && ValidateInputs(form).Pass?
                      && WellFormedIntent(form, address, ownScript, r.value)
                      && r.value.signInputs.Keys == {address} && r.value.signInputs[address] == [0]
  {
    BuildIntent(form, address, ownScript, utxos, transfer, newUtxos, SignInputsFor(address))
  }

  /** The correction touches nothing but the signing request: both succeed
      or fail together, with the same error or the same dust and PSBT. */
  lemma CorrectedOnlyRekeys(form: BorrowForm, address: string, ownScript: bytes, utxos: seq<Utxo>,
                            transfer: Option<string>, newUtxos: seq<Utxo>)
    ensures var asWritten := CreateIntent(form, address, ownScript, utxos, transfer, newUtxos);
            var corrected := CreateIntentCorrected(form, address, ownScript, utxos, transfer, newUtxos);
            && (asWritten.Ok? <==> corrected.Ok?)
            && (asWritten.Err? ==> corrected == asWritten)
            && (asWritten.Ok? ==> corrected.value == asWritten.value.(signInputs := SignInputsFor(address)))
  {
  }

  /** A failed or empty transfer id stops the flow when a split was needed. */
  lemma MissingSplitIdStops(form: BorrowForm, address: string, ownScript: bytes, utxos: seq<Utxo>,
                            transfer: Option<string>, newUtxos: seq<Utxo>)
    requires ValidateInputs(form).Pass?
    requires forall k :: 0 <= k < |utxos| ==> !IsDust(BorrowRequestPolicy, utxos[k])
    requires exists k :: 0 <= k < |utxos| && CanSplit(BorrowRequestPolicy, utxos[k])
    requires transfer.None? || transfer == Some("")
    ensures CreateIntent(form, address, ownScript, utxos, transfer, newUtxos) == Err(Dust(NoSplitTxId))
  {
  }
}

=== FILE: collections.dfy ===
/** Sequence helpers that the source gets from its standard library:
    `Array.prototype.find` / `findIndex`, `Iterator::find_map`,
    `Buffer.concat` and `Buffer.reverse`. */
module Collections {
  import opened Results

  /** Index of the first element satisfying `p`, as `find`/`findIndex` search. */
  function FirstIndex<T>(xs: seq<T>, p: T -> bool): (r: Option<nat>)
    ensures r.Some? ==> r.value < |xs| && p(xs[r.value])
    ensures r.Some? ==> forall j :: 0 <= j < r.value ==> !p(xs[j])
    ensures r.None? <==> forall j :: 0 <= j < |xs| ==> !p(xs[j])
  {
    if |xs| == 0 then None
    else if p(xs[0]) then Some(0)
    else match FirstIndex(xs[1..], p)
      case None => None
      case Some(k) => Some(k + 1)
  }

  /** The first element satisfying `p` (JavaScript's `Array.prototype.find`). */
  function Find<T>(xs: seq<T>, p: T -> bool): (r: Option<T>)
    ensures r.Some? ==> p(r.value) && r.value in xs
    ensures r.None? <==> forall j :: 0 <= j < |xs| ==> !p(xs[j])
    ensures r.Some? ==> exists k :: 0 <= k < |xs| && xs[k] == r.value && forall j :: 0 <= j < k ==> !p(xs[j])
  {
    match FirstIndex(xs, p)
    case None => None
    case Some(k) => Some(xs[k])
  }

  /** Concatenation of a sequence of sequences, in order (`Buffer.concat`). */
  function Flatten<T>(ss: seq<seq<T>>): seq<T>
  {
    if |ss| == 0 then [] else ss[0] + Flatten(ss[1..])
  }

  lemma {:induction false} FlattenLength<T>(ss: seq<seq<T>>, width: nat)
    requires forall i :: 0 <= i < |ss| ==> |ss[i]| == width
    ensures |Flatten(ss)| == width * |ss|
  {
    if |ss| > 0 {
      FlattenLength(ss[1..], width);
    }
  }

  /** With pieces of a common width, piece `k` is found again at offset `width * k`. */
  lemma {:induction false} FlattenChunk<T>(ss: seq<seq<T>>, width: nat, k: nat)
    requires forall i :: 0 <= i < |ss| ==> |ss[i]| == width
    requires k < |ss|
    ensures width * k + width <= |Flatten(ss)|
    ensures Flatten(ss)[width * k .. width * k + width] == ss[k]
  {
    FlattenLength(ss, width);
    FlattenLength(ss[1..], width);
    if k > 0 {
      FlattenChunk(ss[1..], width, k - 1);
      var rest := Flatten(ss[1..]);
      assert Flatten(ss) == ss[0] + rest;
      assert width * k == width + width * (k - 1);
      assert Flatten(ss)[width * k .. width * k + width] == rest[width * (k - 1) .. width * (k - 1) + width];
    }
  }

  /** Flattening distributes over concatenation, so pieces keep their order. */
  lemma {:induction false} FlattenAppend<T>(a: seq<seq<T>>, b: seq<seq<T>>)
    ensures Flatten(a + b) == Flatten(a) + Flatten(b)
  {
    if |a| > 0 {
      assert (a + b)[1..] == a[1..] + b;
      FlattenAppend(a[1..], b);
      assert Flatten(a + b) == a[0] + Flatten(a[1..] + b);
    } else {
      assert a + b == b;
    }
  }

  /** The elements in the opposite order (`Buffer.prototype.reverse`). */
  function Reverse<T>(s: seq<T>): (r: seq<T>)
    ensures |r| == |s|
    ensures forall i :: 0 <= i < |s| ==> r[i] == s[|s| - 1 - i]
  {
    if |s| == 0 then [] else Reverse(s[1..]) + [s[0]]
  }

  lemma ReverseInvolutive<T>(s: seq<T>)
    ensures Reverse(Reverse(s)) == s
  {
  }
}

=== FILE: compact_size.dfy ===
/** The two cursor primitives of the raw-transaction splitter: a clamped
    take/drop on a buffer, and Bitcoin's CompactSize integer (a one-byte
    value below 0xfd, or a 0xfd/0xfe/0xff marker followed by a 2/4/8-byte
    little-endian value). */
module CompactSize {
  import opened Results
  import opened Hex

  /** A buffer cut in two: the bytes read and what is left. */
  datatype Cut = Cut(taken: bytes, rest: bytes)

  /** A decoded CompactSize: its value, its own encoding bytes, what is left. */
  datatype VarInt = VarInt(value: nat, raw: bytes, rest: bytes)

  /** Ways the splitter throws: Node's `readUIntNLE` past the end of the
      buffer (`ERR_OUT_OF_RANGE`), and bytes left over after the locktime. */
  datatype ParseError = ReadOutOfRange | BufferNotEmpty

  function Min(a: nat, b: nat): nat { if a <= b then a else b }

  /** `nextBytes`: `buf.slice(0, n)` and `buf.slice(n)`; never fails. */
  function NextBytes(buf: bytes, n: nat): (r: Cut)
    ensures r.taken + r.rest == buf
    ensures |r.taken| == Min(n, |buf|)
  {
    if n <= |buf| then Cut(buf[..n], buf[n..]) else Cut(buf, [])
  }

  function Pow256(n: nat): (p: nat)
    ensures p > 0
  {
    if n == 0 then 1 else 256 * Pow256(n - 1)
  }

  /** Unsigned little-endian value of a byte string. */
  function LittleEndian(bs: bytes): nat
  {
    if |bs| == 0 then 0 else bs[0] + 256 * LittleEndian(bs[1..])
  }

  lemma {:induction false} LittleEndianBound(bs: bytes)
    ensures LittleEndian(bs) < Pow256(|bs|)
  {
    if |bs| > 0 {
      LittleEndianBound(bs[1..]);
    }
  }

  /** The `n`-byte little-endian encoding of `v`. */
  function ToLittleEndian(v: nat, n: nat): (r: bytes)
    requires v < Pow256(n)
    ensures |r| == n
  {
    if n == 0 then [] else [v % 256] + ToLittleEndian(v / 256, n - 1)
  }

  lemma {:induction false} LittleEndianRoundTrip(v: nat, n: nat)
    requires v < Pow256(n)
    ensures LittleEndian(ToLittleEndian(v, n)) == v
  {
    if n > 0 {
      var t := ToLittleEndian(v / 256, n - 1);
      LittleEndianRoundTrip(v / 256, n - 1);
      assert ([v % 256] + t)[1..] == t;
    }
  }

  /** Bytes a CompactSize occupies, read off its first byte. */
  function Width(first: byte): nat
  {
    if first < 0xfd then 1 else if first == 0xfd then 3 else if first == 0xfe then 5 else 9
  }

  /** `nextVarInt`. On an empty buffer `buf[0]` is `undefined`, every
      comparison with it is false, and the 8-byte read at offset 1 throws;
      a marker byte without enough bytes after it throws the same way. */
  function NextVarInt(buf: bytes): (r: Result<VarInt, ParseError>)
    ensures r.Ok? <==> |buf| > 0 && Width(buf[0]) <= |buf|
    ensures r.Ok? ==> r.value.raw + r.value.rest == buf
    ensures r.Ok? ==> |r.value.raw| == Width(buf[0])
    ensures r.Ok? && buf[0] < 0xfd ==> r.value.value == buf[0]
    ensures r.Ok? && buf[0] >= 0xfd ==>
              r.value.value == LittleEndian(buf[1..Width(buf[0])])
              && r.value.value < Pow256(Width(buf[0]) - 1)
  {
    if |buf| == 0 then Err(ReadOutOfRange)
    else if buf[0] < 0xfd then Ok(VarInt(buf[0], buf[..1], buf[1..]))
    else if buf[0] == 0xfd then
      if |buf| < 3 then Err(ReadOutOfRange)
      else LittleEndianBound(buf[1..3]); Ok(VarInt(LittleEndian(buf[1..3]), buf[..3], buf[3..]))
    else if buf[0] == 0xfe then
      if |buf| < 5 then Err(ReadOutOfRange)
      else LittleEndianBound(buf[1..5]); Ok(VarInt(LittleEndian(buf[1..5]), buf[..5], buf[5..]))
    else
      if |buf| < 9 then Err(ReadOutOfRange)
      else LittleEndianBound(buf[1..9]); Ok(VarInt(LittleEndian(buf[1..9]), buf[..9], buf[9..]))
  }

  const MaxU64: nat := 0xffff_ffff_ffff_ffff

  /** The canonical (shortest) CompactSize encoding of `v`. */
  function EncodeVarInt(v: nat): (r: bytes)
    requires v <= MaxU64
    ensures |r| > 0 && |r| == Width(r[0])
  {
    if v < 0xfd then [v]
    else if v <= 0xffff then [0xfd] + ToLittleEndian(v, 2)
    else if v <= 0xffff_ffff then [0xfe] + ToLittleEndian(v, 4)
    else [0xff] + ToLittleEndian(v, 8)
  }

  /** Reading a canonical encoding gives back its value, consumes exactly the
      encoding (1, 3, 5 or 9 bytes) and leaves whatever followed. */
  lemma VarIntRoundTrip(v: nat, rest: bytes)
    requires v <= MaxU64
    ensures NextVarInt(EncodeVarInt(v) + rest) == Ok(VarInt(v, EncodeVarInt(v), rest))
  {
    var e := EncodeVarInt(v);
    var buf := e + rest;
    assert buf[..|e|] == e && buf[|e|..] == rest;
    if v >= 0xfd {
      var n := |e| - 1;
      assert e[1..] == ToLittleEndian(v, n);
      assert buf[1..|e|] == e[1..];
      LittleEndianRoundTrip(v, n);
    }
  }

  /** The encoding length boundaries: 252 and 253, 65535 and 65536,
      2^32 - 1 and 2^32. */
  lemma EncodeWidths()
    ensures |EncodeVarInt(252)| == 1 && |EncodeVarInt(253)| == 3
    ensures |EncodeVarInt(0xffff)| == 3 && |EncodeVarInt(0x1_0000)| == 5
    ensures |EncodeVarInt(0xffff_ffff)| == 5 && |EncodeVarInt(0x1_0000_0000)| == 9
    ensures |EncodeVarInt(MaxU64)| == 9
  {
  }
}

=== FILE: contract_input.dfy ===
/** Validation of the inputs to a DLC offer and to a loan contract: oracle
    thresholds, the presence of contract infos, the fee rate, and the loan's
    interest rate and duration. The fee-rate check lives in another crate and
    is a parameter here. */
module ContractInput {
  import opened Results
  import opened Hex

  type u16 = x: int | 0 <= x < 0x1_0000

  /** `usize as u16`: keeps the low sixteen bits. */
  function AsU16(n: nat): (r: u16)
    ensures n < 0x1_0000 ==> r == n
  {
    n % 0x1_0000
  }

  /** An oracle set: x-only public keys, an event id, and how many of the
      oracles must attest. */
  datatype OracleInput = OracleInput(publicKeys: seq<bytes>, eventId: string, threshold: u16)

  /** One outcome of an enumerated contract and what each party receives. */
  datatype EnumerationPayout = EnumerationPayout(outcome: string, offer: nat, accept: nat)

  /** The payout conditions; validation does not look inside them. */
  datatype ContractDescriptor = Enum(outcomePayouts: seq<EnumerationPayout>) | Numerical

  datatype ContractInputInfo = ContractInputInfo(descriptor: ContractDescriptor, oracles: OracleInput)

  datatype ContractInput = ContractInput(
    offerCollateral: nat,
    acceptCollateral: nat,
    feeRate: nat,
    contractInfos: seq<ContractInputInfo>)

  datatype LoanContractInput = LoanContractInput(
    collateralRatio: nat,
    liquidationRatio: nat,
    interestRate: nat,
    duration: nat,
    collateral: nat,
    feeRate: nat,
    contractInfos: seq<ContractInputInfo>)

  /** The `InvalidParameters` messages, one per check. */
  datatype ValidationError =
    | NoPublicKeys
    | ThresholdTooLarge
    | ThresholdZero
    | NoContractInfo
    | FeeRateTooHigh
    | InterestRateOutOfRange
    | ZeroDuration

  /** `OracleInput::validate`: keys present, threshold at most the key count
      as a `u16`, threshold not zero, checked in that order. */
  function ValidateOracle(o: OracleInput): (r: Outcome<ValidationError>)
    ensures r.Pass? <==> |o.publicKeys| > 0 && 0 < o.threshold <= AsU16(|o.publicKeys|)
    ensures r == Fail(NoPublicKeys) <==> |o.publicKeys| == 0
    ensures r == Fail(ThresholdTooLarge) <==> |o.publicKeys| > 0 && o.threshold > AsU16(|o.publicKeys|)
    ensures r == Fail(ThresholdZero) <==> |o.publicKeys| > 0 && o.threshold == 0
  {
    if |o.publicKeys| == 0 then Fail(NoPublicKeys)
    else if o.threshold > AsU16(|o.publicKeys|) then Fail(ThresholdTooLarge)
    else if o.threshold == 0 then Fail(ThresholdZero)
    else Pass
  }

  /** Below 65536 keys the check is exactly `1 <= threshold <= keys`. */
  lemma OracleThresholdRange(o: OracleInput)
    requires |o.publicKeys| < 0x1_0000
    ensures ValidateOracle(o).Pass? <==> 1 <= o.threshold <= |o.publicKeys|
  {
  }

  /** The `as u16` cast wraps: 65536 keys count as none, so a threshold of one
      is rejected as too large. */
  lemma OracleKeyCountWraps(o: OracleInput)
    requires |o.publicKeys| == 0x1_0000 && o.threshold == 1
    ensures ValidateOracle(o) == Fail(ThresholdTooLarge)
  {
  }

  /** The loop over contract infos: the first failing oracle set decides. */
  function ValidateOracles(infos: seq<ContractInputInfo>): (r: Outcome<ValidationError>)
    ensures r.Pass? <==> forall k :: 0 <= k < |infos| ==> ValidateOracle(infos[k].oracles).Pass?
    ensures r.Fail? ==> exists k :: 0 <= k < |infos| && r == ValidateOracle(infos[k].oracles)
                                 && forall j :: 0 <= j < k ==> ValidateOracle(infos[j].oracles).Pass?
  {
    if |infos| == 0 then Pass
    else
      match ValidateOracle(infos[0].oracles)
      case Fail(e) => Fail(e)
      case Pass =>
        var rest := ValidateOracles(infos[1..]);
        assert forall k :: 1 <= k < |infos| ==> infos[k] == infos[1..][k - 1];
        if rest.Fail? then
          var k :| 0 <= k < |infos[1..]| && rest == ValidateOracle(infos[1..][k].oracles)
                   && forall j :: 0 <= j < k ==> ValidateOracle(infos[1..][j].oracles).Pass?;
          assert infos[k + 1] == infos[1..][k];
          rest
        else rest
  }

  /** The checks shared by both validators, after any loan-specific ones:
      at least one contract info, every oracle set valid, an acceptable fee
      rate. */
  function ValidateInfosAndFee(infos: seq<ContractInputInfo>, feeRate: nat, feeRateValid: nat -> bool)
    : (r: Outcome<ValidationError>)
    ensures r.Pass? <==> |infos| > 0 && ValidateOracles(infos).Pass? && feeRateValid(feeRate)
    ensures |infos| == 0 ==> r == Fail(NoContractInfo)
    ensures |infos| > 0 && ValidateOracles(infos).Fail? ==> r == ValidateOracles(infos)
    ensures r == Fail(FeeRateTooHigh) <==> |infos| > 0 && ValidateOracles(infos).Pass? && !feeRateValid(feeRate)
  {
    if |infos| == 0 then Fail(NoContractInfo)
    else
      match ValidateOracles(infos)
      case Fail(e) => Fail(e)
      case Pass => if feeRateValid(feeRate) then Pass else Fail(FeeRateTooHigh)
  }

  /** `ContractInput::validate`. The collaterals are not checked. */
  function Validate(input: ContractInput, feeRateValid: nat -> bool): (r: Outcome<ValidationError>)
    ensures r.Pass? <==> && |input.contractInfos| > 0
                         && (forall k :: 0 <= k < |input.contractInfos| ==>
                               ValidateOracle(input.contractInfos[k].oracles).Pass?)
                         && feeRateValid(input.feeRate)
  {
    ValidateInfosAndFee(input.contractInfos, input.feeRate, feeRateValid)
  }

  /** `LoanContractInput::validate`: the interest rate must lie in 1..=100,
      then the duration must be positive, then the shared checks apply. The
      ratio checks are disabled in the source, so the ratios are never read. */
  function ValidateLoan(input: LoanContractInput, feeRateValid: nat -> bool): (r: Outcome<ValidationError>)
    ensures !(1 <= input.interestRate <= 100) ==> r == Fail(InterestRateOutOfRange)
    ensures 1 <= input.interestRate <= 100 && input.duration == 0 ==> r == Fail(ZeroDuration)
    ensures r.Pass? <==> && 1 <= input.interestRate <= 100
                         && input.duration > 0
                         && |input.contractInfos| > 0
                         && (forall k :: 0 <= k < |input.contractInfos| ==>
                               ValidateOracle(input.contractInfos[k].oracles).Pass?)
                         && feeRateValid(input.feeRate)
  {
    if input.interestRate == 0 || input.interestRate > 100 then Fail(InterestRateOutOfRange)
    else if input.duration == 0 then Fail(ZeroDuration)
    else ValidateInfosAndFee(input.contractInfos, input.feeRate, feeRateValid)
  }

  /** Once interest and duration pass, a loan input is judged exactly as the
      plain contract input with the same infos and fee rate, whatever its
      collaterals. */
  lemma LoanAgreesWithContract(loan: LoanContractInput, offerCollateral: nat, acceptCollateral: nat,
                               feeRateValid: nat -> bool)
    requires 1 <= loan.interestRate <= 100 && loan.duration > 0
    ensures ValidateLoan(loan, feeRateValid)
         == Validate(ContractInput(offerCollateral, acceptCollateral, loan.feeRate, loan.contractInfos), feeRateValid)
  {
  }

  /** Neither ratio affects the verdict. */
  lemma RatiosUnchecked(loan: LoanContractInput, collateralRatio: nat, liquidationRatio: nat,
                        feeRateValid: nat -> bool)
    ensures ValidateLoan(loan.(collateralRatio := collateralRatio, liquidationRatio := liquidationRatio), feeRateValid)
         == ValidateLoan(loan, feeRateValid)
  {
  }

  /** The unit tests' base input: one enumerated contract with outcomes A and
      B, one oracle key, threshold one, fee rate 1234. */
  function BaseInput(key: bytes): ContractInput {
    ContractInput(1000000, 2000000, 1234, [
      ContractInputInfo(
        Enum([EnumerationPayout("A", 3000000, 0), EnumerationPayout("B", 0, 3000000)]),
        OracleInput([key], "1234", 1))])
  }

  /** The verdicts the unit tests expect, for any fee-rate check that accepts
      1234 and rejects 251 * 25. */
  lemma UnitTestVerdicts(key: bytes, feeRateValid: nat -> bool)
    requires feeRateValid(1234) && !feeRateValid(251 * 25)
    ensures Validate(BaseInput(key), feeRateValid).Pass?
    ensures Validate(BaseInput(key).(contractInfos := []), feeRateValid) == Fail(NoContractInfo)
    ensures Validate(BaseInput(key).(feeRate := 251 * 25), feeRateValid) == Fail(FeeRateTooHigh)
    ensures var info := BaseInput(key).contractInfos[0];
            Validate(BaseInput(key).(contractInfos := [info.(oracles := info.oracles.(publicKeys := []))]),
                     feeRateValid) == Fail(NoPublicKeys)
    ensures var info := BaseInput(key).contractInfos[0];
            Validate(BaseInput(key).(contractInfos := [info.(oracles := info.oracles.(threshold := 2))]),
                     feeRateValid) == Fail(ThresholdTooLarge)
    ensures var info := BaseInput(key).contractInfos[0];
            Validate(BaseInput(key).(contractInfos := [info.(oracles := info.oracles.(threshold := 0))]),
                     feeRateValid) == Fail(ThresholdZero)
  {
  }
}

=== FILE: dust_intent.dfy ===
/** The borrower's intent: a PSBT spending one small ("dust") UTXO of the
    borrower's to one output of the borrowed amount, signed with
    SIGHASH_SINGLE | ANYONECANPAY so the lender can add inputs and outputs.
    The two borrower screens use different dust bands; the band is a policy. */
module DustIntent {
  import opened Results
  import opened Hex
  import opened Collections
  import opened Psbts

  /** A UTXO is dust when its value lies in `dustValue..=maxDust`; one worth
      more than `sourceAbove` can be split into a fresh `dustValue` output
      and change, paying `splitFee`. */
  datatype DustPolicy = DustPolicy(dustValue: nat, maxDust: nat, sourceAbove: nat, splitFee: nat)

  /** The band of the borrow-request screen (1500..=3000, split from above 1500). */
  const BorrowRequestPolicy := DustPolicy(1500, 3000, 1500, 300)

  /** The band of the signer screen (330..=1000, split from above 1000). */
  const SignerPolicy := DustPolicy(330, 1000, 1000, 300)

  predicate IsDust(p: DustPolicy, u: Utxo) {
    p.dustValue <= u.value <= p.maxDust
  }

  predicate CanSplit(p: DustPolicy, u: Utxo) {
    u.value > p.sourceAbove
  }

  /** The split transaction the screen plans: a dust output and a change
      output, both to the borrower's own address. */
  datatype SplitPlan = SplitPlan(source: Utxo, outputs: seq<PsbtOutput>)

  datatype DustChoice = Existing(utxo: Utxo) | NeedsSplit(plan: SplitPlan)

  datatype IntentError = NoSplitSource | NoSplitTxId | NewDustMissing

  /** The first dust UTXO if there is one; otherwise a split of the first UTXO
      large enough; otherwise an error. */
  function ChooseDust(p: DustPolicy, utxos: seq<Utxo>, address: string): (r: Result<DustChoice, IntentError>)
    ensures (exists k :: 0 <= k < |utxos| && IsDust(p, utxos[k])) <==> r.Ok? && r.value.Existing?
    ensures r.Ok? && r.value.Existing? ==>
              exists k :: && 0 <= k < |utxos| && utxos[k] == r.value.utxo && IsDust(p, utxos[k])
                          && forall j :: 0 <= j < k ==> !IsDust(p, utxos[j])
    ensures r == Err(NoSplitSource) <==>
              forall k :: 0 <= k < |utxos| ==> !IsDust(p, utxos[k]) && !CanSplit(p, utxos[k])
    ensures r.Ok? && r.value.NeedsSplit? ==>
              var plan := r.value.plan;
              && plan.source in utxos && CanSplit(p, plan.source)
              && (exists k :: && 0 <= k < |utxos| && utxos[k] == plan.source
                             && forall j :: 0 <= j < k ==> !CanSplit(p, utxos[j]))
              && |plan.outputs| == 2
              && plan.outputs[0] == PsbtOutput(address, p.dustValue)
              && plan.outputs[1].address == address
              && plan.outputs[0].value + plan.outputs[1].value + p.splitFee == plan.source.value
  {
    match Find(utxos, (u: Utxo) => IsDust(p, u))
    case Some(u) => Ok(Existing(u))
    case None =>
      match Find(utxos, (u: Utxo) => CanSplit(p, u))
      case None => Err(NoSplitSource)
      case Some(source) =>
        Ok(NeedsSplit(SplitPlan(source, [PsbtOutput(address, p.dustValue),
                                         PsbtOutput(address, source.value - p.dustValue - p.splitFee)])))
  }

  /** When the split threshold is no lower than one below the dust value and
      the dust band is wider than dust value plus fee, a planned split always
      leaves positive change: the source, not being dust, exceeds the band. */
  lemma SplitChangePositive(p: DustPolicy, utxos: seq<Utxo>, address: string)
    requires p.dustValue <= p.sourceAbove + 1 && p.dustValue + p.splitFee <= p.maxDust
    requires ChooseDust(p, utxos, address).Ok? && ChooseDust(p, utxos, address).value.NeedsSplit?
    ensures var plan := ChooseDust(p, utxos, address).value.plan;
            && plan.source.value > p.maxDust
            && plan.outputs[1].value > p.maxDust - p.dustValue - p.splitFee
            && plan.outputs[1].value > 0
  {
    var plan := ChooseDust(p, utxos, address).value.plan;
    var k :| 0 <= k < |utxos| && utxos[k] == plan.source;
    assert !IsDust(p, utxos[k]);
  }

  /** Both screens' bands satisfy the conditions: a split leaves more than
      1200 sats of change on the borrow-request screen and more than 370 on
      the signer screen. */
  lemma ScreensSplitPositive(utxos: seq<Utxo>, address: string)
    ensures ChooseDust(BorrowRequestPolicy, utxos, address).Ok?
            && ChooseDust(BorrowRequestPolicy, utxos, address).value.NeedsSplit? ==>
              ChooseDust(BorrowRequestPolicy, utxos, address).value.plan.outputs[1].value > 1200
    ensures ChooseDust(SignerPolicy, utxos, address).Ok?
            && ChooseDust(SignerPolicy, utxos, address).value.NeedsSplit? ==>
              ChooseDust(SignerPolicy, utxos, address).value.plan.outputs[1].value > 370
  {
    if ChooseDust(BorrowRequestPolicy, utxos, address).Ok?
       && ChooseDust(BorrowRequestPolicy, utxos, address).value.NeedsSplit? {
      SplitChangePositive(BorrowRequestPolicy, utxos, address);
    }
    if ChooseDust(SignerPolicy, utxos, address).Ok? && ChooseDust(SignerPolicy, utxos, address).value.NeedsSplit? {
      SplitChangePositive(SignerPolicy, utxos, address);
    }
  }

  /** After the split is broadcast, the fresh dust is the first re-fetched
      UTXO from the split transaction worth exactly the dust value. */
  function RefetchDust(p: DustPolicy, newUtxos: seq<Utxo>, splitTxId: string): (r: Result<Utxo, IntentError>)
    ensures r.Ok? ==> r.value in newUtxos && r.value.txid == splitTxId && r.value.value == p.dustValue
    ensures r.Err? <==> forall k :: 0 <= k < |newUtxos| ==>
                          !(newUtxos[k].txid == splitTxId && newUtxos[k].value == p.dustValue)
    ensures r.Err? ==> r == Err(NewDustMissing)
  {
    match Find(newUtxos, (u: Utxo) => u.txid == splitTxId && u.value == p.dustValue)
    case Some(u) => Ok(u)
    case None => Err(NewDustMissing)
  }

  /** The dust UTXO the intent spends: an existing one, or the one the split
      created. `splitTxId` is the id the wallet reported (`None` when it
      reported none); `newUtxos` is the list fetched after the wait. */
  function ObtainDust(p: DustPolicy, utxos: seq<Utxo>, address: string, splitTxId: Option<string>,
                      newUtxos: seq<Utxo>): (r: Result<Utxo, IntentError>)
    ensures (exists k :: 0 <= k < |utxos| && IsDust(p, utxos[k])) ==>
              r.Ok? && IsDust(p, r.value) && r.value in utxos
    ensures r.Ok? && !(exists k :: 0 <= k < |utxos| && IsDust(p, utxos[k])) ==>
              r.value in newUtxos && splitTxId == Some(r.value.txid) && r.value.value == p.dustValue
    ensures splitTxId.None? && r.Ok? ==> r.value in utxos
  {
    var choice :- ChooseDust(p, utxos, address);
    match choice
    case Existing(u) => Ok(u)
    case NeedsSplit(_) =>
      match splitTxId
      case None => Err(NoSplitTxId)
      case Some(id) => RefetchDust(p, newUtxos, id)
  }

  /** The intent PSBT: exactly one input spending the dust, with its value as
      the witness UTXO value, and exactly one output of the borrowed amount to
      the borrower's address. */
  function IntentPsbt(dust: Utxo, ownScript: bytes, address: string, borrowAmount: int,
                      inputSighash: Option<nat>): (r: Psbt)
    ensures |r.inputs| == 1 && |r.outputs| == 1
    ensures r.inputs[0].prevout == OutPoint(dust.txid, dust.vout)
    ensures r.inputs[0].witnessUtxo == WitnessUtxo(ownScript, dust.value)
    ensures r.inputs[0].sighashType == inputSighash && r.inputs[0].sequence.None?
    ensures r.outputs[0] == PsbtOutput(address, borrowAmount)
    ensures r.inputs[0].signedWith.None? && !r.inputs[0].finalized
  {
    // A fresh PSBT holds no signature and spends nothing, so adding the
    // unsigned dust input and then the output cannot fail.
    AddOutput(AddInput(Psbt([], []), SpendInput(dust, ownScript, None, inputSighash)).value,
              PsbtOutput(address, borrowAmount)).value
  }
}

=== FILE: forms.dfy ===
/** The borrower forms' field checks. A field is its text and `Number(text)`;
    JavaScript comparisons with NaN are false, and an empty text is rejected
    before the number is looked at. */
module Forms {
  import opened Utils

  datatype NumericField = NumericField(text: string, number: JsNumber)

  /** JavaScript's `n <= 0`; every comparison with NaN is false. */
  predicate JsAtMostZero(n: JsNumber) {
    n.NegInfinity? || (n.Finite? && n.x <= 0.0)
  }

  /** JavaScript's `n < 0`. */
  predicate JsBelowZero(n: JsNumber) {
    n.NegInfinity? || (n.Finite? && n.x < 0.0)
  }

  /** The borrow-amount check: a non-empty text whose number lies strictly
      above zero, +Infinity included. */
  function IsPositive(f: NumericField): (ok: bool)
    ensures ok <==> !(f.text == "" || f.number.NaN? || JsAtMostZero(f.number))
  {
    f.text != "" && match f.number
      case Finite(x) => x > 0.0
      case PosInfinity => true
      case NegInfinity => false
      case NaN => false
  }

  /** The interest-rate check: a non-empty text whose number is zero or
      above, +Infinity included. */
  function IsNonNegative(f: NumericField): (ok: bool)
    ensures ok <==> !(f.text == "" || f.number.NaN? || JsBelowZero(f.number))
  {
    f.text != "" && match f.number
      case Finite(x) => x >= 0.0
      case PosInfinity => true
      case NegInfinity => false
      case NaN => false
  }

  datatype FormError =
    | WalletNotConnected
    | WrongNetwork
    | InvalidBorrowAmount
    | InvalidCollateralAmount
    | InvalidInterestRate

  /** Positive fields are non-negative, and an empty text or NaN is neither. */
  lemma FieldCheckFacts(f: NumericField)
    ensures IsPositive(f) ==> IsNonNegative(f)
    ensures f.text == "" || f.number.NaN? ==> !IsPositive(f) && !IsNonNegative(f)
    ensures f.text != "" && f.number == Finite(0.0) ==> IsNonNegative(f) && !IsPositive(f)
  {
  }
}

=== FILE: hex.dfy ===
/** Bytes and their hexadecimal text form, as Node's `Buffer` handles them:
    `buf.toString('hex')` writes two lower-case digits per byte, and
    `Buffer.from(text, 'hex')` reads digit pairs up to the first pair that is
    not hexadecimal, dropping a trailing odd digit. */
module Hex {

  type byte = x: int | 0 <= x < 256
  type bytes = seq<byte>

  const LowerDigits: string := "0123456789abcdef"

  /** Value of one hexadecimal digit of either case, or -1. */
  function DigitValue(c: char): (v: int)
    ensures -1 <= v < 16
    ensures v >= 0 ==> c != 'x'
  {
    if '0' <= c <= '9' then c as int - '0' as int
    else if 'a' <= c <= 'f' then c as int - 'a' as int + 10
    else if 'A' <= c <= 'F' then c as int - 'A' as int + 10
    else -1
  }

  predicate IsLowerHexDigit(c: char) {
    c in LowerDigits
  }

  lemma LowerDigitValue(d: nat)
    requires d < 16
    ensures DigitValue(LowerDigits[d]) == d
  {
  }

  /** The high hexadecimal digit of a number: how many sixteens fit in it. */
  function HighDigit(b: nat): (h: nat)
    ensures h * 16 <= b < h * 16 + 16
  {
    b / 16
  }

  /** `{:02x}` / `toString('hex')` of one byte. */
  function ByteToHex(b: byte): (s: string)
    ensures |s| == 2
    ensures IsLowerHexDigit(s[0]) && IsLowerHexDigit(s[1])
    ensures DigitValue(s[0]) >= 0 && DigitValue(s[1]) >= 0
    ensures DigitValue(s[0]) * 16 + DigitValue(s[1]) == b
  {
    var hi := HighDigit(b);
    LowerDigitValue(hi);
    LowerDigitValue(b - hi * 16);
    [LowerDigits[hi], LowerDigits[b - hi * 16]]
  }

  /** `buf.toString('hex')`. */
  function Encode(bs: bytes): (s: string)
    ensures |s| == 2 * |bs|
    ensures forall i :: 0 <= i < |s| ==> IsLowerHexDigit(s[i])
  {
    if |bs| == 0 then "" else ByteToHex(bs[0]) + Encode(bs[1..])
  }

  /** `Buffer.from(text, 'hex')`: digit pairs are decoded until the first
      pair holding a non-digit; a trailing odd digit is ignored. */
  function Decode(s: string): (r: bytes)
    ensures |r| <= |s| / 2
  {
    if |s| < 2 then []
    else
      var hi := DigitValue(s[0]);
      var lo := DigitValue(s[1]);
      if hi < 0 || lo < 0 then [] else [hi * 16 + lo] + Decode(s[2..])
  }

  /** Byte `k` of the decoding is the value of the `k`-th digit pair. */
  lemma {:induction false} DecodeDigits(s: string, k: nat)
    requires k < |Decode(s)|
    ensures DigitValue(s[2 * k]) >= 0 && DigitValue(s[2 * k + 1]) >= 0
    ensures Decode(s)[k] == DigitValue(s[2 * k]) * 16 + DigitValue(s[2 * k + 1])
  {
    if k > 0 {
      DecodeDigits(s[2..], k - 1);
      assert s[2..][2 * (k - 1)] == s[2 * k] && s[2..][2 * (k - 1) + 1] == s[2 * k + 1];
    }
  }

  /** Decoding stops short of the last whole pair only at a pair holding a
      non-digit. */
  lemma {:induction false} DecodeStops(s: string)
    ensures 2 * |Decode(s)| + 1 < |s| ==>
              DigitValue(s[2 * |Decode(s)|]) < 0 || DigitValue(s[2 * |Decode(s)| + 1]) < 0
  {
    if |s| >= 2 && DigitValue(s[0]) >= 0 && DigitValue(s[1]) >= 0 {
      var n := |Decode(s[2..])|;
      DecodeStops(s[2..]);
      assert |Decode(s)| == n + 1;
      if 2 * n + 3 < |s| {
        assert s[2..][2 * n] == s[2 * (n + 1)] && s[2..][2 * n + 1] == s[2 * (n + 1) + 1];
      }
    }
  }

  /** A leading pair of digits decodes to one byte in front of the rest. */
  lemma DecodePair(h: string, t: string)
    requires |h| == 2 && DigitValue(h[0]) >= 0 && DigitValue(h[1]) >= 0
    ensures Decode(h + t) == [DigitValue(h[0]) * 16 + DigitValue(h[1])] + Decode(t)
  {
    var s := h + t;
    assert s[0] == h[0] && s[1] == h[1] && s[2..] == t;
  }

  /** The two digits of a byte decode back to that byte, whatever follows. */
  lemma DecodeByte(b: byte, s: string, t: string)
    requires s == ByteToHex(b) + t
    ensures Decode(s) == [b] + Decode(t)
  {
    var h := ByteToHex(b);
    assert DigitValue(h[0]) * 16 + DigitValue(h[1]) == b;
    DecodePair(h, t);
  }

  lemma EncodeCons(bs: bytes)
    requires |bs| > 0
    ensures Encode(bs) == ByteToHex(bs[0]) + Encode(bs[1..])
  {
  }

  /** Decoding undoes encoding, stated for a text known to be an encoding. */
  lemma {:induction false} DecodeOfEncoded(bs: bytes, s: string)
    requires s == Encode(bs)
    ensures Decode(s) == bs
  {
    if |bs| > 0 {
      var t := Encode(bs[1..]);
      EncodeCons(bs);
      DecodeOfEncoded(bs[1..], t);
      DecodeByte(bs[0], s, t);
      assert [bs[0]] + bs[1..] == bs;
    }
  }

  /** Decoding undoes encoding: the hex text of a buffer names that buffer. */
  lemma DecodeEncode(bs: bytes)
    ensures Decode(Encode(bs)) == bs
  {
    DecodeOfEncoded(bs, Encode(bs));
  }

  /** Hex text never contains the letter `x`, so it never looks `0x`-prefixed. */
  lemma EncodeHasNoX(bs: bytes)
    ensures forall i :: 0 <= i < |Encode(bs)| ==> Encode(bs)[i] != 'x'
  {
  }

  /** Encoding is injective: distinct buffers have distinct hex texts. */
  lemma EncodeInjective(a: bytes, b: bytes)
    requires Encode(a) == Encode(b)
    ensures a == b
  {
    DecodeEncode(a);
    DecodeEncode(b);
  }
}

=== FILE: lender_fill.dfy ===
/** The lender's side: the active borrow request read from the lending
    contract, and filling it by finalizing the borrower's input 0 and
    appending the lender's own input (opting in to replace-by-fee) and,
    when worth keeping, a change output. The broadcast txid is recorded as
    a pending history entry. */
module LenderFill {
  import opened Results
  import opened Hex
  import opened Collections
  import opened Psbts
  import opened LocalStorage
  import opened TransactionHistory

  const FeeRate := 200
  const EstimatedTxSize := 150
  /** A fixed fee of 200 sat/vB times an assumed size of 150 vB. */
  const Fee := FeeRate * EstimatedTxSize
  /** Change of this many sats or fewer is not given back. */
  const ChangeThreshold := 546
  /** The lender input's nSequence. */
  const RbfSequence := 0xffff_fffd
  const RequiredNetwork := "BITCOIN_SIGNET"

  /** The contract's `borrowRequests(address)` tuple. */
  datatype BorrowTuple = BorrowTuple(
    amount: nat, collateral: nat, interestRate: nat,
    btcAddress: string, signedPsbt: string, active: bool)

  datatype BorrowRequest = BorrowRequest(
    borrower: string, amount: nat, collateral: nat, interestRate: nat,
    btcAddress: string, signedPsbt: string, active: bool)

  /** The tuple a request was read from. */
  function TupleOf(r: BorrowRequest): BorrowTuple {
    BorrowTuple(r.amount, r.collateral, r.interestRate, r.btcAddress, r.signedPsbt, r.active)
  }

  /** The request list shown to the lender: one entry built from the tuple
      when it was read and is active, otherwise none. */
  function BorrowRequests(read: Option<BorrowTuple>, evmAddress: string): (r: seq<BorrowRequest>)
    ensures |r| <= 1
    ensures |r| == 1 <==> read.Some? && read.value.active
    ensures |r| == 1 ==> r[0].borrower == evmAddress && TupleOf(r[0]) == read.value
  {
    if read.Some? && read.value.active then
      var t := read.value;
      [BorrowRequest(evmAddress, t.amount, t.collateral, t.interestRate, t.btcAddress, t.signedPsbt, t.active)]
    else []
  }

  /** The borrower's PSBT bytes: the stored hex text with its first two
      characters (the `0x`) dropped, hex-decoded. */
  function PsbtPayload(signedPsbt: string): (r: bytes)
    ensures |r| <= |signedPsbt| / 2
  {
    Decode(if |signedPsbt| >= 2 then signedPsbt[2..] else "")
  }

  /** The first two characters are dropped unread: any two characters in
      front of the hex give the same bytes as `0x`. */
  lemma PsbtPayloadIgnoresPrefix(prefix: string, hex: string)
    requires |prefix| == 2
    ensures PsbtPayload(prefix + hex) == PsbtPayload("0x" + hex)
    ensures PsbtPayload(prefix + hex) == Decode(hex)
  {
    assert (prefix + hex)[2..] == hex;
    assert ("0x" + hex)[2..] == hex;
  }

  /** Bytes stored as `0x`-prefixed lowercase hex come back unchanged. */
  lemma PsbtPayloadRoundTrip(bs: bytes)
    ensures PsbtPayload("0x" + Encode(bs)) == bs
  {
    assert ("0x" + Encode(bs))[2..] == Encode(bs);
    DecodeEncode(bs);
  }

  datatype LenderWallet = LenderWallet(connected: bool, network: string, address: string, ownScript: bytes)

  datatype FillError = WalletNotConnected | WrongNetwork | NoSuitableUtxo | BorrowerPsbt(reason: PsbtError)

  predicate Covers(u: Utxo, amount: int) {
    u.value >= amount
  }

  /** The lender's input: the UTXO's outpoint, sequence 0xfffffffd, and the
      UTXO's value as witness value. */
  function LenderInput(u: Utxo, script: bytes): (i: PsbtInput)
    ensures i.prevout == OutPoint(u.txid, u.vout) && i.sequence == Some(RbfSequence)
    ensures i.witnessUtxo == WitnessUtxo(script, u.value)
  {
    SpendInput(u, script, Some(RbfSequence), None)
  }

  /** The change output, present only when the change exceeds 546 sats. */
  function ChangeOutputs(address: string, utxoValue: int, amount: int): (r: seq<PsbtOutput>)
    ensures |r| == 1 <==> utxoValue - amount - Fee > ChangeThreshold
    ensures |r| <= 1
    ensures |r| == 1 ==> r[0].address == address && utxoValue == amount + Fee + r[0].value
  {
    var change := utxoValue - amount - Fee;
    if change > ChangeThreshold then [PsbtOutput(address, change)] else []
  }

  datatype Fill = Fill(lenderUtxo: Utxo, psbt: Psbt)

  /** `fillBorrowRequest` up to the wallet's signature. `parse` is the PSBT
      decoder, `None` when it throws. */
  function FillBorrowRequest(wallet: LenderWallet, request: BorrowRequest, utxos: seq<Utxo>,
                             parse: bytes -> Option<Psbt>): (r: Result<Fill, FillError>)
    ensures !wallet.connected ==> r == Err(WalletNotConnected)
    ensures wallet.connected && wallet.network != RequiredNetwork ==> r == Err(WrongNetwork)
    ensures (&& wallet.connected && wallet.network == RequiredNetwork
             && forall k :: 0 <= k < |utxos| ==> !Covers(utxos[k], request.amount)) ==> r == Err(NoSuitableUtxo)
    ensures r.Ok? ==>
              var borrower := parse(PsbtPayload(request.signedPsbt));
              && borrower.Some?
              && FinalizeInput(borrower.value, 0).Ok?
              && Find(utxos, (u: Utxo) => Covers(u, request.amount)) == Some(r.value.lenderUtxo)
              && r.value.psbt.inputs == FinalizeInput(borrower.value, 0).value.inputs
                                        + [LenderInput(r.value.lenderUtxo, wallet.ownScript)]
              && r.value.psbt.outputs == borrower.value.outputs
                                         + ChangeOutputs(wallet.address, r.value.lenderUtxo.value, request.amount)
    ensures (&& wallet.connected && wallet.network == RequiredNetwork
             && Find(utxos, (u: Utxo) => Covers(u, request.amount)).Some?
             && parse(PsbtPayload(request.signedPsbt)).Some?
             && FinalizeInput(parse(PsbtPayload(request.signedPsbt)).value, 0).Ok?) ==>
              var u := Find(utxos, (u: Utxo) => Covers(u, request.amount)).value;
              var borrower := parse(PsbtPayload(request.signedPsbt)).value;
              (r.Ok? <==> && SignaturesAllowAddInput(borrower)
                          && !Spends(borrower, OutPoint(u.txid, u.vout))
                          && (u.value - request.amount - Fee > ChangeThreshold ==> SignaturesAllowAddOutput(borrower)))
  {
    if !wallet.connected then Err(WalletNotConnected)
    else if wallet.network != RequiredNetwork then Err(WrongNetwork)
    else
      match Find(utxos, (u: Utxo) => Covers(u, request.amount))
      case None => Err(NoSuitableUtxo)
      case Some(u) =>
        match parse(PsbtPayload(request.signedPsbt))
        case None => Err(BorrowerPsbt(PsbtError.Unparsable))
        case Some(borrower) =>
          match FinalizeInput(borrower, 0)
          case Err(e) => Err(BorrowerPsbt(e))
          case Ok(finalized) =>
            FinalizeKeepsSpends(borrower, 0, OutPoint(u.txid, u.vout));
            FinalizeKeepsChecks(borrower, 0);
            match AddInput(finalized, LenderInput(u, wallet.ownScript))
            case Err(e) => Err(BorrowerPsbt(e))
            case Ok(withInput) =>
              AddUnsignedInputKeepsChecks(finalized, LenderInput(u, wallet.ownScript));
              var change := u.value - request.amount - Fee;
              if change > ChangeThreshold then
                match AddOutput(withInput, PsbtOutput(wallet.address, change))
                case Err(e) => Err(BorrowerPsbt(e))
                case Ok(withChange) => Ok(Fill(u, withChange))
              else Ok(Fill(u, withInput))
  }

  /** A borrower input signed SIGHASH_ALL commits to every input and output,
      so bitcoinjs-lib refuses the lender's input and the fill fails. */
  lemma SighashAllBorrowerBlocksFill(wallet: LenderWallet, request: BorrowRequest, utxos: seq<Utxo>,
                                     parse: bytes -> Option<Psbt>, borrower: Psbt, k: nat)
    requires wallet.connected && wallet.network == RequiredNetwork
    requires Find(utxos, (u: Utxo) => Covers(u, request.amount)).Some?
    requires parse(PsbtPayload(request.signedPsbt)) == Some(borrower)
    requires FinalizeInput(borrower, 0).Ok?
    requires k < |borrower.inputs| && borrower.inputs[k].signedWith == Some(SighashAll)
    ensures FillBorrowRequest(wallet, request, utxos, parse) == Err(BorrowerPsbt(SignaturesExist))
  {
    FinalizeKeepsChecks(borrower, 0);
  }

  /** A borrower PSBT whose every signature is SINGLE|ANYONECANPAY, as the
      borrower's wallet is asked for, is filled unless it already spends the
      lender's UTXO. */
  lemma SingleAnyoneCanPayBorrowerFills(wallet: LenderWallet, request: BorrowRequest, utxos: seq<Utxo>,
                                        parse: bytes -> Option<Psbt>, borrower: Psbt)
    requires wallet.connected && wallet.network == RequiredNetwork
    requires Find(utxos, (u: Utxo) => Covers(u, request.amount)).Some?
    requires parse(PsbtPayload(request.signedPsbt)) == Some(borrower)
    requires FinalizeInput(borrower, 0).Ok?
    requires forall k :: 0 <= k < |borrower.inputs| && borrower.inputs[k].signedWith.Some? ==>
               borrower.inputs[k].signedWith == Some(SighashSingleAnyoneCanPay)
    ensures var u := Find(utxos, (u: Utxo) => Covers(u, request.amount)).value;
            FillBorrowRequest(wallet, request, utxos, parse).Ok? <==> !Spends(borrower, OutPoint(u.txid, u.vout))
  {
    SingleAnyoneCanPayAllowsBoth(borrower);
  }

  /** The lender only appends: the borrower's inputs keep their outpoints
      (input 0 now finalized), the borrower's outputs keep their place, the
      lender UTXO covers the amount, and the lender's input comes last. */
  lemma FillOnlyAppends(wallet: LenderWallet, request: BorrowRequest, utxos: seq<Utxo>,
                        parse: bytes -> Option<Psbt>)
    requires FillBorrowRequest(wallet, request, utxos, parse).Ok?
    ensures var fill := FillBorrowRequest(wallet, request, utxos, parse).value;
            var borrower := parse(PsbtPayload(request.signedPsbt)).value;
            var n := |borrower.inputs|;
            && 0 < n && |fill.psbt.inputs| == n + 1
            && fill.psbt.inputs[0].finalized
            && (forall k :: 0 <= k < n ==> fill.psbt.inputs[k].prevout == borrower.inputs[k].prevout)
            && (forall k :: 0 < k < n ==> fill.psbt.inputs[k] == borrower.inputs[k])
            && fill.psbt.outputs[..|borrower.outputs|] == borrower.outputs
            && fill.lenderUtxo in utxos && fill.lenderUtxo.value >= request.amount
            && fill.psbt.inputs[n].sequence == Some(0xfffffffd)
            && fill.psbt.inputs[n].witnessUtxo.value == fill.lenderUtxo.value
  {
    var fill := FillBorrowRequest(wallet, request, utxos, parse).value;
    var borrower := parse(PsbtPayload(request.signedPsbt)).value;
    var finalized := FinalizeInput(borrower, 0).value;
    assert fill.psbt.inputs[..|borrower.inputs|] == finalized.inputs;
  }

  /** Value balance: when change is returned, the lender's UTXO pays exactly
      the borrowed amount, the 30000-sat fee and the change; otherwise at
      most 546 sats beyond amount and fee go to the miners. */
  lemma FillValueBalance(wallet: LenderWallet, request: BorrowRequest, utxos: seq<Utxo>,
                         parse: bytes -> Option<Psbt>)
    requires FillBorrowRequest(wallet, request, utxos, parse).Ok?
    ensures var fill := FillBorrowRequest(wallet, request, utxos, parse).value;
            var borrower := parse(PsbtPayload(request.signedPsbt)).value;
            var added := |fill.psbt.outputs| - |borrower.outputs|;
            && (added == 0 || added == 1)
            && (added == 1 ==> fill.lenderUtxo.value
                                 == request.amount + 30000 + fill.psbt.outputs[|borrower.outputs|].value
                               && fill.psbt.outputs[|borrower.outputs|].value > 546)
            && (added == 0 ==> fill.lenderUtxo.value <= request.amount + 30000 + 546)
  {
  }

  /** The change threshold at its edge: 546 sats of change are dropped, 547
      are returned, and a UTXO short of amount plus fee adds nothing. */
  lemma ChangeThresholdEdge(address: string, amount: int)
    ensures ChangeOutputs(address, amount + Fee + 546, amount) == []
    ensures ChangeOutputs(address, amount + Fee + 547, amount) == [PsbtOutput(address, 547)]
    ensures forall v :: v < amount + Fee ==> ChangeOutputs(address, v, amount) == []
  {
  }

  /** The lender input's sequence is below 0xfffffffe, which signals
      opt-in replaceability under BIP 125 ("Summary"), and the fee is 30000. */
  lemma LenderInputSignalsRbf(u: Utxo, script: bytes)
    ensures LenderInput(u, script).sequence.value < 0xffff_fffe
    ensures Fee == 30000
  {
  }

  datatype RecordError = BroadcastFailed

  /** After broadcast: an empty or missing txid is an error; otherwise the
      history gains a pending entry at its end. */
  function RecordFill(store: Store<seq<Entry>>, txid: Option<string>, createdAt: int, request: BorrowRequest)
    : (r: Result<Store<seq<Entry>>, RecordError>)
    ensures r.Err? <==> txid.None? || txid == Some("")
    ensures r.Ok? && store.Unavailable? ==> r.value == store
    ensures r.Ok? && store.Available? ==>
              Get(r.value, HistoryKey, []) == Get(store, HistoryKey, []) + [Entry(txid.value, Pending, request.borrower, createdAt)]
  {
    match txid
    case None => Err(BroadcastFailed)
    case Some(id) =>
      if id == "" then Err(BroadcastFailed)
      else
        var entry := Entry(id, Pending, request.borrower, createdAt);
        var history := Get(store, HistoryKey, []) + [entry];
        assert store.Available? ==> Get(Set(store, HistoryKey, history), HistoryKey, []) == history by {
          if store.Available? { GetAfterSet(store, HistoryKey, history, []); }
        }
        Ok(Set(store, HistoryKey, history))
  }

  /** A recorded fill is what the history refresh later looks at: the last
      entry is pending with the broadcast txid, and everything before it is
      the earlier history. */
  lemma RecordedFillIsPending(store: Store<seq<Entry>>, txid: string, createdAt: int, request: BorrowRequest)
    requires store.Available? && txid != ""
    ensures var h := Get(RecordFill(store, Some(txid), createdAt, request).value, HistoryKey, []);
            && |h| == |Get(store, HistoryKey, [])| + 1
            && h[|h| - 1].status == Pending && h[|h| - 1].txid == txid
            && h[..|h| - 1] == Get(store, HistoryKey, [])
            && PendingEntries(h) == PendingEntries(Get(store, HistoryKey, [])) + [h[|h| - 1]]
  {
    var before := Get(store, HistoryKey, []);
    var h := Get(RecordFill(store, Some(txid), createdAt, request).value, HistoryKey, []);
    assert h[..|h| - 1] == before;
    PendingAppend(before, h[|h| - 1]);
    assert h == before + [h[|h| - 1]];
  }

  lemma {:induction false} PendingAppend(history: seq<Entry>, e: Entry)
    requires e.status == Pending
    ensures PendingEntries(history + [e]) == PendingEntries(history) + [e]
  {
    if |history| == 0 {
      assert history + [e] == [e];
      assert PendingEntries([e]) == [e] + PendingEntries([e][1..]);
    } else {
      assert (history + [e])[1..] == history[1..] + [e];
      PendingAppend(history[1..], e);
    }
  }
}

=== FILE: local_storage.dfy ===
/** The browser key/value store behind the transaction history: `get` with a
    default, `set`, and `add` as add-if-absent on a stored list. A stored text
    either parses to a value or does not; serialize-then-parse is the identity,
    so JSON text equality is value equality. */
module LocalStorage {
  /** What `localStorage.getItem` holds for a key, after `JSON.parse`. */
  datatype Stored<T> = Parsed(value: T) | Unparsable

  /** `Unavailable` is a server-side render (no `window.localStorage`). */
  datatype Store<T> = Unavailable | Available(items: map<string, Stored<T>>)

  /** The key holds a value that parses. */
  predicate Holds<T>(store: Store<T>, key: string) {
    store.Available? && key in store.items && store.items[key].Parsed?
  }

  /** `getFromLocalStorage`: the parsed value, or the default when storage is
      unavailable, the key is absent, or parsing throws. */
  function Get<T>(store: Store<T>, key: string, default: T): (r: T)
    ensures Holds(store, key) ==> r == store.items[key].value
    ensures !Holds(store, key) ==> r == default
  {
    if Holds(store, key) then store.items[key].value else default
  }

  /** `setInLocalStorage`: overwrite one key; a no-op without storage. */
  function Set<T>(store: Store<T>, key: string, value: T): (r: Store<T>)
    ensures r.Available? <==> store.Available?
    ensures store.Available? ==> r.items.Keys == store.items.Keys + {key}
    ensures store.Available? ==> forall k :: k in store.items && k != key ==> r.items[k] == store.items[k]
  {
    match store
    case Unavailable => Unavailable
    case Available(items) => Available(items[key := Parsed(value)])
  }

  /** `addToLocalStorage`: append the item to the stored list unless an equal
      item is already there. A missing or unparsable list counts as empty.
      Afterwards the item is listed, the earlier items keep their order as a
      prefix, the list grew by at most one, and nothing changed exactly when
      the item was already there; other keys keep their values. */
  function Add<T(==)>(store: Store<seq<T>>, key: string, item: T): (r: Store<seq<T>>)
    ensures r.Available? <==> store.Available?
    ensures store.Available? ==>
              var before := Get(store, key, []);
              var after := Get(r, key, []);
              && item in after
              && |before| <= |after| <= |before| + 1
              && after[..|before|] == before
              && (item in before <==> r == store)
    ensures store.Available? ==> && r.items.Keys <= store.items.Keys + {key}
                                 && forall k :: k in store.items && k != key ==> k in r.items && r.items[k] == store.items[k]
  {
    if store.Unavailable? then store
    else
      var items := Get(store, key, []);
      if item in items then store
      else
        assert (items + [item])[..|items|] == items;
        Set(store, key, items + [item])
  }

  /** Reading a key back after writing it gives the written value. */
  lemma GetAfterSet<T>(store: Store<T>, key: string, value: T, default: T)
    requires store.Available?
    ensures Get(Set(store, key, value), key, default) == value
  {
  }

  /** Writing one key leaves every other key reading as before. */
  lemma GetOtherAfterSet<T>(store: Store<T>, key: string, other: string, value: T, default: T)
    requires other != key
    ensures Get(Set(store, key, value), other, default) == Get(store, other, default)
  {
  }

  /** Without storage nothing is ever written and every read is the default. */
  lemma UnavailableIsInert<T>(key: string, value: seq<T>, item: T, default: seq<T>)
    ensures Set(Unavailable, key, value) == Unavailable
    ensures Add(Unavailable, key, item) == Unavailable
    ensures Get(Unavailable, key, default) == default
  {
  }

  /** Adding the same item twice is adding it once. */
  lemma AddIdempotent<T>(store: Store<seq<T>>, key: string, item: T)
    ensures Add(Add(store, key, item), key, item) == Add(store, key, item)
  {
  }

  /** `add` touches no other key. */
  lemma AddKeepsOtherKeys<T>(store: Store<seq<T>>, key: string, other: string, item: T, default: seq<T>)
    requires other != key
    ensures Get(Add(store, key, item), other, default) == Get(store, other, default)
  {
  }
}

=== FILE: psbt_signer.dfy ===
/** The signer screen: stricter validation (network and collateral), the
    330..=1000 dust band, an intent PSBT without a per-input sighash, the
    wallet request for input 0 with type 0x83, and the test extension that
    adds a second input over the same outpoint and asks for index 1. */
module SignerScreen {
  import opened Results
  import opened Hex
  import opened Utils
  import opened Forms
  import opened Psbts
  import opened DustIntent

  const RequiredNetwork := "testnet"

  datatype SignerForm = SignerForm(
    walletConnected: bool,
    network: string,
    borrowAmount: NumericField,
    collateralAmount: NumericField,
    interestRate: NumericField)

  /** Wallet, network, amount, collateral, interest rate; the first failure wins. */
  function ValidateInputs(f: SignerForm): (r: Outcome<FormError>)
    ensures r.Pass? <==> && f.walletConnected && f.network == RequiredNetwork
                         && IsPositive(f.borrowAmount) && IsPositive(f.collateralAmount)
                         && IsNonNegative(f.interestRate)
    ensures !f.walletConnected ==> r == Fail(WalletNotConnected)
    ensures f.walletConnected && f.network != RequiredNetwork ==> r == Fail(WrongNetwork)
    ensures f.walletConnected && f.network == RequiredNetwork && !IsPositive(f.borrowAmount) ==>
              r == Fail(InvalidBorrowAmount)
    ensures (f.walletConnected && f.network == RequiredNetwork && IsPositive(f.borrowAmount)
             && !IsPositive(f.collateralAmount)) ==> r == Fail(InvalidCollateralAmount)
    ensures (f.walletConnected && f.network == RequiredNetwork && IsPositive(f.borrowAmount)
             && IsPositive(f.collateralAmount) && !IsNonNegative(f.interestRate)) ==> r == Fail(InvalidInterestRate)
  {
    if !f.walletConnected then Fail(WalletNotConnected)
    else if f.network != RequiredNetwork then Fail(WrongNetwork)
    else if !IsPositive(f.borrowAmount) then Fail(InvalidBorrowAmount)
    else if !IsPositive(f.collateralAmount) then Fail(InvalidCollateralAmount)
    else if !IsNonNegative(f.interestRate) then Fail(InvalidInterestRate)
    else Pass
  }

  const FirstRequest := SignRequest([0], [SighashSingleAnyoneCanPay])
  const SecondRequest := SignRequest([1], [SighashSingleAnyoneCanPay])

  datatype SignerIntent = SignerIntent(dust: Utxo, psbt: Psbt, request: SignRequest)

  datatype SignerFailure = Form(form: FormError) | Dust(dust: IntentError) | BadOutputValue

  /** `createAndSignIntent` up to the first signing request. `splitTxId` is
      what the wallet's send returned (`None` when it threw). */
  function CreateIntent(form: SignerForm, address: string, ownScript: bytes, utxos: seq<Utxo>,
                        splitTxId: Option<string>, newUtxos: seq<Utxo>): (r: Result<SignerIntent, SignerFailure>)
    ensures ValidateInputs(form).Fail? ==> r == Err(Form(ValidateInputs(form).reason))
    ensures r.Ok? ==> && ValidateInputs(form).Pass?
                      && IsDust(SignerPolicy, r.value.dust)
                      && |r.value.psbt.inputs| == 1 && |r.value.psbt.outputs| == 1
                      && r.value.psbt.inputs[0].prevout == OutPoint(r.value.dust.txid, r.value.dust.vout)
                      && r.value.psbt.inputs[0].witnessUtxo.value == r.value.dust.value
                      && r.value.psbt.inputs[0].sighashType.None?
                      && r.value.psbt.inputs[0].signedWith.None?
                      && r.value.psbt.outputs[0].address == address
                      && form.borrowAmount.number == Finite(r.value.psbt.outputs[0].value as real)
                      && r.value.request == SignRequest([0], [0x83])
  {
    match ValidateInputs(form)
    case Fail(e) => Err(Form(e))
    case Pass =>
      match ObtainDust(SignerPolicy, utxos, address, splitTxId, newUtxos)
      case Err(e) => Err(Dust(e))
      case Ok(dust) =>
        if !IsIntegral(form.borrowAmount.number) then Err(BadOutputValue)
        else
          var amount := form.borrowAmount.number.x.Floor;
          Ok(SignerIntent(dust, IntentPsbt(dust, ownScript, address, amount, None), FirstRequest))
  }

  /** The test extension: the wallet is asked to sign input 0, the same
      dust outpoint is appended as a second input, and the wallet is asked to
      sign input 1. `first` and `second` are the wallet's answers. */
  function TestExtension(intent: SignerIntent, ownScript: bytes, first: WalletReply, second: WalletReply)
    : (r: Result<Psbt, PsbtError>)
    ensures |intent.psbt.inputs| == 0 ==> r == Err(NoSuchInput)
    ensures |intent.psbt.inputs| > 0 && first.Rejects? ==> r == Err(WalletRefused)
    ensures (&& |intent.psbt.inputs| > 0 && first.Approves? && SignaturesAllowAddInput(intent.psbt)
             && Spends(intent.psbt, OutPoint(intent.dust.txid, intent.dust.vout))) ==> r == Err(DuplicateInput)
    ensures r.Ok? ==> && |r.value.inputs| == |intent.psbt.inputs| + 1
                      && r.value.inputs[0].signedWith == Some(SighashSingleAnyoneCanPay)
                      && r.value.inputs[|intent.psbt.inputs|].prevout == OutPoint(intent.dust.txid, intent.dust.vout)
                      && r.value.outputs == intent.psbt.outputs
  {
    var signed :- SignInput(intent.psbt, FirstRequest.signingIndexes[0], FirstRequest.sighashTypes[0], first);
    SignKeepsSpends(intent.psbt, 0, SighashSingleAnyoneCanPay, first, OutPoint(intent.dust.txid, intent.dust.vout));
    SignKeepsAddInputCheck(intent.psbt, 0, SighashSingleAnyoneCanPay, first);
    var extended :- AddInput(signed, SpendInput(intent.dust, ownScript, None, None));
    SignInput(extended, SecondRequest.signingIndexes[0], SecondRequest.sighashTypes[0], second)
  }

  /** What the screen keeps as its signed PSBT once the handler returns: the
      first signature is stored, but any failure later in the handler clears
      it again. */
  function KeptSignedPsbt(intent: SignerIntent, ownScript: bytes, first: WalletReply, second: WalletReply)
    : (kept: Option<Psbt>)
    ensures kept.Some? <==> TestExtension(intent, ownScript, first, second).Ok?
    ensures kept.Some? ==> && 0 < |intent.psbt.inputs| == |kept.value.inputs|
                           && kept.value.inputs[0].signedWith == Some(SighashSingleAnyoneCanPay)
                           && kept.value.outputs == intent.psbt.outputs
  {
    match TestExtension(intent, ownScript, first, second)
    case Err(_) => None
    case Ok(_) =>
      Some(SignInput(intent.psbt, FirstRequest.signingIndexes[0], FirstRequest.sighashTypes[0], first).value)
  }

  /** On every intent the screen builds the extension fails, whatever the
      wallet answers: a refused first request fails there, and otherwise the
      second input repeats the dust outpoint input 0 already spends, which
      bitcoinjs-lib rejects before the second request is made. Either way the
      screen ends with no signed PSBT. */
  lemma TestExtensionFails(form: SignerForm, address: string, ownScript: bytes, utxos: seq<Utxo>,
                           splitTxId: Option<string>, newUtxos: seq<Utxo>,
                           first: WalletReply, second: WalletReply)
    requires CreateIntent(form, address, ownScript, utxos, splitTxId, newUtxos).Ok?
    ensures var intent := CreateIntent(form, address, ownScript, utxos, splitTxId, newUtxos).value;
            && TestExtension(intent, ownScript, first, second)
               == Err(if first.Approves? then DuplicateInput else WalletRefused)
            && KeptSignedPsbt(intent, ownScript, first, second).None?
  {
    var intent := CreateIntent(form, address, ownScript, utxos, splitTxId, newUtxos).value;
    assert Spends(intent.psbt, OutPoint(intent.dust.txid, intent.dust.vout)) by {
      assert intent.psbt.inputs[0].prevout == OutPoint(intent.dust.txid, intent.dust.vout);
    }
  }
}

=== FILE: psbts.dfy ===
/** A PSBT as the frontend builds it with bitcoinjs-lib, reduced to the
    fields the lending flows set: the spent outpoint, the sequence, the
    witness UTXO, the requested sighash type, whether the input carries a
    signature and whether it is finalized; outputs are address and value. */
module Psbts {
  import opened Results
  import opened Hex

  /** SIGHASH_SINGLE | SIGHASH_ANYONECANPAY. */
  const SighashSingleAnyoneCanPay: nat := 0x83

  /** SIGHASH_ALL. */
  const SighashAll: nat := 0x01

  /** The sighash type has the ANYONECANPAY bit (`& 0x80`) set. */
  predicate AnyoneCanPay(h: nat) {
    (h / 0x80) % 2 == 1
  }

  /** The sighash type's base (`& 0x1f`) is SIGHASH_NONE (2) or SIGHASH_SINGLE (3). */
  predicate SingleOrNone(h: nat) {
    h % 0x20 == 2 || h % 0x20 == 3
  }

  datatype OutPoint = OutPoint(txid: string, vout: nat)

  /** A wallet UTXO as the mempool address endpoint lists it. */
  datatype Utxo = Utxo(txid: string, vout: nat, value: int)

  datatype WitnessUtxo = WitnessUtxo(script: bytes, value: int)

  /** `signedWith` is the sighash type of the signature the wallet added. */
  datatype PsbtInput = PsbtInput(
    prevout: OutPoint,
    sequence: Option<nat>,
    witnessUtxo: WitnessUtxo,
    sighashType: Option<nat>,
    signedWith: Option<nat>,
    finalized: bool)

  datatype PsbtOutput = PsbtOutput(address: string, value: int)

  datatype Psbt = Psbt(inputs: seq<PsbtInput>, outputs: seq<PsbtOutput>)

  /** `DuplicateInput` is bitcoinjs-lib's "Duplicate input detected.",
      `SignaturesExist` its "Can not modify transaction, signatures exist.",
      `SighashMismatch` a signature whose type differs from the input's
      requested type, and `WalletRefused` a signing request the wallet's user
      rejects. */
  datatype PsbtError =
    | Unparsable
    | NoSuchInput
    | NotSigned
    | AlreadyFinalized
    | SighashMismatch
    | DuplicateInput
    | SignaturesExist
    | WalletRefused

  /** The wallet's answer to a signing request; the wallet is outside the
      model, so its answer is a parameter. */
  datatype WalletReply = Approves | Rejects

  /** Some input of `p` already spends `o`. */
  predicate Spends(p: Psbt, o: OutPoint)
  {
    exists k :: 0 <= k < |p.inputs| && p.inputs[k].prevout == o
  }

  /** Every signature in `p`, partial or finalized, commits to
      ANYONECANPAY, which is what lets bitcoinjs-lib add an input. */
  predicate SignaturesAllowAddInput(p: Psbt)
  {
    forall k :: 0 <= k < |p.inputs| && p.inputs[k].signedWith.Some? ==> AnyoneCanPay(p.inputs[k].signedWith.value)
  }

  /** Every signature in `p` commits only to its own output or to none,
      which is what lets bitcoinjs-lib add an output. */
  predicate SignaturesAllowAddOutput(p: Psbt)
  {
    forall k :: 0 <= k < |p.inputs| && p.inputs[k].signedWith.Some? ==> SingleOrNone(p.inputs[k].signedWith.value)
  }

  /** No two inputs of `p` spend the same outpoint. */
  predicate DistinctOutpoints(p: Psbt)
  {
    forall i, j :: 0 <= i < j < |p.inputs| ==> p.inputs[i].prevout != p.inputs[j].prevout
  }

  /** The input spending `utxo`, locked by `script`, not yet signed. */
  function SpendInput(utxo: Utxo, script: bytes, sequence: Option<nat>, sighashType: Option<nat>): (i: PsbtInput)
    ensures i.prevout == OutPoint(utxo.txid, utxo.vout) && i.witnessUtxo.value == utxo.value
    ensures i.signedWith.None? && !i.finalized
  {
    PsbtInput(OutPoint(utxo.txid, utxo.vout), sequence, WitnessUtxo(script, utxo.value), sighashType, None, false)
  }

  /** `addInput`: refuses when a signature does not commit to
      ANYONECANPAY, then refuses an outpoint some input already spends;
      otherwise appends the input and leaves everything else alone. */
  function AddInput(p: Psbt, input: PsbtInput): (r: Result<Psbt, PsbtError>)
    ensures r.Ok? <==> && SignaturesAllowAddInput(p)
                       && forall k :: 0 <= k < |p.inputs| ==> p.inputs[k].prevout != input.prevout
    ensures !SignaturesAllowAddInput(p) ==> r == Err(SignaturesExist)
    ensures SignaturesAllowAddInput(p) && r.Err? ==> r == Err(DuplicateInput)
    ensures r.Ok? ==> && |r.value.inputs| == |p.inputs| + 1 && r.value.inputs[|p.inputs|] == input
                      && r.value.inputs[..|p.inputs|] == p.inputs && r.value.outputs == p.outputs
  {
    if !SignaturesAllowAddInput(p) then Err(SignaturesExist)
    else if Spends(p, input.prevout) then Err(DuplicateInput)
    else Ok(Psbt(p.inputs + [input], p.outputs))
  }

  /** An unsigned input added to `p` changes neither signature check. */
  lemma AddUnsignedInputKeepsChecks(p: Psbt, input: PsbtInput)
    requires AddInput(p, input).Ok? && input.signedWith.None?
    ensures SignaturesAllowAddInput(AddInput(p, input).value) <==> SignaturesAllowAddInput(p)
    ensures SignaturesAllowAddOutput(AddInput(p, input).value) <==> SignaturesAllowAddOutput(p)
  {
    var r := AddInput(p, input).value;
    assert forall k :: 0 <= k < |p.inputs| ==> r.inputs[k] == p.inputs[k];
  }

  /** Adding inputs one at a time never puts two inputs on one outpoint. */
  lemma AddInputKeepsDistinct(p: Psbt, input: PsbtInput)
    requires DistinctOutpoints(p)
    requires AddInput(p, input).Ok?
    ensures DistinctOutpoints(AddInput(p, input).value)
    ensures Spends(AddInput(p, input).value, input.prevout)
  {
    var r := AddInput(p, input).value;
    assert r.inputs[|p.inputs|].prevout == input.prevout;
    forall i, j | 0 <= i < j < |r.inputs|
      ensures r.inputs[i].prevout != r.inputs[j].prevout
    {
      assert r.inputs[i] == p.inputs[i];
      if j < |p.inputs| {
        assert r.inputs[j] == p.inputs[j];
      }
    }
  }

  /** Whatever the PSBT, adding an input over an outpoint it already spends
      fails, as a duplicate once the signatures allow adding at all. */
  lemma AddSpentInputFails(p: Psbt, input: PsbtInput, k: nat)
    requires k < |p.inputs| && p.inputs[k].prevout == input.prevout
    ensures AddInput(p, input).Err?
    ensures SignaturesAllowAddInput(p) ==> AddInput(p, input) == Err(DuplicateInput)
  {
  }

  /** `addOutput`: refuses when a signature commits to all outputs;
      otherwise appends one output and leaves everything else alone. */
  function AddOutput(p: Psbt, output: PsbtOutput): (r: Result<Psbt, PsbtError>)
    ensures r.Ok? <==> SignaturesAllowAddOutput(p)
    ensures r.Err? ==> r.error == SignaturesExist
    ensures r.Ok? ==> && |r.value.outputs| == |p.outputs| + 1 && r.value.outputs[|p.outputs|] == output
                      && r.value.outputs[..|p.outputs|] == p.outputs && r.value.inputs == p.inputs
  {
    if !SignaturesAllowAddOutput(p) then Err(SignaturesExist)
    else Ok(Psbt(p.inputs, p.outputs + [output]))
  }

  /** Signatures of type SINGLE|ANYONECANPAY (0x83) leave room for both
      another input and another output. */
  lemma SingleAnyoneCanPayAllowsBoth(p: Psbt)
    requires forall k :: 0 <= k < |p.inputs| && p.inputs[k].signedWith.Some? ==>
               p.inputs[k].signedWith == Some(SighashSingleAnyoneCanPay)
    ensures SignaturesAllowAddInput(p) && SignaturesAllowAddOutput(p)
  {
  }

  /** A single SIGHASH_ALL signature, partial or finalized, freezes both
      the inputs and the outputs. */
  lemma SighashAllFreezes(p: Psbt, k: nat, input: PsbtInput, output: PsbtOutput)
    requires k < |p.inputs| && p.inputs[k].signedWith == Some(SighashAll)
    ensures AddInput(p, input) == Err(SignaturesExist)
    ensures AddOutput(p, output) == Err(SignaturesExist)
  {
  }

  /** `finalizeInput(index)`: the input must exist, not be finalized yet,
      carry a signature, and that signature's type must be the input's
      requested sighash type when one is set. Finalizing keeps the
      signature, which the later checks still read. */
  function FinalizeInput(p: Psbt, index: nat): (r: Result<Psbt, PsbtError>)
    ensures r.Ok? <==> && index < |p.inputs| && !p.inputs[index].finalized
                       && p.inputs[index].signedWith.Some?
                       && (p.inputs[index].sighashType.None? || p.inputs[index].sighashType == p.inputs[index].signedWith)
    ensures index >= |p.inputs| ==> r == Err(NoSuchInput)
    ensures index < |p.inputs| && p.inputs[index].finalized ==> r == Err(AlreadyFinalized)
    ensures r.Ok? ==> && |r.value.inputs| == |p.inputs|
                      && r.value.inputs[index] == p.inputs[index].(finalized := true)
                      && r.value.outputs == p.outputs
                      && forall k :: 0 <= k < |p.inputs| && k != index ==> r.value.inputs[k] == p.inputs[k]
  {
    if index >= |p.inputs| then Err(NoSuchInput)
    else if p.inputs[index].finalized then Err(AlreadyFinalized)
    else if p.inputs[index].signedWith.None? then Err(NotSigned)
    else if p.inputs[index].sighashType.Some? && p.inputs[index].sighashType != p.inputs[index].signedWith then
      Err(SighashMismatch)
    else Ok(Psbt(p.inputs[index := p.inputs[index].(finalized := true)], p.outputs))
  }

  /** Finalizing changes neither signature check. */
  lemma FinalizeKeepsChecks(p: Psbt, index: nat)
    requires FinalizeInput(p, index).Ok?
    ensures SignaturesAllowAddInput(FinalizeInput(p, index).value) <==> SignaturesAllowAddInput(p)
    ensures SignaturesAllowAddOutput(FinalizeInput(p, index).value) <==> SignaturesAllowAddOutput(p)
  {
    var f := FinalizeInput(p, index).value;
    assert forall k :: 0 <= k < |p.inputs| ==> f.inputs[k].signedWith == p.inputs[k].signedWith;
  }

  /** A wallet signing request: which inputs to sign, with which sighash types. */
  datatype SignRequest = SignRequest(signingIndexes: seq<nat>, sighashTypes: seq<nat>)

  /** Finalizing keeps every outpoint where it was. */
  lemma FinalizeKeepsSpends(p: Psbt, index: nat, o: OutPoint)
    requires FinalizeInput(p, index).Ok?
    ensures Spends(FinalizeInput(p, index).value, o) <==> Spends(p, o)
  {
    var f := FinalizeInput(p, index).value;
    if Spends(p, o) {
      var k :| 0 <= k < |p.inputs| && p.inputs[k].prevout == o;
      assert f.inputs[k].prevout == o;
    }
    if Spends(f, o) {
      var k :| 0 <= k < |f.inputs| && f.inputs[k].prevout == o;
      assert p.inputs[k].prevout == o;
    }
  }

  /** A one-input signing request: an index the PSBT does not have fails, a
      refused request fails, and an approved one signs that input with the
      requested type and changes nothing else. */
  function SignInput(p: Psbt, index: nat, sighash: nat, reply: WalletReply): (r: Result<Psbt, PsbtError>)
    ensures r.Ok? <==> index < |p.inputs| && reply.Approves?
    ensures index >= |p.inputs| ==> r == Err(NoSuchInput)
    ensures index < |p.inputs| && reply.Rejects? ==> r == Err(WalletRefused)
    ensures r.Ok? ==> && |r.value.inputs| == |p.inputs|
                      && r.value.inputs[index].signedWith == Some(sighash)
                      && r.value.inputs[index].prevout == p.inputs[index].prevout
                      && r.value.outputs == p.outputs
                      && forall k :: 0 <= k < |p.inputs| && k != index ==> r.value.inputs[k] == p.inputs[k]
  {
    if index >= |p.inputs| then Err(NoSuchInput)
    else if reply.Rejects? then Err(WalletRefused)
    else Ok(Psbt(p.inputs[index := p.inputs[index].(signedWith := Some(sighash))], p.outputs))
  }

  /** Signing with an ANYONECANPAY type keeps `addInput` allowed. */
  lemma SignKeepsAddInputCheck(p: Psbt, index: nat, sighash: nat, reply: WalletReply)
    requires SignInput(p, index, sighash, reply).Ok?
    ensures AnyoneCanPay(sighash) && SignaturesAllowAddInput(p) ==>
              SignaturesAllowAddInput(SignInput(p, index, sighash, reply).value)
  {
  }

  /** Signing keeps every outpoint where it was. */
  lemma SignKeepsSpends(p: Psbt, index: nat, sighash: nat, reply: WalletReply, o: OutPoint)
    requires SignInput(p, index, sighash, reply).Ok?
    ensures Spends(SignInput(p, index, sighash, reply).value, o) <==> Spends(p, o)
  {
    var f := SignInput(p, index, sighash, reply).value;
    if Spends(p, o) {
      var k :| 0 <= k < |p.inputs| && p.inputs[k].prevout == o;
      assert f.inputs[k].prevout == o;
    }
    if Spends(f, o) {
      var k :| 0 <= k < |f.inputs| && f.inputs[k].prevout == o;
      assert p.inputs[k].prevout == o;
    }
  }

  /** An input the wallet signed with the requested type (or with no type
      requested) can be finalized, once, and keeps its outpoint. */
  lemma SignThenFinalize(p: Psbt, index: nat, sighash: nat)
    requires index < |p.inputs| && !p.inputs[index].finalized
    requires p.inputs[index].sighashType.None? || p.inputs[index].sighashType == Some(sighash)
    ensures SignInput(p, index, sighash, Approves).Ok?
    ensures FinalizeInput(SignInput(p, index, sighash, Approves).value, index).Ok?
    ensures FinalizeInput(SignInput(p, index, sighash, Approves).value, index).value.inputs[index].prevout
         == p.inputs[index].prevout
    ensures FinalizeInput(FinalizeInput(SignInput(p, index, sighash, Approves).value, index).value, index)
         == Err(AlreadyFinalized)
  {
  }

  /** A signature of another type than the input requests cannot be finalized. */
  lemma FinalizeRejectsOtherSighash(p: Psbt, index: nat, sighash: nat)
    requires index < |p.inputs| && !p.inputs[index].finalized
    requires p.inputs[index].sighashType.Some? && p.inputs[index].sighashType != Some(sighash)
    ensures FinalizeInput(SignInput(p, index, sighash, Approves).value, index) == Err(SighashMismatch)
  {
  }
}

=== FILE: raw_tx.dfy ===
/** `splitTransaction`: cuts a raw Bitcoin transaction into the segments the
    on-chain SPV verifier takes (version, segwit flag, vin, vout, witness,
    locktime). Each segment keeps its exact bytes, count prefixes included. */
module RawTx {
  import opened Results
  import opened Hex
  import opened CompactSize

  datatype Segments = Segments(
    version: bytes,
    flag: bytes,
    vin: bytes,
    vout: bytes,
    witnessData: bytes,
    locktime: bytes)

  /** The segments laid end to end again. */
  function Join(s: Segments): bytes
  {
    s.version + s.flag + s.vin + s.vout + s.witnessData + s.locktime
  }

  /** Two successive cuts of a buffer glue back into one. */
  lemma Glue(a: bytes, b: bytes, rest: bytes, buf: bytes)
    requires a + (b + rest) == buf
    ensures (a + b) + rest == buf
  {
    assert (a + b) + rest == a + (b + rest);
  }

  /** The input-count read: a zero count is the segwit marker, in which case
      the marker's bytes and the next byte form the flag and the real count
      is read after it; otherwise the flag is empty. */
  datatype Header = Header(flag: bytes, count: VarInt)

  function ReadHeader(buf: bytes): (r: Result<Header, ParseError>)
    ensures r.Ok? ==> r.value.flag + r.value.count.raw + r.value.count.rest == buf
    ensures r.Ok? ==>
              NextVarInt(buf).Ok?
              && (|r.value.flag| > 0 <==> NextVarInt(buf).value.value == 0)
    ensures r.Ok? && |r.value.flag| > 0 ==>
              var marker := NextVarInt(buf).value;
              r.value.flag == marker.raw + NextBytes(marker.rest, 1).taken
  {
    var first :- NextVarInt(buf);
    if first.value == 0 then
      var flagByte := NextBytes(first.rest, 1);
      var count :- NextVarInt(flagByte.rest);
      Glue(first.raw, flagByte.taken, flagByte.rest, buf);
      Glue(first.raw + flagByte.taken, count.raw, count.rest, buf);
      Ok(Header(first.raw + flagByte.taken, count))
    else
      Ok(Header([], first))
  }

  /** `count` input records: 32-byte txid, 4-byte index, CompactSize script
      length, script, 4-byte sequence. */
  function ReadInputs(buf: bytes, count: nat): (r: Result<Cut, ParseError>)
    ensures r.Ok? ==> r.value.taken + r.value.rest == buf
    decreases count
  {
    if count == 0 then Ok(Cut([], buf))
    else
      var txid := NextBytes(buf, 32);
      var index := NextBytes(txid.rest, 4);
      var scriptLen :- NextVarInt(index.rest);
      var script := NextBytes(scriptLen.rest, scriptLen.value);
      var sequence := NextBytes(script.rest, 4);
      var more :- ReadInputs(sequence.rest, count - 1);
      Glue(txid.taken, index.taken, index.rest, buf);
      Glue(txid.taken + index.taken, scriptLen.raw, scriptLen.rest, buf);
      Glue(txid.taken + index.taken + scriptLen.raw, script.taken, script.rest, buf);
      Glue(txid.taken + index.taken + scriptLen.raw + script.taken, sequence.taken, sequence.rest, buf);
      Glue(txid.taken + index.taken + scriptLen.raw + script.taken + sequence.taken, more.taken, more.rest, buf);
      Ok(Cut(txid.taken + index.taken + scriptLen.raw + script.taken + sequence.taken + more.taken, more.rest))
  }

  /** `count` output records: 8-byte amount, CompactSize script length, script. */
  function ReadOutputs(buf: bytes, count: nat): (r: Result<Cut, ParseError>)
    ensures r.Ok? ==> r.value.taken + r.value.rest == buf
    decreases count
  {
    if count == 0 then Ok(Cut([], buf))
    else
      var amount := NextBytes(buf, 8);
      var scriptLen :- NextVarInt(amount.rest);
      var script := NextBytes(scriptLen.rest, scriptLen.value);
      var more :- ReadOutputs(script.rest, count - 1);
      Glue(amount.taken, scriptLen.raw, scriptLen.rest, buf);
      Glue(amount.taken + scriptLen.raw, script.taken, script.rest, buf);
      Glue(amount.taken + scriptLen.raw + script.taken, more.taken, more.rest, buf);
      Ok(Cut(amount.taken + scriptLen.raw + script.taken + more.taken, more.rest))
  }

  /** `count` witness components, each a CompactSize length and that many bytes. */
  function ReadComponents(buf: bytes, count: nat): (r: Result<Cut, ParseError>)
    ensures r.Ok? ==> r.value.taken + r.value.rest == buf
    decreases count
  {
    if count == 0 then Ok(Cut([], buf))
    else
      var len :- NextVarInt(buf);
      var component := NextBytes(len.rest, len.value);
      var more :- ReadComponents(component.rest, count - 1);
      Glue(len.raw, component.taken, component.rest, buf);
      Glue(len.raw + component.taken, more.taken, more.rest, buf);
      Ok(Cut(len.raw + component.taken + more.taken, more.rest))
  }

  /** One witness stack per input: a CompactSize component count, then the components. */
  function ReadWitnesses(buf: bytes, count: nat): (r: Result<Cut, ParseError>)
    ensures r.Ok? ==> r.value.taken + r.value.rest == buf
    decreases count
  {
    if count == 0 then Ok(Cut([], buf))
    else
      var components :- NextVarInt(buf);
      var stack :- ReadComponents(components.rest, components.value);
      var more :- ReadWitnesses(stack.rest, count - 1);
      Glue(components.raw, stack.taken, stack.rest, buf);
      Glue(components.raw + stack.taken, more.taken, more.rest, buf);
      Ok(Cut(components.raw + stack.taken + more.taken, more.rest))
  }

  /** The witness section: one stack per input when the flag is present,
      nothing otherwise. */
  function ReadWitnessSection(buf: bytes, flag: bytes, inputCount: nat): (r: Result<Cut, ParseError>)
    ensures r.Ok? ==> r.value.taken + r.value.rest == buf
    ensures r.Ok? && |flag| == 0 ==> r.value.taken == []
  {
    if |flag| > 0 then ReadWitnesses(buf, inputCount) else Ok(Cut([], buf))
  }

  /** `splitTransaction` on the decoded bytes: version, flag and input count,
      inputs, output count and outputs, witnesses, locktime, and a final check
      that nothing is left. */
  function SplitTransaction(raw: bytes): (r: Result<Segments, ParseError>)
    ensures r.Ok? ==> |r.value.locktime| <= 4
    ensures r.Ok? && |r.value.flag| == 0 ==> r.value.witnessData == []
  {
    var version := NextBytes(raw, 4);
    var header :- ReadHeader(version.rest);
    var inputs :- ReadInputs(header.count.rest, header.count.value);
    var outCount :- NextVarInt(inputs.rest);
    var outputs :- ReadOutputs(outCount.rest, outCount.value);
    var witnesses :- ReadWitnessSection(outputs.rest, header.flag, header.count.value);
    var locktime := NextBytes(witnesses.rest, 4);
    if |locktime.rest| != 0 then Err(BufferNotEmpty)
    else
      Ok(Segments(version.taken, header.flag, header.count.raw + inputs.taken,
                  outCount.raw + outputs.taken, witnesses.taken, locktime.taken))
  }

  /** Eight consecutive cuts of a buffer lay end to end into the buffer. */
  lemma Chain(raw: bytes, v: bytes, r0: bytes, f: bytes, c: bytes, r2: bytes, i: bytes, r3: bytes,
              d: bytes, r4: bytes, o: bytes, r5: bytes, w: bytes, r6: bytes, l: bytes)
    requires v + r0 == raw && f + c + r2 == r0 && i + r3 == r2 && d + r4 == r3
    requires o + r5 == r4 && w + r6 == r5 && l == r6
    ensures Join(Segments(v, f, c + i, d + o, w, l)) == raw
  {
    calc {
      raw;
      v + (f + c + (i + (d + (o + (w + l)))));
      { assert d + (o + (w + l)) == (d + o) + (w + l); }
      v + (f + c + (i + ((d + o) + (w + l))));
      { assert i + ((d + o) + (w + l)) == (i + (d + o)) + (w + l); }
      v + (f + c + ((i + (d + o)) + (w + l)));
      { assert f + c + ((i + (d + o)) + (w + l)) == f + (c + i) + (d + o) + (w + l); }
      v + (f + (c + i) + (d + o) + (w + l));
      v + f + (c + i) + (d + o) + w + l;
    }
  }

  /** A successful split is lossless: the segments laid end to end are exactly
      the input, so the split loses and invents nothing. */
  lemma SplitLossless(raw: bytes)
    requires SplitTransaction(raw).Ok?
    ensures Join(SplitTransaction(raw).value) == raw
  {
    var version := NextBytes(raw, 4);
    assert ReadHeader(version.rest).Ok?;
    var header := ReadHeader(version.rest).value;
    assert ReadInputs(header.count.rest, header.count.value).Ok?;
    var inputs := ReadInputs(header.count.rest, header.count.value).value;
    assert NextVarInt(inputs.rest).Ok?;
    var outCount := NextVarInt(inputs.rest).value;
    assert ReadOutputs(outCount.rest, outCount.value).Ok?;
    var outputs := ReadOutputs(outCount.rest, outCount.value).value;
    assert ReadWitnessSection(outputs.rest, header.flag, header.count.value).Ok?;
    var witnesses := ReadWitnessSection(outputs.rest, header.flag, header.count.value).value;
    var locktime := NextBytes(witnesses.rest, 4);
    var s := SplitTransaction(raw).value;
    assert s == Segments(version.taken, header.flag, header.count.raw + inputs.taken,
                         outCount.raw + outputs.taken, witnesses.taken, locktime.taken);
    assert locktime.rest == [];
    Chain(raw, version.taken, version.rest, header.flag, header.count.raw, header.count.rest,
          inputs.taken, inputs.rest, outCount.raw, outCount.rest, outputs.taken, outputs.rest,
          witnesses.taken, witnesses.rest, locktime.taken);
    assert Join(s) == raw;
  }
}

=== FILE: raw_tx_format.dfy ===
/** The wire format the splitter reads, written as a serializer over a
    structured transaction (legacy, or segwit with the marker/flag of BIP 144),
    and the proof that the splitter cuts every well-formed serialization at
    exactly the field boundaries. */
module RawTxFormat {
  import opened Results
  import opened Hex
  import opened CompactSize
  import opened RawTx

  datatype TxIn = TxIn(prevTxid: bytes, prevIndex: bytes, scriptSig: bytes, sequence: bytes)
  datatype TxOut = TxOut(amount: bytes, scriptPubKey: bytes)

  /** `segwitFlag` is the byte after the 0x00 marker, or `None` for a legacy
      transaction; `witnesses` holds one stack of components per input. */
  datatype Tx = Tx(
    version: bytes,
    segwitFlag: Option<byte>,
    inputs: seq<TxIn>,
    outputs: seq<TxOut>,
    witnesses: seq<seq<bytes>>,
    locktime: bytes)

  predicate ValidInput(i: TxIn) {
    |i.prevTxid| == 32 && |i.prevIndex| == 4 && |i.scriptSig| <= MaxU64 && |i.sequence| == 4
  }

  predicate ValidOutput(o: TxOut) {
    |o.amount| == 8 && |o.scriptPubKey| <= MaxU64
  }

  predicate ValidStack(stack: seq<bytes>) {
    |stack| <= MaxU64 && forall k :: 0 <= k < |stack| ==> |stack[k]| <= MaxU64
  }

  /** Every field has its wire width and every count fits a CompactSize, with
      a locktime of at most four bytes. A legacy transaction needs at least one
      input: a zero input count is read as the segwit marker. */
  predicate Framed(tx: Tx) {
    && |tx.version| == 4
    && |tx.locktime| <= 4
    && |tx.inputs| <= MaxU64
    && |tx.outputs| <= MaxU64
    && (forall k :: 0 <= k < |tx.inputs| ==> ValidInput(tx.inputs[k]))
    && (forall k :: 0 <= k < |tx.outputs| ==> ValidOutput(tx.outputs[k]))
    && (tx.segwitFlag.None? ==> |tx.inputs| > 0 && tx.witnesses == [])
    && (tx.segwitFlag.Some? ==>
          |tx.witnesses| == |tx.inputs|
          && forall k :: 0 <= k < |tx.witnesses| ==> ValidStack(tx.witnesses[k]))
  }

  /** A well-formed transaction: framed, with a full four-byte locktime. */
  predicate WellFormed(tx: Tx) {
    Framed(tx) && |tx.locktime| == 4
  }

  function InputBytes(i: TxIn): bytes
    requires ValidInput(i)
  {
    i.prevTxid + i.prevIndex + EncodeVarInt(|i.scriptSig|) + i.scriptSig + i.sequence
  }

  function InputsBytes(ins: seq<TxIn>): bytes
    requires forall k :: 0 <= k < |ins| ==> ValidInput(ins[k])
  {
    if |ins| == 0 then [] else InputBytes(ins[0]) + InputsBytes(ins[1..])
  }

  function OutputBytes(o: TxOut): bytes
    requires ValidOutput(o)
  {
    o.amount + EncodeVarInt(|o.scriptPubKey|) + o.scriptPubKey
  }

  function OutputsBytes(outs: seq<TxOut>): bytes
    requires forall k :: 0 <= k < |outs| ==> ValidOutput(outs[k])
  {
    if |outs| == 0 then [] else OutputBytes(outs[0]) + OutputsBytes(outs[1..])
  }

  function ItemsBytes(items: seq<bytes>): bytes
    requires forall k :: 0 <= k < |items| ==> |items[k]| <= MaxU64
  {
    if |items| == 0 then [] else EncodeVarInt(|items[0]|) + items[0] + ItemsBytes(items[1..])
  }

  function StackBytes(stack: seq<bytes>): bytes
    requires ValidStack(stack)
  {
    EncodeVarInt(|stack|) + ItemsBytes(stack)
  }

  function WitnessBytes(stacks: seq<seq<bytes>>): bytes
    requires forall k :: 0 <= k < |stacks| ==> ValidStack(stacks[k])
  {
    if |stacks| == 0 then [] else StackBytes(stacks[0]) + WitnessBytes(stacks[1..])
  }

  function FlagBytes(flag: Option<byte>): bytes
  {
    match flag
    case None => []
    case Some(f) => [0x00, f]
  }

  /** The segments of a well-formed transaction; `Join` of them is its wire form. */
  function SegmentsOf(tx: Tx): Segments
    requires Framed(tx)
  {
    Segments(
      tx.version,
      FlagBytes(tx.segwitFlag),
      EncodeVarInt(|tx.inputs|) + InputsBytes(tx.inputs),
      EncodeVarInt(|tx.outputs|) + OutputsBytes(tx.outputs),
      if tx.segwitFlag.Some? then WitnessBytes(tx.witnesses) else [],
      tx.locktime)
  }

  function Serialize(tx: Tx): bytes
    requires Framed(tx)
  {
    Join(SegmentsOf(tx))
  }

  lemma TakeExact(a: bytes, b: bytes, n: nat)
    requires |a| == n
    ensures NextBytes(a + b, n) == Cut(a, b)
  {
    assert (a + b)[..n] == a;
    assert (a + b)[n..] == b;
  }

  lemma TakeAll(a: bytes, n: nat)
    requires |a| <= n
    ensures NextBytes(a, n) == Cut(a, [])
  {
    assert a[..|a|] == a;
  }

  lemma Assoc(a: bytes, b: bytes, c: bytes)
    ensures a + b + c == a + (b + c)
  {
  }

  /** One input record in front of a readable tail is read off exactly. */
  lemma ReadInputsCons(i: TxIn, tail: bytes, count: nat, more: Cut)
    requires ValidInput(i)
    requires ReadInputs(tail, count) == Ok(more)
    ensures ReadInputs(InputBytes(i) + tail, count + 1) == Ok(Cut(InputBytes(i) + more.taken, more.rest))
  {
    var enc := EncodeVarInt(|i.scriptSig|);
    var buf := InputBytes(i) + tail;
    var r4 := i.sequence + tail;
    var r3 := i.scriptSig + r4;
    var r2 := enc + r3;
    var r1 := i.prevIndex + r2;
    assert buf == i.prevTxid + r1 by {
      Assoc(i.prevTxid + i.prevIndex + enc + i.scriptSig, i.sequence, tail);
      Assoc(i.prevTxid + i.prevIndex + enc, i.scriptSig, r4);
      Assoc(i.prevTxid + i.prevIndex, enc, r3);
      Assoc(i.prevTxid, i.prevIndex, r2);
    }
    TakeExact(i.prevTxid, r1, 32);
    var txid := NextBytes(buf, 32);
    assert txid == Cut(i.prevTxid, r1);
    TakeExact(i.prevIndex, r2, 4);
    var index := NextBytes(txid.rest, 4);
    assert index == Cut(i.prevIndex, r2);
    VarIntRoundTrip(|i.scriptSig|, r3);
    var scriptLen := NextVarInt(index.rest).value;
    assert scriptLen == VarInt(|i.scriptSig|, enc, r3);
    TakeExact(i.scriptSig, r4, |i.scriptSig|);
    var script := NextBytes(scriptLen.rest, scriptLen.value);
    assert script == Cut(i.scriptSig, r4);
    TakeExact(i.sequence, tail, 4);
    var sequence := NextBytes(script.rest, 4);
    assert sequence == Cut(i.sequence, tail);
    assert ReadInputs(sequence.rest, count) == Ok(more);
    assert ReadInputs(buf, count + 1)
        == Ok(Cut(txid.taken + index.taken + scriptLen.raw + script.taken + sequence.taken + more.taken, more.rest));
  }

  /** The serialized inputs are read back exactly, whatever follows them. */
  lemma {:induction false} ReadInputsOfSerialized(ins: seq<TxIn>, rest: bytes)
    requires forall k :: 0 <= k < |ins| ==> ValidInput(ins[k])
    ensures ReadInputs(InputsBytes(ins) + rest, |ins|) == Ok(Cut(InputsBytes(ins), rest))
  {
    if |ins| > 0 {
      forall k | 0 <= k < |ins[1..]| ensures ValidInput(ins[1..][k]) { assert ins[1..][k] == ins[k + 1]; }
      ReadInputsOfSerialized(ins[1..], rest);
      ReadInputsCons(ins[0], InputsBytes(ins[1..]) + rest, |ins[1..]|, Cut(InputsBytes(ins[1..]), rest));
      Assoc(InputBytes(ins[0]), InputsBytes(ins[1..]), rest);
      assert InputsBytes(ins) == InputBytes(ins[0]) + InputsBytes(ins[1..]);
      assert InputsBytes(ins) + rest == InputBytes(ins[0]) + (InputsBytes(ins[1..]) + rest);
      assert |ins[1..]| + 1 == |ins|;
    } else {
      assert InputsBytes(ins) + rest == rest;
    }
  }

  /** One output record in front of a readable tail is read off exactly. */
  lemma ReadOutputsCons(o: TxOut, tail: bytes, count: nat, more: Cut)
    requires ValidOutput(o)
    requires ReadOutputs(tail, count) == Ok(more)
    ensures ReadOutputs(OutputBytes(o) + tail, count + 1) == Ok(Cut(OutputBytes(o) + more.taken, more.rest))
  {
    var enc := EncodeVarInt(|o.scriptPubKey|);
    var buf := OutputBytes(o) + tail;
    var r2 := o.scriptPubKey + tail;
    var r1 := enc + r2;
    assert buf == o.amount + r1 by {
      Assoc(o.amount + enc, o.scriptPubKey, tail);
      Assoc(o.amount, enc, r2);
    }
    TakeExact(o.amount, r1, 8);
    var amount := NextBytes(buf, 8);
    assert amount == Cut(o.amount, r1);
    VarIntRoundTrip(|o.scriptPubKey|, r2);
    var scriptLen := NextVarInt(amount.rest).value;
    assert scriptLen == VarInt(|o.scriptPubKey|, enc, r2);
    TakeExact(o.scriptPubKey, tail, |o.scriptPubKey|);
    var script := NextBytes(scriptLen.rest, scriptLen.value);
    assert script == Cut(o.scriptPubKey, tail);
    assert ReadOutputs(script.rest, count) == Ok(more);
    assert ReadOutputs(buf, count + 1) == Ok(Cut(amount.taken + scriptLen.raw + script.taken + more.taken, more.rest));
  }

  /** The serialized outputs are read back exactly, whatever follows them. */
  lemma {:induction false} ReadOutputsOfSerialized(outs: seq<TxOut>, rest: bytes)
    requires forall k :: 0 <= k < |outs| ==> ValidOutput(outs[k])
    ensures ReadOutputs(OutputsBytes(outs) + rest, |outs|) == Ok(Cut(OutputsBytes(outs), rest))
  {
    if |outs| > 0 {
      forall k | 0 <= k < |outs[1..]| ensures ValidOutput(outs[1..][k]) { assert outs[1..][k] == outs[k + 1]; }
      ReadOutputsOfSerialized(outs[1..], rest);
      ReadOutputsCons(outs[0], OutputsBytes(outs[1..]) + rest, |outs[1..]|, Cut(OutputsBytes(outs[1..]), rest));
      Assoc(OutputBytes(outs[0]), OutputsBytes(outs[1..]), rest);
      assert OutputsBytes(outs) == OutputBytes(outs[0]) + OutputsBytes(outs[1..]);
      assert OutputsBytes(outs) + rest == OutputBytes(outs[0]) + (OutputsBytes(outs[1..]) + rest);
      assert |outs[1..]| + 1 == |outs|;
    } else {
      assert OutputsBytes(outs) + rest == rest;
    }
  }

  /** One length-prefixed witness component in front of a readable tail is
      read off exactly. */
  lemma ReadComponentsCons(item: bytes, tail: bytes, count: nat, more: Cut)
    requires |item| <= MaxU64
    requires ReadComponents(tail, count) == Ok(more)
    ensures ReadComponents(EncodeVarInt(|item|) + item + tail, count + 1)
         == Ok(Cut(EncodeVarInt(|item|) + item + more.taken, more.rest))
  {
    var enc := EncodeVarInt(|item|);
    var buf := enc + item + tail;
    assert buf == enc + (item + tail);
    VarIntRoundTrip(|item|, item + tail);
    var len := NextVarInt(buf).value;
    assert len == VarInt(|item|, enc, item + tail);
    TakeExact(item, tail, |item|);
    var component := NextBytes(len.rest, len.value);
    assert component == Cut(item, tail);
    assert ReadComponents(component.rest, count) == Ok(more);
    assert ReadComponents(buf, count + 1) == Ok(Cut(len.raw + component.taken + more.taken, more.rest));
  }

  /** The serialized components of one stack are read back exactly. */
  lemma {:induction false} ReadComponentsOfSerialized(items: seq<bytes>, rest: bytes)
    requires forall k :: 0 <= k < |items| ==> |items[k]| <= MaxU64
    ensures ReadComponents(ItemsBytes(items) + rest, |items|) == Ok(Cut(ItemsBytes(items), rest))
  {
    if |items| > 0 {
      forall k | 0 <= k < |items[1..]| ensures |items[1..][k]| <= MaxU64 { assert items[1..][k] == items[k + 1]; }
      ReadComponentsOfSerialized(items[1..], rest);
      ReadComponentsCons(items[0], ItemsBytes(items[1..]) + rest, |items[1..]|, Cut(ItemsBytes(items[1..]), rest));
      Assoc(EncodeVarInt(|items[0]|) + items[0], ItemsBytes(items[1..]), rest);
      assert ItemsBytes(items) == EncodeVarInt(|items[0]|) + items[0] + ItemsBytes(items[1..]);
      assert ItemsBytes(items) + rest == EncodeVarInt(|items[0]|) + items[0] + (ItemsBytes(items[1..]) + rest);
      assert |items[1..]| + 1 == |items|;
    } else {
      assert ItemsBytes(items) + rest == rest;
    }
  }

  /** One witness stack in front of a readable tail is read off exactly. */
  lemma ReadWitnessesCons(st: seq<bytes>, tail: bytes, count: nat, more: Cut)
    requires ValidStack(st)
    requires ReadWitnesses(tail, count) == Ok(more)
    ensures ReadWitnesses(StackBytes(st) + tail, count + 1) == Ok(Cut(StackBytes(st) + more.taken, more.rest))
  {
    var enc := EncodeVarInt(|st|);
    var buf := StackBytes(st) + tail;
    assert buf == enc + (ItemsBytes(st) + tail) by {
      Assoc(enc, ItemsBytes(st), tail);
    }
    VarIntRoundTrip(|st|, ItemsBytes(st) + tail);
    var components := NextVarInt(buf).value;
    assert components == VarInt(|st|, enc, ItemsBytes(st) + tail);
    ReadComponentsOfSerialized(st, tail);
    var stack := ReadComponents(components.rest, components.value).value;
    assert stack == Cut(ItemsBytes(st), tail);
    assert ReadWitnesses(stack.rest, count) == Ok(more);
    assert ReadWitnesses(buf, count + 1) == Ok(Cut(components.raw + stack.taken + more.taken, more.rest));
  }

  /** The serialized witness stacks are read back exactly. */
  lemma {:induction false} ReadWitnessesOfSerialized(stacks: seq<seq<bytes>>, rest: bytes)
    requires forall k :: 0 <= k < |stacks| ==> ValidStack(stacks[k])
    ensures ReadWitnesses(WitnessBytes(stacks) + rest, |stacks|) == Ok(Cut(WitnessBytes(stacks), rest))
  {
    if |stacks| > 0 {
      forall k | 0 <= k < |stacks[1..]| ensures ValidStack(stacks[1..][k]) { assert stacks[1..][k] == stacks[k + 1]; }
      ReadWitnessesOfSerialized(stacks[1..], rest);
      ReadWitnessesCons(stacks[0], WitnessBytes(stacks[1..]) + rest, |stacks[1..]|, Cut(WitnessBytes(stacks[1..]), rest));
      Assoc(StackBytes(stacks[0]), WitnessBytes(stacks[1..]), rest);
      assert WitnessBytes(stacks) == StackBytes(stacks[0]) + WitnessBytes(stacks[1..]);
      assert WitnessBytes(stacks) + rest == StackBytes(stacks[0]) + (WitnessBytes(stacks[1..]) + rest);
      assert |stacks[1..]| + 1 == |stacks|;
    } else {
      assert WitnessBytes(stacks) + rest == rest;
    }
  }

  /** The header read of a well-formed transaction: the legacy input count,
      or the 0x00 marker, the flag byte and then the input count. */
  lemma ReadHeaderOfSerialized(flag: Option<byte>, n: nat, rest: bytes)
    requires n <= MaxU64
    requires flag.None? ==> n > 0
    ensures ReadHeader(FlagBytes(flag) + (EncodeVarInt(n) + rest))
         == Ok(Header(FlagBytes(flag), VarInt(n, EncodeVarInt(n), rest)))
  {
    var ci := EncodeVarInt(n);
    VarIntRoundTrip(n, rest);
    match flag
    case None =>
      assert FlagBytes(flag) + (ci + rest) == ci + rest;
    case Some(f) =>
      var buf := FlagBytes(flag) + (ci + rest);
      assert buf == [0x00] + ([f] + (ci + rest));
      assert EncodeVarInt(0) == [0x00];
      VarIntRoundTrip(0, [f] + (ci + rest));
      var first := NextVarInt(buf).value;
      assert first == VarInt(0, [0x00], [f] + (ci + rest));
      TakeExact([f], ci + rest, 1);
      var flagByte := NextBytes(first.rest, 1);
      assert flagByte == Cut([f], ci + rest);
      assert first.raw + flagByte.taken == FlagBytes(flag);
  }

  /** The wire form of a framed transaction followed by `extra`, nested to
      the right section by section, as the splitter consumes it. */
  lemma ExtendedLayout(tx: Tx, extra: bytes)
    requires Framed(tx)
    ensures var seg := SegmentsOf(tx);
            Serialize(tx) + extra
            == tx.version + (seg.flag + (EncodeVarInt(|tx.inputs|) + (InputsBytes(tx.inputs)
               + (EncodeVarInt(|tx.outputs|) + (OutputsBytes(tx.outputs) + (seg.witnessData + (tx.locktime + extra)))))))
  {
    var seg := SegmentsOf(tx);
    var v := tx.version;
    var F := seg.flag;
    var ci := EncodeVarInt(|tx.inputs|);
    var I := InputsBytes(tx.inputs);
    var co := EncodeVarInt(|tx.outputs|);
    var O := OutputsBytes(tx.outputs);
    var W := seg.witnessData;
    var L := tx.locktime + extra;
    var raw := Serialize(tx) + extra;
    var R5 := W + L;
    var R4 := O + R5;
    var R3 := co + R4;
    var R2 := I + R3;
    var R1 := ci + R2;
    var R0 := F + R1;
    assert raw == v + R0 by {
      assert Serialize(tx) == v + F + (ci + I) + (co + O) + W + tx.locktime;
      Assoc(v + F + (ci + I) + (co + O) + W, tx.locktime, extra);
      assert raw == v + F + (ci + I) + (co + O) + W + L;
      Assoc(co, O, R5);
      Assoc(co + O, W, L);
      Assoc(I, co, R4);
      Assoc(ci, I, R3);
      Assoc(ci + I, co + O, R5);
      Assoc(F, ci + I, (co + O) + R5);
      Assoc(v + F + (ci + I), co + O, R5);
      Assoc(v + F + (ci + I) + (co + O), W, L);
      Assoc(v, F, ci + I + ((co + O) + R5));
      Assoc(v + F, ci + I, (co + O) + R5);
    }
  }

  /** The splitter reads the wire form of a framed transaction followed by
      any bytes `extra` section by section as the transaction's own segments;
      the locktime read then takes up to four of the bytes after the witness
      section, and whatever it leaves is refused. */
  lemma SplitOfExtended(tx: Tx, extra: bytes)
    requires Framed(tx)
    ensures var lt := NextBytes(tx.locktime + extra, 4);
            SplitTransaction(Serialize(tx) + extra)
            == if |lt.rest| != 0 then Err(BufferNotEmpty) else Ok(SegmentsOf(tx).(locktime := lt.taken))
  {
    var seg := SegmentsOf(tx);
    var n := |tx.inputs|;
    var m := |tx.outputs|;
    var v := tx.version;
    var F := FlagBytes(tx.segwitFlag);
    var ci := EncodeVarInt(n);
    var I := InputsBytes(tx.inputs);
    var co := EncodeVarInt(m);
    var O := OutputsBytes(tx.outputs);
    var W := seg.witnessData;
    var L := tx.locktime + extra;
    var raw := Serialize(tx) + extra;
    var R5 := W + L;
    var R4 := O + R5;
    var R3 := co + R4;
    var R2 := I + R3;
    var R1 := ci + R2;
    var R0 := F + R1;
    ExtendedLayout(tx, extra);
    TakeExact(v, R0, 4);
    var version := NextBytes(raw, 4);
    assert version == Cut(v, R0);

    ReadHeaderOfSerialized(tx.segwitFlag, n, R2);
    var header := ReadHeader(version.rest).value;
    assert header == Header(F, VarInt(n, ci, R2));

    ReadInputsOfSerialized(tx.inputs, R3);
    var inputs := ReadInputs(header.count.rest, header.count.value).value;
    assert inputs == Cut(I, R3);

    VarIntRoundTrip(m, R4);
    var outCount := NextVarInt(inputs.rest).value;
    assert outCount == VarInt(m, co, R4);

    ReadOutputsOfSerialized(tx.outputs, R5);
    var outputs := ReadOutputs(outCount.rest, outCount.value).value;
    assert outputs == Cut(O, R5);

    if tx.segwitFlag.Some? {
      ReadWitnessesOfSerialized(tx.witnesses, L);
    } else {
      assert R5 == L;
    }
    var witnesses := ReadWitnessSection(outputs.rest, header.flag, header.count.value).value;
    assert witnesses == Cut(W, L);

    var locktime := NextBytes(witnesses.rest, 4);
    assert seg.(locktime := locktime.taken)
        == Segments(version.taken, header.flag, header.count.raw + inputs.taken,
                    outCount.raw + outputs.taken, witnesses.taken, locktime.taken);
  }

  /** The splitter recovers the segments of every well-formed transaction:
      `SplitTransaction(Join(s)) == Ok(s)` for the segments `s` of a legacy or
      segwit transaction, so split and join are inverse on well-formed input. */
  lemma SplitOfSerialized(tx: Tx)
    requires Framed(tx)
    ensures SplitTransaction(Serialize(tx)) == Ok(SegmentsOf(tx))
  {
    SplitOfExtended(tx, []);
    var raw := Serialize(tx);
    assert raw + [] == raw;
    assert tx.locktime + [] == tx.locktime;
    TakeAll(tx.locktime, 4);
    var lt := NextBytes(tx.locktime + [], 4);
    assert lt == Cut(tx.locktime, []);
    assert SegmentsOf(tx).(locktime := lt.taken) == SegmentsOf(tx);
  }

  /** Bytes after a complete transaction are refused: the final check finds
      the buffer not empty. */
  lemma TrailingBytesRejected(tx: Tx, extra: bytes)
    requires WellFormed(tx) && |extra| > 0
    ensures SplitTransaction(Serialize(tx) + extra) == Err(BufferNotEmpty)
  {
    SplitOfExtended(tx, extra);
    TakeExact(tx.locktime, extra, 4);
  }

  /** Because every read clamps, a transaction whose locktime is cut short is
      still split without error, and its locktime segment is shorter than the
      four bytes the verifier expects. */
  lemma TruncatedLocktimeAccepted(tx: Tx)
    requires Framed(tx) && |tx.locktime| < 4
    ensures SplitTransaction(Serialize(tx)).Ok?
    ensures |SplitTransaction(Serialize(tx)).value.locktime| < 4
  {
    SplitOfSerialized(tx);
  }
}

=== FILE: results.dfy ===
/** Failure-compatible return types shared by every module of the model.
    The source signals errors by throwing (JavaScript) or by returning
    `Result<_, Error>` (Rust); both become a `Result` here. */
module Results {

  datatype Option<+T> = None | Some(value: T) {
    predicate IsFailure() { None? }

    function PropagateFailure<U>(): Option<U>
      requires None?
    {
      None
    }

    function Extract(): T
      requires Some?
    {
      value
    }
  }

  datatype Result<+T, +E> = Ok(value: T) | Err(error: E) {
    predicate IsFailure() { Err? }

    function PropagateFailure<U>(): Result<U, E>
      requires Err?
    {
      Err(error)
    }

    function Extract(): T
      requires Ok?
    {
      value
    }
  }

  /** A check that either passes or fails with a reason (Rust's `Result<(), E>`). */
  datatype Outcome<+E> = Pass | Fail(reason: E) {
    predicate IsFailure() { Fail? }

    function PropagateFailure(): Outcome<E>
      requires Fail?
    {
      this
    }
  }
}

=== FILE: spv_proof.dfy ===
/** The inclusion-proof arguments built by `getTransactionParams`: the split
    transaction's segments as `0x` hex, the Merkle siblings byte-reversed and
    laid end to end, and the block height and position as integers. The two
    fetches (raw hex and Merkle proof) become parameters. */
module SpvProof {
  import opened Results
  import opened Hex
  import opened Collections
  import opened CompactSize
  import opened RawTx
  import opened RawTxFormat
  import opened Utils

  /** `splitTransaction(txHex)`: the text is decoded as `Buffer.from(txHex, 'hex')`
      does, then split; a successful split is lossless. */
  function SplitTransactionHex(txHex: string): (r: Result<Segments, ParseError>)
    ensures r.Ok? ==> Join(r.value) == Decode(txHex)
  {
    var raw := Decode(txHex);
    if SplitTransaction(raw).Ok? then
      SplitLossless(raw);
      SplitTransaction(raw)
    else
      SplitTransaction(raw)
  }

  /** Each Merkle node decoded from hex and byte-reversed. */
  function ReversedNodes(nodes: seq<string>): seq<bytes>
  {
    seq(|nodes|, i requires 0 <= i < |nodes| => Reverse(Decode(nodes[i])))
  }

  /** `intermediateNodes` before hex encoding: the reversed nodes in order when
      the proof's `merkle` field is an array, and nothing otherwise. */
  function IntermediateNodes(merkle: Option<seq<string>>): (r: bytes)
    ensures merkle.None? ==> r == []
  {
    match merkle
    case None => []
    case Some(nodes) => Flatten(ReversedNodes(nodes))
  }

  /** The nodes are laid end to end in proof order: the bytes for a longer
      proof extend those for its prefix. */
  lemma IntermediateNodesAppend(a: seq<string>, b: seq<string>)
    ensures IntermediateNodes(Some(a + b)) == IntermediateNodes(Some(a)) + IntermediateNodes(Some(b))
  {
    assert ReversedNodes(a + b) == ReversedNodes(a) + ReversedNodes(b);
    FlattenAppend(ReversedNodes(a), ReversedNodes(b));
  }

  /** With 32-byte hashes given as hex, sibling `k` sits at bytes `32k..32k+32`
      in internal (reversed) byte order, and reversing that chunk gives the
      hash back. */
  lemma SiblingRecovered(hashes: seq<bytes>, nodes: seq<string>, k: nat)
    requires |nodes| == |hashes|
    requires forall i :: 0 <= i < |hashes| ==> |hashes[i]| == 32 && nodes[i] == Encode(hashes[i])
    requires k < |nodes|
    ensures |IntermediateNodes(Some(nodes))| == 32 * |nodes|
    ensures IntermediateNodes(Some(nodes))[32 * k .. 32 * k + 32] == Reverse(hashes[k])
    ensures Reverse(IntermediateNodes(Some(nodes))[32 * k .. 32 * k + 32]) == hashes[k]
  {
    var pieces := ReversedNodes(nodes);
    forall i | 0 <= i < |pieces|
      ensures |pieces[i]| == 32 && pieces[i] == Reverse(hashes[i])
    {
      DecodeEncode(hashes[i]);
    }
    FlattenLength(pieces, 32);
    FlattenChunk(pieces, 32, k);
    ReverseInvolutive(hashes[k]);
  }

  /** The arguments of the `lend` call's `TransactionParams` tuple. */
  datatype TransactionParams = TransactionParams(
    version: string,
    vin: string,
    vout: string,
    locktime: string,
    intermediateNodes: string,
    blockHeight: int,
    index: int)

  /** Why `getTransactionParams` throws: the split fails, or a height or
      position is not an integer. */
  datatype ParamsError = MalformedTransaction(parse: ParseError) | NotBigInt(conversion: BigIntError)

  /** `getTransactionParams` on the fetched raw hex and Merkle proof (`merkle`
      when it is an array, and `pos`). The object literal evaluates its fields
      in order, so the height is converted before the position. */
  function GetTransactionParams(txHex: string, merkle: Option<seq<string>>, pos: JsValue, blockHeight: JsValue)
    : (r: Result<TransactionParams, ParamsError>)
    ensures r.Ok? <==> SplitTransactionHex(txHex).Ok? && AsBigInt(blockHeight).Ok? && AsBigInt(pos).Ok?
    ensures SplitTransactionHex(txHex).Err? ==> r == Err(MalformedTransaction(SplitTransactionHex(txHex).error))
    ensures SplitTransactionHex(txHex).Ok? && AsBigInt(blockHeight).Err? ==>
              r == Err(NotBigInt(AsBigInt(blockHeight).error))
    ensures r.Ok? ==> r.value.blockHeight == AsBigInt(blockHeight).value && r.value.index == AsBigInt(pos).value
  {
    match SplitTransactionHex(txHex)
    case Err(e) => Err(MalformedTransaction(e))
    case Ok(s) =>
      match AsBigInt(blockHeight)
      case Err(e) => Err(NotBigInt(e))
      case Ok(height) =>
        match AsBigInt(pos)
        case Err(e) => Err(NotBigInt(e))
        case Ok(index) =>
          Ok(TransactionParams(
            WithHexPrefix(Encode(s.version)),
            WithHexPrefix(Encode(s.vin)),
            WithHexPrefix(Encode(s.vout)),
            WithHexPrefix(Encode(s.locktime)),
            WithHexPrefix(Encode(IntermediateNodes(merkle))),
            height,
            index))
  }

  /** Every byte field of the parameters is `0x` followed by the hex of the
      matching segment, so stripping the prefix and decoding gives the segment
      back. */
  lemma ParamsCarrySegments(txHex: string, merkle: Option<seq<string>>, pos: JsValue, blockHeight: JsValue)
    requires GetTransactionParams(txHex, merkle, pos, blockHeight).Ok?
    ensures var p := GetTransactionParams(txHex, merkle, pos, blockHeight).value;
            var s := SplitTransactionHex(txHex).value;
            && p.version == "0x" + Encode(s.version) && Decode(p.version[2..]) == s.version
            && p.vin == "0x" + Encode(s.vin) && Decode(p.vin[2..]) == s.vin
            && p.vout == "0x" + Encode(s.vout) && Decode(p.vout[2..]) == s.vout
            && p.locktime == "0x" + Encode(s.locktime) && Decode(p.locktime[2..]) == s.locktime
            && p.intermediateNodes == "0x" + Encode(IntermediateNodes(merkle))
            && Decode(p.intermediateNodes[2..]) == IntermediateNodes(merkle)
  {
    var s := SplitTransactionHex(txHex).value;
    PrefixedHexRoundTrip(s.version);
    PrefixedHexRoundTrip(s.vin);
    PrefixedHexRoundTrip(s.vout);
    PrefixedHexRoundTrip(s.locktime);
    PrefixedHexRoundTrip(IntermediateNodes(merkle));
  }

  /** For the hex of a framed transaction the parameters carry exactly its
      version, its counted inputs and outputs, and its locktime. */
  lemma ParamsOfSerialized(tx: Tx, merkle: Option<seq<string>>, pos: JsValue, blockHeight: JsValue)
    requires Framed(tx)
    requires AsBigInt(blockHeight).Ok? && AsBigInt(pos).Ok?
    ensures GetTransactionParams(Encode(Serialize(tx)), merkle, pos, blockHeight)
         == Ok(TransactionParams(
              "0x" + Encode(tx.version),
              "0x" + Encode(EncodeVarInt(|tx.inputs|) + InputsBytes(tx.inputs)),
              "0x" + Encode(EncodeVarInt(|tx.outputs|) + OutputsBytes(tx.outputs)),
              "0x" + Encode(tx.locktime),
              "0x" + Encode(IntermediateNodes(merkle)),
              AsBigInt(blockHeight).value,
              AsBigInt(pos).value))
  {
    DecodeEncode(Serialize(tx));
    SplitOfSerialized(tx);
    var s := SegmentsOf(tx);
    assert SplitTransactionHex(Encode(Serialize(tx))) == Ok(s);
    PrefixedHexRoundTrip(s.version);
    PrefixedHexRoundTrip(s.vin);
    PrefixedHexRoundTrip(s.vout);
    PrefixedHexRoundTrip(s.locktime);
    PrefixedHexRoundTrip(IntermediateNodes(merkle));
  }
}

=== FILE: transaction_card.dfy ===
/** One history entry on screen: the shortened txid, the "Prove Lend"
    action shown only for confirmed entries, and the arguments of the
    lending contract's `lend` call that action submits. The explorer
    lookups (the transaction's hex and Merkle proof, its block height and
    the block header) are parameters. */
module TransactionCard {
  import opened Results
  import opened Utils
  import opened SpvProof
  import opened TransactionHistory

  /** Longer txids show their first 8 characters, "...", and their last 8. */
  function DisplayTxid(txid: string): (r: string)
    ensures |txid| <= 16 ==> r == txid
    ensures |txid| > 16 ==> && |r| == 19
                            && r[..8] == txid[..8]
                            && r[8..11] == "..."
                            && r[11..] == txid[|txid| - 8..]
  {
    if |txid| > 16 then txid[..8] + "..." + txid[|txid| - 8..] else txid
  }

  /** Shortening is idempotent: a shown txid is shown as itself. */
  lemma DisplayTxidIdempotent(txid: string)
    ensures DisplayTxid(DisplayTxid(txid)) == DisplayTxid(txid)
  {
    var r := DisplayTxid(txid);
    if |txid| > 16 {
      assert r == r[..8] + r[8..11] + r[11..];
      assert r[|r| - 8..] == r[11..];
    }
  }

  /** Two txids differing only in the middle are shown alike. */
  lemma DisplayTxidForgetsMiddle()
    ensures DisplayTxid("aaaaaaaa0bbbbbbbb") == DisplayTxid("aaaaaaaa1bbbbbbbb")
    ensures DisplayTxid("aaaaaaaa0bbbbbbbb") == "aaaaaaaa...bbbbbbbb"
  {
  }

  /** The "Prove Lend" action is offered exactly for confirmed entries. */
  function ShowProveButton(e: Entry): (b: bool)
  {
    e.status == Confirmed
  }

  /** Only the history refresh makes an entry provable: a freshly recorded
      (pending) entry is not, and after `checkPendingTransactions` over a
      history whose txids are distinct, an entry that was pending is
      provable exactly when the latest block was truthy and the lookup
      reported it confirmed. */
  lemma ProveButtonFollowsRefresh(history: seq<Entry>, latestBlock: Option<int>, oracle: Oracle, i: nat)
    requires DistinctTxids(history)
    requires i < |history| && history[i].status == Pending
    ensures !ShowProveButton(history[i])
    ensures var after := match CheckPending(history, latestBlock, oracle)
                         case Some(written) => written
                         case None => history;
            ShowProveButton(after[i]) <==> !Falsy(latestBlock) && ReportedConfirmed(oracle, history[i].txid)
  {
    AsWrittenAgreesWhenDistinct(history, latestBlock, oracle);
  }

  /** The `lend` call: borrower address, transaction parameters, block header. */
  datatype LendCall = LendCall(borrower: string, params: TransactionParams, blockHeader: string)

  /** `proveLending`: the parameters of the entry's transaction, with the
      borrower address and the block header `0x`-prefixed. */
  function ProveLending(entry: Entry, txHex: string, merkle: Option<seq<string>>, pos: JsValue,
                        blockHeight: JsValue, blockHeader: string): (r: Result<LendCall, ParamsError>)
    ensures r.Ok? <==> GetTransactionParams(txHex, merkle, pos, blockHeight).Ok?
    ensures r.Err? ==> r.error == GetTransactionParams(txHex, merkle, pos, blockHeight).error
    ensures r.Ok? ==> && r.value.params == GetTransactionParams(txHex, merkle, pos, blockHeight).value
                      && HasHexPrefix(r.value.borrower) && HasHexPrefix(r.value.blockHeader)
                      && EndsWith(r.value.borrower, entry.borrowerAddress)
                      && EndsWith(r.value.blockHeader, blockHeader)
  {
    match GetTransactionParams(txHex, merkle, pos, blockHeight)
    case Err(e) => Err(e)
    case Ok(params) => Ok(LendCall(WithHexPrefix(entry.borrowerAddress), params, WithHexPrefix(blockHeader)))
  }

  /** A header fetched without a prefix is sent as `0x` and the header;
      one that already has it is sent as it is. */
  lemma LendHeaderPrefixed(entry: Entry, txHex: string, merkle: Option<seq<string>>, pos: JsValue,
                           blockHeight: JsValue, blockHeader: string)
    requires ProveLending(entry, txHex, merkle, pos, blockHeight, blockHeader).Ok?
    ensures var call := ProveLending(entry, txHex, merkle, pos, blockHeight, blockHeader).value;
            && (HasHexPrefix(blockHeader) ==> call.blockHeader == blockHeader)
            && (!HasHexPrefix(blockHeader) ==> call.blockHeader == "0x" + blockHeader)
            && WithHexPrefix(call.borrower) == call.borrower
  {
    var call := ProveLending(entry, txHex, merkle, pos, blockHeight, blockHeader).value;
    WithHexPrefixIdempotent(entry.borrowerAddress);
  }
}

=== FILE: transaction_history.dfy ===
/** The lender's transaction history and its pending-to-confirmed refresh.
    The block-explorer lookup is an oracle: `Some(b)` when the lookup
    answered and its confirmed flag is truthy exactly when `b`, `None` when
    the fetch or the JSON decoding failed. */
module TransactionHistory {
  import opened Results
  import opened Collections
  import opened LocalStorage

  const Pending := "pending"
  const Confirmed := "confirmed"
  const HistoryKey := "transactionHistory"

  datatype Entry = Entry(txid: string, status: string, borrowerAddress: string, createdAt: int)

  type Oracle = string -> Option<bool>

  predicate ReportedConfirmed(oracle: Oracle, txid: string) {
    oracle(txid) == Some(true)
  }

  predicate DistinctTxids(es: seq<Entry>) {
    forall i, j :: 0 <= i < j < |es| ==> es[i].txid != es[j].txid
  }

  predicate HasTxid(es: seq<Entry>, txid: string) {
    exists i :: 0 <= i < |es| && es[i].txid == txid
  }

  /** The entries whose status is pending, in history order. */
  function PendingEntries(history: seq<Entry>): (r: seq<Entry>)
    ensures |r| <= |history|
    ensures forall k :: 0 <= k < |r| ==> r[k].status == Pending
  {
    if |history| == 0 then []
    else (if history[0].status == Pending then [history[0]] else []) + PendingEntries(history[1..])
  }

  /** Every pending history entry has a place in the filtered list. */
  lemma {:induction false} PendingIndex(history: seq<Entry>, i: nat)
    requires i < |history| && history[i].status == Pending
    ensures exists k :: 0 <= k < |PendingEntries(history)| && PendingEntries(history)[k] == history[i]
  {
    var head := if history[0].status == Pending then [history[0]] else [];
    var rest := PendingEntries(history[1..]);
    assert PendingEntries(history) == head + rest;
    if i == 0 {
      assert PendingEntries(history)[0] == history[0];
    } else {
      assert history[1..][i - 1] == history[i];
      PendingIndex(history[1..], i - 1);
      var k :| 0 <= k < |rest| && rest[k] == history[i];
      assert PendingEntries(history)[|head| + k] == history[i];
    }
  }

  /** Every entry of the filtered list is a pending entry of the history. */
  lemma {:induction false} PendingSource(history: seq<Entry>, k: nat)
    requires k < |PendingEntries(history)|
    ensures exists j :: && 0 <= j < |history| && history[j] == PendingEntries(history)[k]
                        && history[j].status == Pending
  {
    var head := if history[0].status == Pending then [history[0]] else [];
    var rest := PendingEntries(history[1..]);
    assert PendingEntries(history) == head + rest;
    if k < |head| {
      assert history[0] == PendingEntries(history)[k];
    } else {
      PendingSource(history[1..], k - |head|);
      var j :| 0 <= j < |history[1..]| && history[1..][j] == rest[k - |head|];
      assert history[j + 1] == PendingEntries(history)[k];
    }
  }

  /** The filter keeps exactly the pending entries. */
  lemma PendingMembership(history: seq<Entry>)
    ensures forall e :: e in PendingEntries(history) <==> e in history && e.status == Pending
  {
    var ps := PendingEntries(history);
    forall e | e in ps ensures e in history && e.status == Pending {
      var k :| 0 <= k < |ps| && ps[k] == e;
      PendingSource(history, k);
    }
    forall e | e in history && e.status == Pending ensures e in ps {
      var i :| 0 <= i < |history| && history[i] == e;
      PendingIndex(history, i);
    }
  }

  /** A filter keeps txids distinct. */
  lemma {:induction false} PendingDistinct(history: seq<Entry>)
    requires DistinctTxids(history)
    ensures DistinctTxids(PendingEntries(history))
  {
    if |history| > 0 {
      var tail := history[1..];
      assert DistinctTxids(tail) by {
        forall i, j | 0 <= i < j < |tail| ensures tail[i].txid != tail[j].txid {
          assert tail[i] == history[i + 1] && tail[j] == history[j + 1];
        }
      }
      PendingDistinct(tail);
      var rest := PendingEntries(tail);
      if history[0].status == Pending {
        var r := [history[0]] + rest;
        forall j | 0 <= j < |rest| ensures history[0].txid != rest[j].txid {
          PendingSource(tail, j);
          var m :| 0 <= m < |tail| && tail[m] == rest[j];
          assert tail[m] == history[m + 1];
        }
        forall i, j | 0 <= i < j < |r| ensures r[i].txid != r[j].txid {
          if i == 0 {
            assert r[j] == rest[j - 1];
          } else {
            assert r[i] == rest[i - 1] && r[j] == rest[j - 1];
          }
        }
      } else {
        assert PendingEntries(history) == rest;
      }
    }
  }

  /** The search predicate of `findIndex((t) => t.txid === txid)`. */
  function TxidIs(txid: string): Entry -> bool {
    (e: Entry) => e.txid == txid
  }

  datatype Sweep = Sweep(entries: seq<Entry>, changed: bool)

  /** One iteration of the loop, as written: a pending entry reported
      confirmed overwrites the FIRST entry of the working copy with its
      txid, taking the pending record's fields with status confirmed; a
      lookup that failed or reported unconfirmed changes nothing. */
  function Step(updated: seq<Entry>, tx: Entry, oracle: Oracle): (r: Sweep)
    ensures |r.entries| == |updated|
    ensures forall i :: 0 <= i < |updated| ==> r.entries[i].txid == updated[i].txid
    ensures forall i :: 0 <= i < |updated| ==>
              r.entries[i] == updated[i]
              || (ReportedConfirmed(oracle, tx.txid) && r.entries[i] == tx.(status := Confirmed))
    ensures r.changed <==> ReportedConfirmed(oracle, tx.txid) && HasTxid(updated, tx.txid)
    ensures !r.changed ==> r.entries == updated
  {
    if ReportedConfirmed(oracle, tx.txid) then
      match FirstIndex(updated, TxidIs(tx.txid))
      case None => Sweep(updated, false)
      case Some(i) => Sweep(updated[i := tx.(status := Confirmed)], true)
    else Sweep(updated, false)
  }

  /** The loop over the pending entries, in order. */
  function ConfirmPending(updated: seq<Entry>, pending: seq<Entry>, oracle: Oracle): (r: Sweep)
    ensures |r.entries| == |updated|
    ensures forall i :: 0 <= i < |updated| ==> r.entries[i].txid == updated[i].txid
    ensures forall i :: 0 <= i < |updated| ==>
              || r.entries[i] == updated[i]
              || exists k :: && 0 <= k < |pending| && ReportedConfirmed(oracle, pending[k].txid)
                             && r.entries[i] == pending[k].(status := Confirmed)
    ensures !r.changed ==> r.entries == updated
    decreases |pending|
  {
    if |pending| == 0 then Sweep(updated, false)
    else
      var step := Step(updated, pending[0], oracle);
      var rest := ConfirmPending(step.entries, pending[1..], oracle);
      assert forall i :: 0 <= i < |updated| && rest.entries[i] != step.entries[i] ==>
        exists k :: && 0 <= k < |pending| && ReportedConfirmed(oracle, pending[k].txid)
                    && rest.entries[i] == pending[k].(status := Confirmed) by {
        forall i | 0 <= i < |updated| && rest.entries[i] != step.entries[i]
          ensures exists k :: && 0 <= k < |pending| && ReportedConfirmed(oracle, pending[k].txid)
                              && rest.entries[i] == pending[k].(status := Confirmed) {
          var k :| && 0 <= k < |pending[1..]| && ReportedConfirmed(oracle, pending[1..][k].txid)
                   && rest.entries[i] == pending[1..][k].(status := Confirmed);
          assert pending[1..][k] == pending[k + 1];
        }
      }
      Sweep(rest.entries, step.changed || rest.changed)
  }

  predicate Falsy(latestBlock: Option<int>) {
    latestBlock.None? || latestBlock == Some(0)
  }

  /** `checkPendingTransactions`: `None` when nothing is written (empty
      history, falsy latest block, no pending entry, or no entry changed),
      otherwise the list it writes back. A changed entry is a pending entry
      of the history, reported confirmed, with status confirmed. */
  function CheckPending(history: seq<Entry>, latestBlock: Option<int>, oracle: Oracle): (r: Option<seq<Entry>>)
    ensures |history| == 0 || Falsy(latestBlock) ==> r.None?
    ensures (forall i :: 0 <= i < |history| ==> history[i].status != Pending) ==> r.None?
    ensures r.Some? ==> && |r.value| == |history|
                        && (forall i :: 0 <= i < |history| ==> r.value[i].txid == history[i].txid)
                        && (forall i :: 0 <= i < |history| ==>
                              || r.value[i] == history[i]
                              || exists j :: && 0 <= j < |history| && history[j].status == Pending
                                             && ReportedConfirmed(oracle, history[j].txid)
                                             && r.value[i] == history[j].(status := Confirmed))
    ensures r.Some? <==> && |history| > 0 && !Falsy(latestBlock)
                         && exists i :: 0 <= i < |history| && history[i].status == Pending
                                        && ReportedConfirmed(oracle, history[i].txid)
  {
    if |history| == 0 || Falsy(latestBlock) then None
    else
      var pending := PendingEntries(history);
      PendingSweepChanged(history, oracle);
      if |pending| == 0 then None
      else
        var sweep := ConfirmPending(history, pending, oracle);
        PendingFromHistory(history, pending);
        if sweep.changed then Some(sweep.entries) else None
  }

  /** The store-level effect: the history is written back only when
      `CheckPending` found a change. */
  function RefreshHistory(store: Store<seq<Entry>>, latestBlock: Option<int>, oracle: Oracle): (r: Store<seq<Entry>>)
    ensures CheckPending(Get(store, HistoryKey, []), latestBlock, oracle).None? ==> r == store
    ensures CheckPending(Get(store, HistoryKey, []), latestBlock, oracle).Some? && store.Available? ==>
              Get(r, HistoryKey, []) == CheckPending(Get(store, HistoryKey, []), latestBlock, oracle).value
  {
    match CheckPending(Get(store, HistoryKey, []), latestBlock, oracle)
    case None => store
    case Some(updated) =>
      GetAfterSet(store, HistoryKey, updated, []);
      Set(store, HistoryKey, updated)
  }

  /** The evidently intended update: every pending entry reported confirmed
      becomes confirmed in place; nothing else moves. */
  function Confirmation(e: Entry, oracle: Oracle): Entry {
    if e.status == Pending && ReportedConfirmed(oracle, e.txid) then e.(status := Confirmed) else e
  }

  function ConfirmInPlace(history: seq<Entry>, oracle: Oracle): (r: seq<Entry>)
    ensures |r| == |history|
    ensures forall i :: 0 <= i < |history| ==> r[i] == history[i].(status := r[i].status)
    ensures forall i :: 0 <= i < |history| && history[i].status != Pending ==> r[i] == history[i]
    ensures forall i :: 0 <= i < |history| && history[i].status == Pending ==>
              (r[i].status == Confirmed <==> ReportedConfirmed(oracle, history[i].txid))
  {
    seq(|history|, i requires 0 <= i < |history| => Confirmation(history[i], oracle))
  }

  function CheckPendingInPlace(history: seq<Entry>, latestBlock: Option<int>, oracle: Oracle): (r: Option<seq<Entry>>)
    ensures r.Some? <==> && |history| > 0 && !Falsy(latestBlock)
                         && exists i :: && 0 <= i < |history| && history[i].status == Pending
                                        && ReportedConfirmed(oracle, history[i].txid)
    ensures r.Some? ==> r.value == ConfirmInPlace(history, oracle)
  {
    if |history| == 0 || Falsy(latestBlock) then None
    else if exists i :: 0 <= i < |history| && history[i].status == Pending && ReportedConfirmed(oracle, history[i].txid)
    then Some(ConfirmInPlace(history, oracle))
    else None
  }

  /** What a sweep does to one entry when txids are distinct. */
  function Target(e: Entry, pending: seq<Entry>, oracle: Oracle): Entry {
    match Find(pending, TxidIs(e.txid))
    case Some(p) => if ReportedConfirmed(oracle, p.txid) then p.(status := Confirmed) else e
    case None => e
  }

  /** With distinct txids, the lookup by txid finds the one entry that has it. */
  lemma LookupUnique(ps: seq<Entry>, k: nat)
    requires DistinctTxids(ps) && k < |ps|
    ensures Find(ps, TxidIs(ps[k].txid)) == Some(ps[k])
  {
    var r := Find(ps, TxidIs(ps[k].txid));
    assert TxidIs(ps[k].txid)(ps[k]);
    var m :| 0 <= m < |ps| && ps[m] == r.value && forall j :: 0 <= j < m ==> !TxidIs(ps[k].txid)(ps[j]);
    assert ps[m].txid == ps[k].txid;
  }

  lemma DistinctTail(ps: seq<Entry>)
    requires DistinctTxids(ps) && |ps| > 0
    ensures DistinctTxids(ps[1..])
    ensures forall m :: 0 <= m < |ps[1..]| ==> ps[1..][m].txid != ps[0].txid
  {
    forall i, j | 0 <= i < j < |ps[1..]| ensures ps[1..][i].txid != ps[1..][j].txid {
      assert ps[1..][i] == ps[i + 1] && ps[1..][j] == ps[j + 1];
    }
    forall m | 0 <= m < |ps[1..]| ensures ps[1..][m].txid != ps[0].txid {
      assert ps[1..][m] == ps[m + 1];
    }
  }

  /** The lookup of a txid in the tail agrees with the lookup in the whole
      sequence for every txid but the head's. */
  lemma LookupTail(ps: seq<Entry>, t: string)
    requires DistinctTxids(ps) && |ps| > 0
    ensures t == ps[0].txid ==> Find(ps, TxidIs(t)) == Some(ps[0]) && Find(ps[1..], TxidIs(t)).None?
    ensures t != ps[0].txid ==> Find(ps, TxidIs(t)) == Find(ps[1..], TxidIs(t))
  {
    DistinctTail(ps);
    if t == ps[0].txid {
      LookupUnique(ps, 0);
      forall m | 0 <= m < |ps[1..]| ensures !TxidIs(t)(ps[1..][m]) { }
    } else if k :| 0 <= k < |ps| && ps[k].txid == t {
      LookupUnique(ps, k);
      assert ps[1..][k - 1] == ps[k];
      LookupUnique(ps[1..], k - 1);
    } else {
      forall m | 0 <= m < |ps[1..]| ensures !TxidIs(t)(ps[1..][m]) {
        assert ps[1..][m] == ps[m + 1];
      }
    }
  }

  /** One step moves each entry one lookup closer to its `Target`. */
  lemma StepTarget(u: seq<Entry>, ps: seq<Entry>, oracle: Oracle, i: nat)
    requires DistinctTxids(u) && DistinctTxids(ps) && |ps| > 0 && i < |u|
    ensures Target(Step(u, ps[0], oracle).entries[i], ps[1..], oracle) == Target(u[i], ps, oracle)
  {
    var tx := ps[0];
    var s := Step(u, tx, oracle);
    LookupTail(ps, u[i].txid);
    if u[i].txid == tx.txid && ReportedConfirmed(oracle, tx.txid) {
      var j := FirstIndex(u, TxidIs(tx.txid)).value;
      assert u[j].txid == u[i].txid;
      assert s.entries[i] == tx.(status := Confirmed);
    } else if u[i].txid != tx.txid {
      assert s.entries[i] == u[i];
    }
  }

  /** A step keeps the set of txids. */
  lemma StepKeepsHasTxid(u: seq<Entry>, tx: Entry, oracle: Oracle)
    ensures forall t :: HasTxid(Step(u, tx, oracle).entries, t) <==> HasTxid(u, t)
  {
    var s := Step(u, tx, oracle).entries;
    forall t ensures HasTxid(s, t) <==> HasTxid(u, t) {
      if HasTxid(u, t) { var i :| 0 <= i < |u| && u[i].txid == t; assert s[i].txid == t; }
      if HasTxid(s, t) { var i :| 0 <= i < |s| && s[i].txid == t; assert u[i].txid == t; }
    }
  }

  /** A step keeps the set of txids, hence distinctness. */
  lemma StepKeepsTxids(u: seq<Entry>, tx: Entry, oracle: Oracle)
    requires DistinctTxids(u)
    ensures DistinctTxids(Step(u, tx, oracle).entries)
    ensures forall t :: HasTxid(Step(u, tx, oracle).entries, t) <==> HasTxid(u, t)
  {
    StepKeepsHasTxid(u, tx, oracle);
  }

  /** Whatever the txids, a sweep reports a change exactly when some pending
      txid that occurs in the list was reported confirmed. */
  lemma {:induction false} SweepChanged(u: seq<Entry>, ps: seq<Entry>, oracle: Oracle)
    ensures ConfirmPending(u, ps, oracle).changed
            <==> exists k :: 0 <= k < |ps| && ReportedConfirmed(oracle, ps[k].txid) && HasTxid(u, ps[k].txid)
    decreases |ps|
  {
    if |ps| > 0 {
      var s := Step(u, ps[0], oracle);
      SweepChanged(s.entries, ps[1..], oracle);
      ChangedSplit(u, ps, oracle, ConfirmPending(s.entries, ps[1..], oracle).changed);
    }
  }

  /** With distinct txids on both sides, a sweep sends every entry to its
      `Target`, and reports a change exactly when some pending txid that
      occurs in the list was reported confirmed. */
  lemma {:induction false} SweepDistinct(u: seq<Entry>, ps: seq<Entry>, oracle: Oracle)
    requires DistinctTxids(u) && DistinctTxids(ps)
    ensures var r := ConfirmPending(u, ps, oracle);
            && (forall i :: 0 <= i < |u| ==> r.entries[i] == Target(u[i], ps, oracle))
            && (r.changed <==> exists k :: 0 <= k < |ps| && ReportedConfirmed(oracle, ps[k].txid) && HasTxid(u, ps[k].txid))
    decreases |ps|
  {
    var r := ConfirmPending(u, ps, oracle);
    if |ps| == 0 {
      forall i | 0 <= i < |u| ensures r.entries[i] == Target(u[i], ps, oracle) {
        assert Find(ps, TxidIs(u[i].txid)).None?;
      }
    } else {
      var s := Step(u, ps[0], oracle);
      StepKeepsTxids(u, ps[0], oracle);
      DistinctTail(ps);
      SweepDistinct(s.entries, ps[1..], oracle);
      var rest := ConfirmPending(s.entries, ps[1..], oracle);
      assert r == Sweep(rest.entries, s.changed || rest.changed);
      forall i | 0 <= i < |u| ensures r.entries[i] == Target(u[i], ps, oracle) {
        StepTarget(u, ps, oracle, i);
      }
      ChangedSplit(u, ps, oracle, rest.changed);
    }
  }

  /** The change flag of a sweep over a non-empty pending list, split into
      the head's step and the rest. */
  lemma ChangedSplit(u: seq<Entry>, ps: seq<Entry>, oracle: Oracle, restChanged: bool)
    requires |ps| > 0
    requires restChanged <==> exists k :: && 0 <= k < |ps[1..]| && ReportedConfirmed(oracle, ps[1..][k].txid)
                                         && HasTxid(Step(u, ps[0], oracle).entries, ps[1..][k].txid)
    ensures (Step(u, ps[0], oracle).changed || restChanged)
            <==> exists k :: 0 <= k < |ps| && ReportedConfirmed(oracle, ps[k].txid) && HasTxid(u, ps[k].txid)
  {
    var s := Step(u, ps[0], oracle);
    StepKeepsHasTxid(u, ps[0], oracle);
    if restChanged {
      var k :| 0 <= k < |ps[1..]| && ReportedConfirmed(oracle, ps[1..][k].txid) && HasTxid(s.entries, ps[1..][k].txid);
      assert ps[1..][k] == ps[k + 1];
    }
    if exists k :: 0 <= k < |ps| && ReportedConfirmed(oracle, ps[k].txid) && HasTxid(u, ps[k].txid) {
      var k :| 0 <= k < |ps| && ReportedConfirmed(oracle, ps[k].txid) && HasTxid(u, ps[k].txid);
      if k > 0 { assert ps[1..][k - 1] == ps[k]; }
    }
  }

  /** With distinct history txids, a pending entry's lookup finds itself. */
  lemma LookupPending(history: seq<Entry>, i: nat)
    requires DistinctTxids(history) && i < |history| && history[i].status == Pending
    ensures Find(PendingEntries(history), TxidIs(history[i].txid)) == Some(history[i])
  {
    var ps := PendingEntries(history);
    PendingDistinct(history);
    PendingIndex(history, i);
    var k :| 0 <= k < |ps| && ps[k] == history[i];
    LookupUnique(ps, k);
  }

  /** With distinct history txids, a settled entry's lookup finds nothing. */
  lemma LookupSettled(history: seq<Entry>, i: nat)
    requires DistinctTxids(history) && i < |history| && history[i].status != Pending
    ensures Find(PendingEntries(history), TxidIs(history[i].txid)).None?
  {
    var ps := PendingEntries(history);
    forall k | 0 <= k < |ps| ensures !TxidIs(history[i].txid)(ps[k]) {
      PendingSource(history, k);
      var j :| 0 <= j < |history| && history[j] == ps[k] && history[j].status == Pending;
      SettledDiffers(history, i, j);
    }
  }

  /** A settled entry and a pending entry of a history with distinct txids
      carry different txids. */
  lemma SettledDiffers(history: seq<Entry>, i: nat, j: nat)
    requires DistinctTxids(history) && i < |history| && j < |history|
    requires history[i].status != Pending && history[j].status == Pending
    ensures history[i].txid != history[j].txid
  {
    if j < i {
      assert history[j].txid != history[i].txid;
    }
  }

  /** Every pending entry is some history entry. */
  lemma PendingFromHistory(history: seq<Entry>, pending: seq<Entry>)
    requires pending == PendingEntries(history)
    ensures forall k :: 0 <= k < |pending| ==> exists j :: 0 <= j < |history| && history[j] == pending[k]
  {
    forall k | 0 <= k < |pending| ensures exists j :: 0 <= j < |history| && history[j] == pending[k] {
      PendingSource(history, k);
    }
  }

  /** The sweep over the pending entries reports a change exactly when some
      pending history entry is reported confirmed. */
  lemma PendingSweepChanged(history: seq<Entry>, oracle: Oracle)
    ensures ConfirmPending(history, PendingEntries(history), oracle).changed
            <==> exists i :: 0 <= i < |history| && history[i].status == Pending
                             && ReportedConfirmed(oracle, history[i].txid)
  {
    SweepChanged(history, PendingEntries(history), oracle);
    PendingReported(history, oracle);
  }

  /** Some pending txid occurring in the history is reported confirmed
      exactly when some pending history entry is. */
  lemma PendingReported(history: seq<Entry>, oracle: Oracle)
    ensures var ps := PendingEntries(history);
            (exists k :: 0 <= k < |ps| && ReportedConfirmed(oracle, ps[k].txid) && HasTxid(history, ps[k].txid))
            <==> exists i :: 0 <= i < |history| && history[i].status == Pending
                             && ReportedConfirmed(oracle, history[i].txid)
  {
    PendingReportedFromHistory(history, oracle);
    PendingReportedFromList(history, oracle);
  }

  lemma PendingReportedFromHistory(history: seq<Entry>, oracle: Oracle)
    ensures (exists i :: 0 <= i < |history| && history[i].status == Pending
                         && ReportedConfirmed(oracle, history[i].txid))
            ==> exists k :: && 0 <= k < |PendingEntries(history)|
                            && ReportedConfirmed(oracle, PendingEntries(history)[k].txid)
                            && HasTxid(history, PendingEntries(history)[k].txid)
  {
    if exists i :: 0 <= i < |history| && history[i].status == Pending && ReportedConfirmed(oracle, history[i].txid) {
      var i :| 0 <= i < |history| && history[i].status == Pending && ReportedConfirmed(oracle, history[i].txid);
      PendingIndex(history, i);
      var ps := PendingEntries(history);
      var k :| 0 <= k < |ps| && ps[k] == history[i];
      assert HasTxid(history, ps[k].txid);
    }
  }

  lemma PendingReportedFromList(history: seq<Entry>, oracle: Oracle)
    ensures (exists k :: && 0 <= k < |PendingEntries(history)|
                         && ReportedConfirmed(oracle, PendingEntries(history)[k].txid)
                         && HasTxid(history, PendingEntries(history)[k].txid))
            ==> exists i :: 0 <= i < |history| && history[i].status == Pending
                            && ReportedConfirmed(oracle, history[i].txid)
  {
    var ps := PendingEntries(history);
    if exists k :: 0 <= k < |ps| && ReportedConfirmed(oracle, ps[k].txid) && HasTxid(history, ps[k].txid) {
      var k :| 0 <= k < |ps| && ReportedConfirmed(oracle, ps[k].txid) && HasTxid(history, ps[k].txid);
      PendingSource(history, k);
      var j :| 0 <= j < |history| && history[j] == ps[k] && history[j].status == Pending;
      assert ReportedConfirmed(oracle, history[j].txid);
    }
  }

  /** When no two history entries share a txid, the code as written and the
      in-place update write the same list, and write under the same conditions. */
  lemma AsWrittenAgreesWhenDistinct(history: seq<Entry>, latestBlock: Option<int>, oracle: Oracle)
    requires DistinctTxids(history)
    ensures CheckPending(history, latestBlock, oracle) == CheckPendingInPlace(history, latestBlock, oracle)
  {
    if |history| > 0 && !Falsy(latestBlock) {
      var ps := PendingEntries(history);
      PendingDistinct(history);
      SweepDistinct(history, ps, oracle);
      var sweep := ConfirmPending(history, ps, oracle);
      forall i | 0 <= i < |history| ensures sweep.entries[i] == ConfirmInPlace(history, oracle)[i] {
        if history[i].status == Pending {
          LookupPending(history, i);
        } else {
          LookupSettled(history, i);
        }
      }
      assert sweep.entries == ConfirmInPlace(history, oracle);
      PendingReported(history, oracle);
    }
  }

  /** A history holding the same txid twice, the first copy already
      confirmed: the pending copy stays pending and the confirmed copy is
      overwritten with the pending copy's fields. */
  lemma DuplicateTxidOverwritesFirst()
    ensures var history := [Entry("t", Confirmed, "a", 1), Entry("t", Pending, "b", 2)];
            var oracle: Oracle := (txid: string) => Some(true);
            && CheckPending(history, Some(1), oracle)
               == Some([Entry("t", Confirmed, "b", 2), Entry("t", Pending, "b", 2)])
            && CheckPendingInPlace(history, Some(1), oracle)
               == Some([Entry("t", Confirmed, "a", 1), Entry("t", Confirmed, "b", 2)])
  {
    var history := [Entry("t", Confirmed, "a", 1), Entry("t", Pending, "b", 2)];
    var oracle: Oracle := (txid: string) => Some(true);
    assert PendingEntries(history[1..]) == [history[1]];
    assert PendingEntries(history) == [history[1]];
    assert FirstIndex(history, TxidIs("t")) == Some(0);
    var s := Step(history, history[1], oracle);
    assert s == Sweep([Entry("t", Confirmed, "b", 2), Entry("t", Pending, "b", 2)], true);
    assert ConfirmPending(history, [history[1]], oracle) == Sweep(s.entries, true);
    assert ConfirmInPlace(history, oracle) == [Entry("t", Confirmed, "a", 1), Entry("t", Confirmed, "b", 2)];
    assert history[1].status == Pending && ReportedConfirmed(oracle, history[1].txid);
  }
}

=== FILE: utils.dfy ===
/** The two frontend helpers every contract call goes through: `withHexPrefix`,
    which marks a text as hex for the EVM side, and `asBigInt`, which turns a
    JSON number into an unbounded integer. */
module Utils {
  import opened Results
  import opened Hex

  /** `s.startsWith('0x')`. */
  predicate HasHexPrefix(s: string) {
    |s| >= 2 && s[0] == '0' && s[1] == 'x'
  }

  predicate EndsWith(s: string, suffix: string) {
    |suffix| <= |s| && s[|s| - |suffix|..] == suffix
  }

  /** `withHexPrefix`: the text with `0x` in front, unless it already has it. */
  function WithHexPrefix(address: string): (r: string)
    ensures HasHexPrefix(r)
    ensures |address| <= |r| <= |address| + 2
    ensures EndsWith(r, address)
    ensures r == address <==> HasHexPrefix(address)
  {
    if HasHexPrefix(address) then address else "0x" + address
  }

  /** Prefixing twice is prefixing once. */
  lemma WithHexPrefixIdempotent(s: string)
    ensures WithHexPrefix(WithHexPrefix(s)) == WithHexPrefix(s)
  {
  }

  /** Hex text of a buffer never starts with `0x`, so prefixing it always adds
      exactly two characters, and dropping them decodes back to the buffer. */
  lemma PrefixedHexRoundTrip(bs: bytes)
    ensures WithHexPrefix(Encode(bs)) == "0x" + Encode(bs)
    ensures Decode(WithHexPrefix(Encode(bs))[2..]) == bs
  {
    EncodeHasNoX(bs);
    if |Encode(bs)| >= 2 {
      assert Encode(bs)[1] != 'x';
    }
    assert ("0x" + Encode(bs))[2..] == Encode(bs);
    DecodeEncode(bs);
  }

  /** A JavaScript number: the finite values (integral or not), the infinities
      and NaN. */
  datatype JsNumber = Finite(x: real) | PosInfinity | NegInfinity | NaN

  /** The value handed to `asBigInt`: a JSON number, a `bigint`, or anything
      else (`undefined`, a string, an object). */
  datatype JsValue = Number(n: JsNumber) | BigInt(i: int) | Other

  /** Why `asBigInt` throws: `BigInt(x)` rejects a number that is not an
      integer, and the helper itself rejects every other type. */
  datatype BigIntError = NotAnInteger | NotNumberOrBigInt

  predicate IsIntegral(n: JsNumber) {
    n.Finite? && n.x.Floor as real == n.x
  }

  /** `asBigInt`: numbers and bigints keep their value; everything else throws. */
  function AsBigInt(value: JsValue): (r: Result<int, BigIntError>)
    ensures r.Ok? <==> value.BigInt? || (value.Number? && IsIntegral(value.n))
    ensures r.Ok? && value.Number? ==> r.value as real == value.n.x
    ensures r.Ok? && value.BigInt? ==> r.value == value.i
    ensures value.Other? ==> r == Err(NotNumberOrBigInt)
  {
    match value
    case Number(n) =>
      if IsIntegral(n) then Ok(n.x.Floor) else Err(NotAnInteger)
    case BigInt(i) => Ok(i)
    case Other => Err(NotNumberOrBigInt)
  }

  /** Every integer, whether it arrives as a number or as a bigint, comes out
      as itself. */
  lemma AsBigIntOfInteger(k: int)
    ensures AsBigInt(Number(Finite(k as real))) == Ok(k)
    ensures AsBigInt(BigInt(k)) == Ok(k)
  {
  }
}
